=== FILE: README.md ===
# polymarket-arb-bot, modelled in Dafny

This project models the decision core of a Polymarket trading bot. The bot
looks for mispriced prediction markets and trades them on Polygon. The model
covers these parts:

- **Market records.** Raw Gamma API market objects are normalised into one
  record shape. Lookup by id, slug or question is part of this.
- **Pair-cost arbitrage.** A binary market pays $1 to the winning side. Buying
  YES and NO together for less than $1, after fees, locks in a profit.
- **Combinatorial (neg-risk) arbitrage.** This applies to events with three or
  more mutually exclusive outcomes.
- **Endgame selection.** The bot buys a near-certain side shortly before the
  market resolves.
- **Trade execution.** This covers splitting USDC.e into YES+NO, the hedge sell
  on the order book with exponential back-off, and the position ledger.
- **The risk gate.** Limit checks run in a fixed order, and a loss trips a
  sticky kill switch.
- **Wallet set-up.** This covers the one-time contract approvals and the
  USDC <-> USDC.e swap through Uniswap V3.
- **The real-time WebSocket price feed.** It has a price cache, event dispatch,
  subscription and a reconnect back-off.
- **LLM-assisted hedge scanning.** This covers the coverage tiers, JSON
  extraction, and pair enumeration and ranking.
- **The polling engine.** It handles the strategy registry, ticks with error
  isolation and token collection for the feed.

Every Python operation becomes a pure Dafny function, or a method where a loop
is the point. A raised exception becomes `Err(message)` of `Common.Result`, and
Python's `None` becomes `Common.Option`.

Some things are outside the model:

- The chain, the order-book client, HTTP servers, the LLM and the clock. What
  they answer is a parameter, and what the code would send them is part of the
  result.
- Prices are exact `real`s.

There is one module per source file (`Markets`, `Scanner`, `Combinatorial`,
`Endgame`, `Trading`, `Positions`, `Risk`, `Wallet`, `Swap`, `WsFeed`,
`Hedge`, `Engine`, `Config`). They share `Common`, which holds Python's scalar,
string, rounding and truthiness semantics. They also share `Sorting`, the
stable `sort(reverse=True)`.

## Model

| member | source | states |
|---|---|---|
| Common.ToFloat | modules/markets.py:265-267 | `float(v)` raises TypeError exactly on `None`, reads numbers as themselves and booleans as 1.0/0.0 |
| Common.Trunc | modules/swap.py:93-94 | `int(x)` truncates toward zero: for x >= 0 the result is the floor, for x < 0 the ceiling |
| Common.Round | modules/positions.py:88-91 | `round(x, d)` lies within half a unit of the d-th decimal of x, and rounds 0 to 0 |
| Common.RoundHalfEven | modules/positions.py:88-91 | the integer `round` picks lies within one half of its argument, and a tie goes to the even neighbour |
| Common.Upper | modules/positions.py:47 | `str.upper()` on ASCII: keeps the length, maps each letter a-z to its capital and leaves every other character alone |
| Common.Lower | modules/markets.py:74-77 | `str.lower()` on ASCII: keeps the length, maps each letter A-Z to its small form and leaves every other character alone |
| Common.NatToString | modules/positions.py:45 | the whole-second timestamp in an id renders as a non-empty digit string |
| Common.NatToStringRoundTrip | modules/positions.py:45 | the digits of a rendered timestamp read back as the same number |
| Common.NatToStringInjective | modules/positions.py:45 | different seconds give different id suffixes |
| Sorting.Insert | modules/scanner.py:72 | inserting into a largest-first list keeps it largest-first and adds exactly the new element |
| Sorting.SortDesc | modules/scanner.py:72 | `sort(key, reverse=True)` returns a permutation of its input whose keys never increase |
| Sorting.SortDescMembers | modules/scanner.py:72 | sorting neither loses nor invents an element |
| Sorting.TopPrefix | modules/risk.py:199-201 | the first n entries of a largest-first list are a sub-multiset of it, and none has a smaller key than an entry left out |
| Config.DryRun | config.py:32 | dry run is on when DRY_RUN is unset, and otherwise exactly when its lower-cased value is "true", "1" or "yes" |
| Config.UnsetOf | config.py:52-62 | keeps exactly the variables of the list whose value is empty, at most one per entry |
| Config.Missing | config.py:52-62 | a credential variable is listed exactly when its value is empty, and at most five are listed |
| Config.ValidateConfig | config.py:49-67 | without trading the check passes; with trading it raises exactly when some credential is empty |
| Config.ValidateConfigExtremes | config.py:49-67 | with every credential set the check passes; with none set, all five variables are reported in the order the code tests them |
| Markets.ScanTokensLastYesWins | modules/markets.py:239-251 | the YES id is missing exactly when no token's upper-cased outcome is YES, and otherwise is the id of the last YES token; the YES price is missing exactly when no YES token has a price, and otherwise is the price of the last YES token that has one |
| Markets.ScanTokensLastNoWins | modules/markets.py:239-251 | the same for NO: the id of the last NO token, missing exactly when there is none; the price of the last NO token with a price, missing exactly when none has one |
| Markets.ScanStepSide | modules/markets.py:241-251 | one token changes a side's id only when it belongs to that side, and the side's price only when it also has a price |
| Markets.ScanSideNone | modules/markets.py:239-251 | a side has no id exactly when no token belongs to it |
| Markets.ScanSideLast | modules/markets.py:239-251 | a side's id is that of its last token |
| Markets.ScanSidePrice | modules/markets.py:239-251 | a side's price is missing exactly when none of its tokens has a price, and is otherwise that of its last priced token |
| Markets.PriceEntry | modules/markets.py:264-267 | a falsy `outcomePrices` entry gives a missing price; a truthy one gives its float exactly when `float()` accepts it, and raises otherwise |
| Markets.PriceFallback | modules/markets.py:253-269 | token prices win; outcomePrices fills only missing ones, only with at least two entries; a missing YES price becomes the first entry's float, or stays missing when the entry is falsy; a missing NO price becomes the second entry's value unless the YES conversion raised first; a raising conversion leaves what was set before it |
| Markets.IdFallback | modules/markets.py:271-285 | present token ids win; clobTokenIds fills only falsy ones, and only when it has at least two entries |
| Markets.FirstOf | modules/markets.py:289-292 | `raw.get(a, raw.get(b, ""))`: the first key present wins, and "" when neither is present |
| Markets.Normalize | modules/markets.py:222-304 | the record takes the camel- or snake-case id and slug; the given liquidity, volume, active and closed flags, or zero, zero, active and open when missing; the token walk's prices and ids when found and the outcomePrices and clobTokenIds fallbacks when not; and the id, question, description, end date, category and tokens unchanged |
| Markets.NormalizeWithoutTokens | modules/markets.py:253-269 | a market without tokens takes its prices from outcomePrices, and a zero NO entry stays missing |
| Markets.LeadingSpaces | modules/markets.py:93 | counts the whitespace run at the start: all of it is whitespace and the next character is not |
| Markets.TrailingSpaces | modules/markets.py:93 | counts the whitespace run at the end: all of it is whitespace and the character before it is not |
| Markets.Strip | modules/markets.py:93 | `str.strip()` is the slice after the leading whitespace that leaves only whitespace behind it, and neither starts nor ends with whitespace |
| Markets.StripLeft | modules/markets.py:93 | the left strip is a suffix of its input that does not start with whitespace, and everything it drops is whitespace |
| Markets.StripRight | modules/markets.py:93 | the right strip is a prefix of its input that does not end with whitespace, and everything it drops is whitespace |
| Markets.StripLeftLeading | modules/markets.py:93 | the left strip drops exactly the leading whitespace run |
| Markets.StripRightTrailing | modules/markets.py:93 | the right strip drops exactly the trailing whitespace run |
| Markets.ClassifyId | modules/markets.py:93-97 | the stripped id is numeric when it is all ASCII digits; a slug when not numeric, not "0x"-prefixed and shorter than 40; a condition id otherwise |
| Markets.ClassifyConditionIds | modules/markets.py:93-97 | every "0x"-prefixed id without whitespace is treated as a condition id |
| Markets.GetMarketDetail | modules/markets.py:82-157 | a slug found by the slug lookup is returned normalised; the result is None exactly when both the lookup for the id's kind and the fallback lookup come back empty |
| Markets.Candidates | modules/markets.py:98-135 | the list whose head is normalised is empty exactly when the lookup for the id's kind and the unfiltered retry both come back empty |
| Markets.GetMarketDetailFromBook | modules/markets.py:137-157 | past the slug lookup the result is the first candidate normalised, changed at most in its two prices and only when it has a YES token id and a book; a side's price is that of the last token with its exact label before the first price `float()` rejects, or stays the normalised one when no such token precedes it |
| Markets.BookPrice | modules/markets.py:150-153 | `float(ct.get("price", 0))` gives 0 for a missing price, and converts exactly when `float()` accepts the value |
| Markets.Halt | modules/markets.py:142-155 | the loop gets through every token before the first exact "Yes"/"No" token whose price `float()` rejects, and stops at it |
| Markets.ApplyBook | modules/markets.py:147-155 | the live book changes nothing but the YES and NO prices |
| Markets.ApplyBookStops | modules/markets.py:142-155 | after the exception is caught, the tokens past the one that raised have no effect and the updates before it are kept |
| Markets.ApplyBookLast | modules/markets.py:149-153 | the last exact-case token of a side before the loop stops sets that side to its own price |
| Markets.ApplyBookUnset | modules/markets.py:149-153 | a side no token names before the loop stops keeps its price |
| Markets.TakePy | modules/markets.py:79 | `xs[:limit]` is a prefix of xs, of length min(limit, len) for a non-negative limit |
| Markets.FilterQuestion | modules/markets.py:74-78 | keeps exactly the markets whose ASCII-lower-cased question contains the ASCII-lower-cased query, and never more markets than it was given |
| Markets.FilterQuestionAppend | modules/markets.py:75-78 | the comprehension keeps order: filtering a concatenation filters each part in place |
| Markets.FilterQuestionSingle | modules/markets.py:75-78 | a single market is kept exactly when its question matches the query |
| Markets.SearchByQuestion | modules/markets.py:74-79 | the result is the front of the ordered matches, of length min(limit, matches) for a non-negative limit and of the matches less |limit| (at least 0) for a negative one, as Python slicing gives |
| Positions.LoadPositions | modules/positions.py:18-26 | a stored ledger is read as is; a missing or unreadable one reads as empty |
| Positions.RecordPosition | modules/positions.py:35-57 | appends one open record with the upper-cased side, the given size, entry and time, under the id condition id + "_" + side + "_" + the whole seconds of the time |
| Positions.PositionIdSeconds | modules/positions.py:45 | two records of one market and side opened at non-negative times share an id exactly when they were opened in the same whole second |
| Positions.FirstWithId | modules/positions.py:97-107 | finds the first record with the id, or reports that none has it |
| Positions.ClosePosition | modules/positions.py:97-107 | reports success exactly when some record has the id; then it closes the first such record at `now` and leaves the rest; otherwise the ledger is unchanged |
| Positions.LedgerAppendOnly | modules/positions.py:35-107 | after any run of records and closes, every earlier record is still there with its identity, and a closed one stays closed |
| Positions.RecordThenClose | modules/positions.py:35-107 | closing the record just added, under a fresh id, succeeds and marks exactly it closed |
| Positions.SameSecondIdsCollide | modules/positions.py:45 | two buys of one market and side in the same second get the same id, so a close by id hits the older one |
| Positions.OpenPositions | modules/positions.py:63 | keeps exactly the records not marked closed |
| Positions.PnlFigures | modules/positions.py:75-91 | the P&L in USD and per cent, and the current value, are each rounded to their stated decimals, with 0 per cent for a non-positive entry |
| Positions.PnlOf | modules/positions.py:68-91 | a record whose market is not found gets no figures; otherwise it is priced at its side's current price |
| Positions.PositionsWithPnl | modules/positions.py:60-94 | one row per open record, in ledger order, each priced with its own market |
| Positions.PnlReportsOpenOnly | modules/positions.py:60-94 | every reported row belongs to an open record of the ledger |
| Risk.SetInitialValue | modules/risk.py:30-32 | records the portfolio value and leaves the kill switch alone |
| Risk.Activate | modules/risk.py:36-41 | sets the kill switch and keeps the portfolio value |
| Risk.Deactivate | modules/risk.py:44-47 | clears the kill switch and keeps the portfolio value |
| Risk.LossOf | modules/risk.py:155-163 | a record adds to the day's loss exactly when it is closed today with a negative realised P&L, and never negatively |
| Risk.DailyLoss | modules/risk.py:150-165 | the day's loss is never negative |
| Risk.DailyLossZero | modules/risk.py:150-165 | the day's loss is zero exactly when no record contributes a loss |
| Risk.LedgerHasNoDailyLoss | modules/risk.py:150-165 | a ledger built only by recording and closing has no realised P&L, so its daily loss is always zero |
| Risk.NoRealizedPnlKept | modules/positions.py:35-107 | the ledger operations never write a realised P&L |
| Risk.DrawdownAsLoss | modules/risk.py:118-125 | the drawdown as written is the day's loss as a percentage of the initial value, and crosses the limit exactly when loss·100 >= limit·initial |
| Risk.Measure | modules/risk.py:84-124 | the drawdown is measured exactly when a positive initial value is set, and the loss is the ledger's daily loss |
| Risk.Report | modules/risk.py:79-129 | the report for check k has rank k in the gate's order |
| Risk.FiredFrom | modules/risk.py:79-129 | from check k on, only checks that fire are reported, each with its own rank |
| Risk.FiredFromOrdered | modules/risk.py:79-129 | the checks report in their fixed order, each at most once |
| Risk.FiredFromHas | modules/risk.py:79-129 | every check from k on that fires is reported |
| Risk.FiredMembers | modules/risk.py:79-129 | every reported violation comes from a check that fired |
| Risk.Violations | modules/risk.py:79-129 | with the switch off, the violations are exactly the checks that fire, in order, each once |
| Risk.CheckRiskLimits | modules/risk.py:54-147 | with the switch on, the only violation is the kill switch and nothing changes; the trade is allowed exactly when there are no violations; the switch is set afterwards exactly when it was set or a loss check fired |
| Risk.AllowedCheckRepeats | modules/risk.py:54-147 | an allowed check changes no state, so repeating it gives the same answer |
| Risk.LossTripHaltsNextCall | modules/risk.py:111-116 | a check whose daily loss reaches the cap trips the switch, and the next check is refused |
| Risk.LossTripExample | modules/risk.py:111-116 | a record closed today at a $60 loss, against the $50 default, trips the switch |
| Risk.KillSwitchSticky | modules/risk.py:36-129 | once set, the switch stays set through any checks until an explicit deactivation |
| Risk.HaltedChecksRefused | modules/risk.py:75-77 | while the switch is set, every check reports only the kill switch |
| Risk.KeyIndex | modules/risk.py:186-189 | finds the entry of a market in the exposure table, or reports that it has none |
| Risk.SumValuesUpdate | modules/risk.py:186-189 | updating one entry changes the table's total by exactly the change of that entry |
| Risk.PerMarketKeys | modules/risk.py:186-189 | the per-market table has one entry per market of the ledger and no duplicate keys |
| Risk.PerMarketValues | modules/risk.py:186-189 | each entry holds its market's exposure, size times entry summed over its records |
| Risk.PerMarketSum | modules/risk.py:183-189 | the per-market exposures add up to the total exposure |
| Risk.NoExposureWithout | modules/risk.py:92-97 | a market without records has zero exposure |
| Risk.RiskSummary | modules/risk.py:176-202 | reports the switch, the open count, the rounded exposure and loss, and the five largest markets of the per-market table (all of them when fewer), largest exposure first: a sub-multiset of the table, and no market left out has a larger exposure than one reported |
| Risk.RiskSummaryTopMarkets | modules/risk.py:186-201 | every reported market has an open position, and its reported exposure is the sum of size times entry price over that market's open positions |
| Scanner.Evaluate | modules/scanner.py:42-67 | a market yields an opportunity exactly when it passes the price and liquidity filters and its profit ratio reaches the threshold; the opportunity carries the market's id, question, prices and liquidity, the net cost with both fees, the profit 1 - cost and the ratio profit/cost (0 for a non-positive cost), and a size of the position limit or a tenth of the liquidity, whichever is smaller |
| Scanner.Emitted | modules/scanner.py:38-70 | at most one opportunity per market |
| Scanner.ScanForArbitrage | modules/scanner.py:22-77 | the result is the emitted opportunities, reordered by profit ratio, largest first |
| Scanner.EmittedMembers | modules/scanner.py:38-70 | an opportunity is emitted exactly when some market evaluates to it |
| Scanner.ScanMembers | modules/scanner.py:22-77 | an opportunity is in the scan exactly when some market evaluates to it |
| Scanner.ScanFilters | modules/scanner.py:42-66 | every reported opportunity clears the threshold, respects the size cap and comes from an eligible market |
| Scanner.EmittedAppend | modules/scanner.py:38-70 | scanning a concatenation scans each part in turn, so markets do not influence each other |
| Scanner.EmittedSingle | modules/scanner.py:38-70 | one market yields exactly its own evaluation |
| Scanner.ThresholdAsCostBound | modules/scanner.py:53-55 | the profit test is the cost bound net_cost <= 1/(1+threshold) |
| Scanner.CostBelowOneMinusThreshold | modules/scanner.py:53-55 | a cost below 1 - threshold always passes the test |
| Scanner.BoundaryCostEmits | modules/scanner.py:53-55 | a net cost of 0.995 passes the default 0.5% threshold, although 1 - 0.995 equals it |
| Scanner.WorkedExample | modules/scanner.py:22-77 | YES 0.46 + NO 0.50 with the default fee and enough liquidity gives one opportunity with its stated figures |
| Combinatorial.FilterNegRisk | strategies/combinatorial.py:44-48 | keeps exactly the events with at least three markets and a truthy negRisk flag |
| Combinatorial.FirstYes | strategies/combinatorial.py:71-75 | finds the first token whose upper-cased outcome is YES, or reports that none is |
| Combinatorial.YesPrice | strategies/combinatorial.py:71-86 | a positive price on the first YES token is used; otherwise the first outcomePrices entry is, and a non-numeric entry raises |
| Combinatorial.OutcomeOf | strategies/combinatorial.py:66-101 | a market is priced exactly when its YES price is positive, and then carries that price, its liquidity and its id |
| Combinatorial.OutcomesPriced | strategies/combinatorial.py:66-101 | all markets are priced, in order, exactly when each one is |
| Combinatorial.MinLiquidity | strategies/combinatorial.py:91-92 | the least liquidity is one of the outcomes' own, and is undefined (infinite) only with no outcomes |
| Combinatorial.Assess | strategies/combinatorial.py:103-125 | an opportunity exists exactly when the least liquidity and the profit ratio both reach their thresholds; it sums the prices plus the fee per outcome |
| Combinatorial.AnalyzeEvent | strategies/combinatorial.py:54-125 | an event with an unpriceable market yields nothing; with every market priced, the result is that assessment |
| Combinatorial.TokenPriceWins | strategies/combinatorial.py:71-77 | a YES token with a positive price is used as is |
| Combinatorial.FallbackPriceUsed | strategies/combinatorial.py:77-89 | without a usable token the first outcomePrices entry is used when positive, and the event is rejected otherwise |
| Combinatorial.Collect | strategies/combinatorial.py:133-138 | at most one opportunity per event; fails exactly when some event raises |
| Combinatorial.CollectMembers | strategies/combinatorial.py:133-138 | an opportunity is collected exactly when some event analyses to it |
| Combinatorial.ScanCombinatorial | strategies/combinatorial.py:128-142 | the filtered events' opportunities, reordered by profit ratio, largest first |
| Combinatorial.ScanCombinatorialFilters | strategies/combinatorial.py:128-142 | every ranked opportunity comes from a neg-risk event, clears the threshold and has at least three outcomes |
| Combinatorial.Legs | strategies/combinatorial.py:157-170 | every outcome with a condition id gives its YES buy of the equal share with the hedge sell off, and every leg comes from such an outcome |
| Combinatorial.LegsAppend | strategies/combinatorial.py:157-170 | the loop keeps order: the legs of a concatenation are the legs of each part in turn |
| Combinatorial.LegsSingle | strategies/combinatorial.py:157-170 | a single outcome gives one leg exactly when it has a condition id |
| Combinatorial.ExecuteCombinatorial | strategies/combinatorial.py:145-178 | zero outcomes raises ZeroDivisionError; otherwise the legs split the size equally |
| Combinatorial.LegsWithinSize | strategies/combinatorial.py:153-170 | the legs together never spend more than the opportunity's size |
| Combinatorial.ShareBound | strategies/combinatorial.py:154 | k equal shares of size/n add up to at most size when k <= n |
| Combinatorial.EqualSharesWithin | strategies/combinatorial.py:153-170 | at most n legs of size/n each spend at most size in all |
| Combinatorial.SumAmountsEqual | strategies/combinatorial.py:157-170 | legs of equal amounts sum to their count times the amount |
| Combinatorial.SumWithin | strategies/combinatorial.py:153-170 | legs of one equal amount whose count times that amount is within the size spend at most the size |
| Combinatorial.LegsNeverSell | strategies/combinatorial.py:161-169 | no combinatorial leg asks for a hedge sell, and an executed one is recorded at a full dollar per token |
| Endgame.FirstFormat | strategies/endgame.py:116-125 | finds the first date format, from position k on, that parses, or reports that none does |
| Endgame.ParseEndDate | strategies/endgame.py:114-126 | raises exactly when no format parses; otherwise the date is one that some format gives |
| Endgame.FirstFormatWins | strategies/endgame.py:116-123 | a timestamp the fractional-seconds format parses is read by that format |
| Endgame.Annualize | strategies/endgame.py:106-111 | zero for a non-positive horizon; otherwise the return scaled to 8760 hours, in per cent |
| Endgame.AnnualizeShorterIsHigher | strategies/endgame.py:106-111 | the same return over a shorter horizon annualises to at least as much |
| Endgame.Choice | strategies/endgame.py:67-76 | YES is chosen when it reaches the confidence level, otherwise NO when it does, otherwise nothing |
| Endgame.Opportunity | strategies/endgame.py:78-98 | the opportunity's profit, hours and annual return are rounded as stated, and its size is the lower of the exposure cap and 5% of liquidity |
| Endgame.EvaluateEndgame | strategies/endgame.py:42-99 | a market yields an opportunity exactly when it qualifies (end date in range, a confident side, price below 1) |
| Endgame.Gather | strategies/endgame.py:42-99 | the loop succeeds exactly when no iteration raised, a failure carries one iteration's error, and the opportunities are exactly those found |
| Endgame.GatherAppend | strategies/endgame.py:42-99 | looping over two runs is looping over each: the first error wins, otherwise the opportunities are concatenated |
| Endgame.CollectEndgame | strategies/endgame.py:42-99 | succeeds exactly when no market's evaluation raised, a failure carries one market's error, and collects exactly the markets' opportunities |
| Endgame.CollectEndgameAppend | strategies/endgame.py:42-99 | collecting over two runs of markets is collecting over each in turn, so the opportunities keep market order |
| Endgame.CollectEndgameSingle | strategies/endgame.py:42-99 | one market yields its error, its one opportunity, or nothing |
| Endgame.FindEndgameOpportunities | strategies/endgame.py:26-103 | the collected opportunities, reordered by annual return, largest first |
| Endgame.EndgameFilters | strategies/endgame.py:26-103 | every ranked opportunity comes from a qualifying market, has a confident price below 1 and respects the exposure cap |
| Endgame.YesWinsAndFullPriceSkipped | strategies/endgame.py:67-80 | when both sides are confident YES is bought, and a side priced at 1 or above is skipped |
| Endgame.EndgameExample | strategies/endgame.py:106-111 | 3 cents on 97 over one day annualises to 365 times the daily return, in per cent |
| Endgame.ExecuteEndgame | strategies/endgame.py:129-156 | buys the recommended side for the opportunity's size at its price, with the hedge sell off |
| Endgame.EndgameBuyRecordsFullDollar | strategies/endgame.py:138-147 | an endgame buy never asks for a hedge sell, so an executed one is recorded at a full dollar per token |
| Trading.HexChar | modules/trading.py:121 | each hex digit renders as a character that reads back as that digit |
| Trading.FromHex | modules/trading.py:121 | `bytes.fromhex` yields at most one byte per two characters |
| Trading.ToHex | modules/trading.py:121 | rendering gives two hex digits per byte |
| Trading.FromHexToHex | modules/trading.py:121 | hex rendering followed by `bytes.fromhex` is the identity |
| Trading.FromHexAllHex | modules/trading.py:121 | an even number of hex digits always decodes |
| Trading.FromHexRejects | modules/trading.py:121-126 | a character that is neither hex nor whitespace makes the decode fail |
| Trading.ZFill | modules/trading.py:119 | `zfill` leaves long strings alone and left-pads short ones with zeros to the width |
| Trading.NormalizeConditionId | modules/trading.py:115-119 | the stripped id without one "0x" is padded to at least 64 digits, and longer ones are kept |
| Trading.ConditionBytes | modules/trading.py:115-126 | the split's condition bytes are the decoded normalised id, or the ValueError |
| Trading.ConditionIdRoundTrip | modules/trading.py:115-126 | a "0x"-prefixed rendering of 32 bytes decodes back to those bytes |
| Trading.ShortHexIdsDecode | modules/trading.py:115-126 | any hex id of at most 64 digits, with or without "0x" or spaces, decodes to 32 bytes |
| Trading.NonHexIdRejected | modules/trading.py:120-126 | an id with a non-hex, non-space character is rejected |
| Trading.SplitPosition | modules/trading.py:101-153 | the split succeeds exactly when the node connects, the key loads and the id decodes; it sends the split for the raw amount and reports success exactly when the receipt status is 1 |
| Trading.OrderTypeOf | modules/trading.py:180-181 | GTD and FOK are chosen case-insensitively, and anything else means GTC |
| Trading.PlaceOrder | modules/trading.py:156-203 | a side other than BUY/SELL raises; otherwise the order is placed exactly when some attempt within max_retries succeeds, with back-off 1, 2, 4, … between attempts |
| Trading.BackoffTotal | modules/trading.py:199-200 | the back-off before attempt n totals 2^n - 1 seconds |
| Trading.DefaultRetriesSleep | modules/trading.py:175-200 | with the default five attempts a failing order sleeps 15 seconds in all, 8 the last time |
| Trading.SellOnClob | modules/trading.py:206-208 | a SELL of the amount at the price, placed exactly when some attempt succeeds |
| Trading.SellPositionAsWritten | modules/trading.py:245-283 | as written, a dry run reports itself, a failed order reports sell_failed, and a placed order always raises ImportError because the closer it imports does not exist |
| Trading.PlacedSellRaises | modules/trading.py:270-283 | for every order outcome: a placed order raises as written but is reported sold with its close request when corrected; an order that was not placed reads the same both ways |
| Trading.SellPosition | modules/trading.py:245-283 | corrected (see Findings): a dry run sells nothing; otherwise the sell is reported sold exactly when some attempt places the order, with a request to close the ledger record at the sell price, and a failed one reports sell_failed |
| Trading.Buy | modules/trading.py:286-372 | a bad side raises, a dry run does nothing, a raised split raises, a failed split reports split_failed with the split's result; an executed buy hedges with the unwanted token at 1 - price unless told not to, records the position once, reports the entry net of what the hedge recovered, and echoes the side, amount, condition id and split transaction (corrected; see Findings) |
| Trading.DictGet | modules/trading.py:327 | a dict literal holds a key exactly when some pair names it, and the last such pair wins |
| Trading.SplitFailedStatusOverwritten | modules/trading.py:325-327 | as written, a failed split is reported with status "failed", not "split_failed" |
| Trading.SkipSellEntryIsOne | modules/trading.py:330-344 | with the hedge sell off no sell is asked for, and the entry price is the full dollar |
| Trading.EntryPriceOfHedge | modules/trading.py:339-344 | a placed hedge makes the entry price the quoted price; without one the entry is 1 |
| Trading.BuyRecordsOnce | modules/trading.py:346-351 | an executed buy appends exactly one open record for the upper-cased side and the full amount, and leaves earlier records alone |
| Trading.UnplacedSellReportsSkipped | modules/trading.py:330-344 | a hedge sell asked for but not placed reports "skipped" and leaves the entry at the full dollar |
| Wallet.GetWeb3 | modules/wallet.py:54-62 | a connection exists exactly when the node URL is set and reachable |
| Wallet.AccountKey | modules/wallet.py:65-72 | an empty key raises; otherwise the key carries exactly one "0x" prefix |
| Wallet.AccountKeyIdempotent | modules/wallet.py:65-72 | loading an already loaded key changes nothing |
| Wallet.UsdcBalance | modules/wallet.py:85-86 | the balance in USDC is the raw balance over 10^6 |
| Wallet.AmountRaw | modules/trading.py:105 | `int(amount * 1e6)` is the largest whole number of raw units not above the amount |
| Wallet.AmountRawRoundTrip | modules/wallet.py:85-86 | raw units turned into USDC and back are unchanged |
| Wallet.MinedCount | modules/wallet.py:117-144 | no more nonces are consumed than approvals handled |
| Wallet.ApprovalFor | modules/wallet.py:117-144 | an approved contract reports already_approved; otherwise the receipt's status or the raised error |
| Wallet.UsedNonces | modules/wallet.py:117-144 | one nonce slot per approval |
| Wallet.Approvals | modules/wallet.py:117-144 | one result entry per approval |
| Wallet.ApprovalsAt | modules/wallet.py:117-144 | entry k of the results is the result for approval k |
| Wallet.UsedNoncesAt | modules/wallet.py:117-144 | approval k gets a nonce exactly when it needs approval, and it is the start plus the approvals mined before it |
| Wallet.ApproveContracts | modules/wallet.py:97-146 | one result per contract; a contract gets a nonce exactly when it needs approval, the nonce being the start plus the approvals mined before it |
| Wallet.MinedNoncesDistinct | modules/wallet.py:117-144 | a mined approval's nonce is below that of every later approval |
| Wallet.MinedCountMono | modules/wallet.py:117-144 | the nonce count never decreases along the list |
| Wallet.RaisedReusesNonce | modules/wallet.py:134-144 | an approval whose sending raised does not advance the nonce, so the next approval reuses it |
| Swap.MinOut | modules/swap.py:94 | the output floor lies between 0 and the input, and equals it without slippage |
| Swap.MinOutNearSlippage | modules/swap.py:94 | the floor is the slippage-reduced amount truncated, losing less than one raw unit |
| Swap.SwapNonceGap | modules/swap.py:139-141 | as written, after a mined approval the swap goes out with nonce count+2, leaving a gap |
| Swap.SwapTokens | modules/swap.py:74-276 | a swap raises exactly on a failed connection or key, or an insufficient balance; an approval is sent exactly when the allowance is short; exactly one more transaction, the exchange, is sent unless it is a dry run; nonces are consecutive; a dry run sends only the approval; the exchange carries the pool, deadline, amount and floor; the result reports the amount in, the floor in USDC, and the receipt's hash and status |
| Swap.DryRunStillApproves | modules/swap.py:105-162 | a dry run with too small an allowance still sends the approval, and nothing else |
| Swap.ReverseMirrors | modules/swap.py:178-276 | the reverse swap is the forward one with the input and output tokens exchanged |
| WsFeed.Update | modules/ws_feed.py:32-36 | the entry gains the data's keys, its values overwrite and other keys stay, other tokens are untouched, and the update time is set |
| WsFeed.Get | modules/ws_feed.py:38-39 | an unknown token has no entry; a known one gives its entry |
| WsFeed.GetPrice | modules/ws_feed.py:41-45 | no price for an unknown or empty entry; otherwise a truthy price, else the best bid |
| WsFeed.GetBestBidAsk | modules/ws_feed.py:47-51 | both missing for an unknown or empty entry; otherwise the stored best bid and ask |
| WsFeed.Clear | modules/ws_feed.py:62-64 | the cache is empty afterwards |
| WsFeed.UpdateThenRead | modules/ws_feed.py:32-45 | after an update setting a truthy price, that price is what the cache reports, and the best bid and ask are as they were |
| WsFeed.SafeFloat | modules/ws_feed.py:207-213 | `None` and values that do not convert give `None`; a value that converts gives its float |
| WsFeed.BestLevel | modules/ws_feed.py:216-222 | an empty side has no best level, a level without a price reads 0, and otherwise the first level's price |
| WsFeed.ApplyChanges | modules/ws_feed.py:165-181 | changes without an id are skipped; there are never more notices than changes; a token no change names keeps its entry; every token present before stays, and every named token ends up in the cache |
| WsFeed.Named | modules/ws_feed.py:167-170 | keeps exactly the changes that name a token |
| WsFeed.ApplyChangesNotices | modules/ws_feed.py:167-181 | with a callback, one notice per change that names a token, in order, carrying that change's price, best bid and best ask; none without a callback |
| WsFeed.ApplyChangesLast | modules/ws_feed.py:167-176 | a token ends with the data of the last change naming it merged over what it held before the event |
| WsFeed.MergeOverwritten | modules/ws_feed.py:176 | a later update writing the same keys hides an earlier one |
| WsFeed.ProcessEvent | modules/ws_feed.py:162-204 | a price change is the change loop; a book with an id stores the bids and asks, sets best bid and ask from the first levels and notifies when a callback is set; a last trade with an id stores its converted price; both leave other tokens alone; anything else changes nothing |
| WsFeed.ProcessAll | modules/ws_feed.py:155-158 | a batch never drops a cached token, and it raises only when some item is not an object |
| WsFeed.ProcessAllRaises | modules/ws_feed.py:155-160 | a batch raises exactly when one of its items is not an object |
| WsFeed.HandleMessage | modules/ws_feed.py:155-160 | a batch is processed item by item and a single event by itself |
| WsFeed.ProcessAllAppend | modules/ws_feed.py:156-158 | processing two batches in turn is processing their concatenation |
| WsFeed.HandleOne | modules/ws_feed.py:159-160 | a single object event is handled exactly like the event on its own |
| WsFeed.PriceChangeKeepsOthers | modules/ws_feed.py:166-181 | a price change leaves every token none of its entries names as it was |
| WsFeed.UnknownEventIgnored | modules/ws_feed.py:163-204 | an unknown event type changes nothing and raises no notice |
| WsFeed.LastTradeTouchesOnlyItsKey | modules/ws_feed.py:199-204 | a last trade changes only the last-trade price of its own token |
| WsFeed.BookSetsBestLevels | modules/ws_feed.py:183-197 | for every book with an id, the message neither raises nor leaves the other tokens changed; it stores the bids and asks, the best bid and ask are the first levels' prices, and the callback gets the book data |
| WsFeed.BookExample | modules/ws_feed.py:183-192 | a book with no bids and one ask reports no best bid and that ask |
| WsFeed.NotIn | modules/ws_feed.py:128 | keeps exactly the ids not already subscribed, and never more ids than it was given |
| WsFeed.NotInAppend | modules/ws_feed.py:128 | the comprehension keeps order: filtering a concatenation filters each part in place |
| WsFeed.NotInSingle | modules/ws_feed.py:128 | a single id survives exactly when it is not already subscribed |
| WsFeed.Subscribe | modules/ws_feed.py:126-129 | the subscription keeps its old ids as a prefix and gains exactly the new ones |
| WsFeed.SubscribeDistinct | modules/ws_feed.py:126-129 | distinct new ids keep the subscription duplicate-free, and subscribing twice is idempotent |
| WsFeed.NotInDistinct | modules/ws_feed.py:128 | filtering a duplicate-free list keeps it duplicate-free |
| WsFeed.NotInNone | modules/ws_feed.py:128 | ids already subscribed are filtered out entirely |
| WsFeed.SubscribeKeepsRepeats | modules/ws_feed.py:128-129 | a repeated id in one call is added twice, because the filter checks only the old list |
| WsFeed.StartStep | modules/ws_feed.py:94-119 | a connection resets the delay; a lost connection doubles it up to 60; an unexpected error keeps it; a stopped feed stays stopped |
| WsFeed.DelayStaysInRange | modules/ws_feed.py:111-119 | the reconnect delay always stays between 1 and 60 seconds |
| WsFeed.BackoffDoubles | modules/ws_feed.py:111-114 | n lost connections in a row sleep 1, 2, 4, … seconds, capped at 60 |
| WsFeed.BackoffFrom | modules/ws_feed.py:111-114 | the back-off continues doubling from wherever it stands |
| WsFeed.Run | modules/ws_feed.py:94-119 | a run keeps the running flag, sleeps nothing when stopped, and while running sleeps once per failed attempt |
| Hedge.CoverageTier | modules/hedge.py:53-60 | the tier is 1 at 95% coverage or more, 2 at 90%, 3 at 85%, and 4 below |
| Hedge.CoverageTierMonotone | modules/hedge.py:53-60 | more coverage never gives a worse tier |
| Hedge.TierLabel | modules/hedge.py:63-64 | the label is HIGH exactly for tier 1, GOOD for 2, MODERATE for 3 and LOW for 4, and UNKNOWN for any other tier |
| Hedge.TierLabelsDistinct | modules/hedge.py:63-64 | different tiers in range have different labels |
| Hedge.FirstIndex | modules/hedge.py:104 | `str.index` finds the first occurrence, or fails when there is none |
| Hedge.LastIndex | modules/hedge.py:105 | `str.rindex` finds the last occurrence, or fails when there is none |
| Hedge.JsonSpan | modules/hedge.py:102-108 | a span exists exactly when the reply holds both braces; a non-empty one runs from the first "{" to the last "}" |
| Hedge.JsonSpanOfObject | modules/hedge.py:102-106 | text around an object, with no "{" before it and no "}" after it, is cut away whatever the object holds |
| Hedge.FirstIndexAt | modules/hedge.py:104 | the first occurrence is at the position where the character first appears |
| Hedge.LastIndexAt | modules/hedge.py:105 | the last occurrence is at the position after which the character does not appear |
| Hedge.AnalyzePair | modules/hedge.py:67-120 | a missing API key raises; an unparseable reply means no relationship; a decoded non-object raises; both markets and the model used are recorded |
| Hedge.PairsFromMembers | modules/hedge.py:145-146 | the enumeration holds exactly the pairs i < j below n |
| Hedge.PairsFromSorted | modules/hedge.py:145-146 | the pairs come in lexicographic order |
| Hedge.PairsFromCount | modules/hedge.py:145-146 | there are (n-i)(n-i-1)/2 pairs from row i on |
| Hedge.CheckedPairs | modules/hedge.py:143-166 | every checked pair is a pair of distinct market indices in range |
| Hedge.CheckedPairsFacts | modules/hedge.py:143-166 | exactly min(3·limit, n(n-1)/2) pairs are checked: the first ones in lexicographic order |
| Hedge.KeptResults | modules/hedge.py:151-163 | every kept analysis reports a relationship and a tier of at most min_tier and carries its tier's label; there is at most one per pair |
| Hedge.KeptResultsFrom | modules/hedge.py:151-163 | every kept analysis is the labelled analysis of one of the checked pairs, and that analysis passes the filter |
| Hedge.KeptResultsComplete | modules/hedge.py:151-163 | every checked pair whose analysis passes the filter contributes its labelled analysis |
| Hedge.ScanForHedges | modules/hedge.py:123-170 | fewer than two markets gives nothing; otherwise a reordering of the kept analyses of the checked pairs, at most one per pair, sorted by tier, best first |
| Hedge.ScanForHedgesMembers | modules/hedge.py:123-170 | a hedge is reported exactly when a checked pair's analysis is kept |
| Hedge.OutOfRangeTierKept | modules/hedge.py:153-157 | a tier of 0 in the reply passes the filter and is labelled "UNKNOWN" |
| Engine.Register | modules/engine.py:28-33 | registering binds the name to the class and leaves every other name alone |
| Engine.RegisterOverwrites | modules/engine.py:28-33 | registering a name again replaces the earlier class |
| Engine.RequestedNames | modules/engine.py:127 | an empty or missing list means ["arb"]; otherwise the list as given |
| Engine.Resolve | modules/engine.py:127-134 | each known name gives its class, in order; unknown names are skipped |
| Engine.ResolveAppend | modules/engine.py:129-134 | resolving a concatenation resolves each part in turn |
| Engine.ResolveExamples | modules/engine.py:127-134 | by default only the arb strategy runs, and unknown names are dropped without affecting the rest |
| Engine.NewEngine | modules/engine.py:108-134 | a given non-zero interval is kept and a missing or zero one takes the SCAN_INTERVAL_SECONDS setting; dry run falls back to the setting; the engine starts stopped at cycle 0, and its strategies are the resolved names |
| Engine.Attempts | modules/engine.py:68-79 | each opportunity gets one execution attempt, in order, with its own outcome |
| Engine.ArbTick | modules/engine.py:60-79 | the arb strategy attempts the scan's best opportunities, at most three, in rank order |
| Engine.ArbAttemptsIsolated | modules/engine.py:69-79 | which opportunities are attempted, and in what order, does not depend on how the executions turn out |
| Engine.ArbTickAsWritten | modules/engine.py:61 | as written, every arb tick raises ImportError before scanning |
| Engine.ArbNeverTrades | modules/engine.py:60-72 | even when the scan finds opportunities, the as-written tick raises while the corrected one attempts the best |
| Engine.StrategyTick | modules/engine.py:60-96 | the endgame strategy attempts nothing; the arb strategy runs its tick |
| Engine.TickAll | modules/engine.py:179-183 | every strategy runs once per cycle, in order |
| Engine.PollOnce | modules/engine.py:174-187 | a stopped engine does nothing; otherwise the cycle advances, a failed fetch runs no strategies, and a successful one runs every strategy |
| Engine.ErrorsIsolated | modules/engine.py:179-183 | every strategy still runs when others raise, and the result of one that does not raise is the same whichever others raise |
| Engine.TickAllSameOutcome | modules/engine.py:179-183 | the strategies' results do not depend on which of them raised |
| Engine.Stop | modules/engine.py:168-172 | stopping clears running, keeps the cycle and strategies, and stops the feed if there is one |
| Engine.PollRunCycles | modules/engine.py:174-187 | while running, the cycle advances once per fetch; after a stop, polling changes nothing |
| Engine.PollRun | modules/engine.py:174-187 | a stopped engine does nothing; a running one advances its cycle once per fetch, ticks every strategy on each fetched batch and skips the strategies when the fetch raised |
| Engine.FetchMarkets | modules/engine.py:189-193 | a truthy query searches; otherwise trending markets are fetched |
| Engine.TokenIds | modules/engine.py:197-203 | collects exactly the present YES and NO token ids, never an empty one, at most two per market |
| Engine.TokenIdsAppend | modules/engine.py:198-203 | collecting from a concatenation collects from each part in turn |
| Engine.StartWsFeed | modules/engine.py:195-220 | without token ids nothing changes; otherwise a running feed starts at delay 1, subscribed to the first 500 ids |
| Engine.YesBeforeNo | modules/engine.py:199-203 | a market's YES id is collected before its NO id |

## Left out

- HTTP, WebSocket, RPC and LLM calls are not modelled. Their answers are parameters: `Markets.Lookups`, `Trading.Chain`, `Swap.SwapChain`, the feed's events and the LLM reply. The order-book client, request signing and gas pricing are not modelled.
- The clock is not modelled: `time.time()` and the UTC day start are parameters. The `strptime` grammar is a function parameter (`Endgame.Strptime`); only the order in which the formats are tried is modelled.
- Positions.RecordPosition: the code reads `time.time()` twice (modules/positions.py:45 and :50), once for the id and once for `opened_at`; the model passes one `now` to both, so it does not cover the clock moving between the two reads.
- Floating point is not modelled. Prices are exact reals, and `round` is exact half-even rounding. Float representation effects on the thresholds are not captured.
- Sorting: the stable sort is proved to be a sorted permutation. Stability itself is not proved.
- JSON decoding is not modelled. A `Common.Text` carries what `float()` of it gives. The `outcomePrices` JSON string is given already decoded. A decoded LLM reply is an input (`Hedge.Decoded`). A non-integer tier, non-object levels and non-object price changes are not modelled.
- Integer parsing of environment settings is not modelled. This covers `CLOB_MAX_RETRIES` and the risk limits; they are already-parsed parameters.
- Hex decoding: non-ASCII characters in a condition id are treated as a decode error.
- `close_position_by_market` is imported by `sell_position`, but modules/positions.py does not define it (see Findings). The corrected `Trading.SellPosition` emits the call as a `Trading.CloseRequest` rather than inventing its effect.
- `execute_opportunity` is imported by the arb strategy, but modules/scanner.py does not define it. Its outcome is a function parameter of `Engine.ArbTick`.
- The logger, the notifier and `log_opportunity` have no effect on results, so they are not modelled. Nor are the CLI in scripts/polyclaw.py or utils/.
- `PriceCache.age`, `all_prices` (a plain copy), `get_wallet_status`'s POL balance and `swap.get_balances` are not modelled. They only read chain or clock state.
- `cancel_order`, `cancel_all_orders`, `get_open_orders` and `_get_clob_client` are not modelled; they are order-book client calls with no logic of their own.
- Asynchrony is not modelled: tasks, signal handlers, `asyncio.gather`, the `on_price_change` fan-out through `create_task`, and the timing of sleeps. Sleeps are reported as durations. The endgame tick's body only logs.
- Swap.SwapTokens: assumes no other transaction from the account lands between the code's reads of the transaction count.
- Common.Upper, Common.Lower, Common.AllDigits: ASCII only. Python's `str.upper()`, `str.lower()` and `str.isdigit()` also map or accept non-ASCII letters and digits ("é", "²", Arabic-Indic digits); the model leaves every non-ASCII character unchanged and never counts it as a digit. Python's case mapping can also change the length ("ß".upper() is "SS"); the model's never does.
- Markets.ClassifyId: inherits the ASCII-only `isdigit`. An id made only of non-ASCII Unicode digits is numeric in the source but a slug or condition id here.
- Markets.FilterQuestion: matching ignores case only for ASCII letters. A question and a query that differ only in non-ASCII case match in the source but not here.
- Markets.SearchByQuestion: the same ASCII-only case folding as `Markets.FilterQuestion`.
- Markets.GetMarketDetail: the fetched book is also stored under the market's "orderbook" key (modules/markets.py:144). `Markets.Market` has no such field, so the model drops it. A fetch of the book that raises is modelled as an absent book.
- Markets.Token: a token's price arrives already converted. A non-numeric price, on which `float()` at modules/markets.py:247 and :251 raises ValueError out of the normalisation, is not modelled.
- Config.ValidateConfig: the error text lists the missing names, but only the names' membership is stated, not the exact message.

## Findings

| source | as written | input that shows it | evidently intended | confidence | as-written member | corrected member |
|---|---|---|---|---|---|---|
| modules/swap.py:139-141 | after the approval is mined, the swap nonce is `get_transaction_count + 1` | allowance < amount_raw <= balance, not a dry run: the approval uses nonce n and the swap uses n+2 | the swap takes the next nonce, n+1, because the count already includes the mined approval | not executed | Swap.SwapNonceGap | Swap.SwapTokens |
| modules/trading.py:327 | `{"status": "split_failed", **split_result}` puts the split's own status after the literal one | a split whose receipt status is not 1 returns status "failed" | the caller sees status "split_failed" | not executed | Trading.SplitFailedStatusOverwritten | Trading.Buy |
| modules/engine.py:61 | the arb tick imports `execute_opportunity` from modules.scanner, which does not define it | any tick of the default "arb" strategy raises ImportError before scanning | the tick scans and attempts the top three opportunities | not executed | Engine.ArbNeverTrades | Engine.ArbTick |
| modules/trading.py:271-272 | a placed sell imports `close_position_by_market` from modules.positions, which does not define it | any sell that is not a dry run and whose order is placed raises ImportError after the order is already on the book | the ledger record is closed and the sell is reported sold | not executed | Trading.PlacedSellRaises | Trading.SellPosition |

=== FILE: combinatorial.dfy ===
/** Multi-outcome ("neg-risk") arbitrage (strategies/combinatorial.py). In an
    event whose N outcomes are mutually exclusive and exhaustive exactly one
    YES token pays $1, so buying every outcome's YES for less than $1 in all
    locks in a profit. Fetching events is not modelled; their decoded JSON
    is the input. */
module Combinatorial {
  import opened Common
  import opened Config
  import opened Markets
  import Sorting
  import Trading
  import Positions

  /** One outcome market of an event, as the events API returns it. */
  datatype EventMarket = EventMarket(
    conditionId: string,                 // "" when missing
    question: string,
    tokens: seq<Token>,
    outcomePrices: Option<seq<Scalar>>,  // already decoded from its JSON string
    liquidityNum: Option<real>           // None when missing or null
  )

  datatype Event = Event(id: string, title: string, markets: seq<EventMarket>, negRisk: Option<Scalar>)

  /** Lines 44-48: at least three outcome markets and a truthy negRisk flag. */
  predicate IsNegRisk(e: Event) {
    |e.markets| >= 3 && e.negRisk.Some? && Truthy(e.negRisk.value)
  }

  function FilterNegRisk(es: seq<Event>): (r: seq<Event>)
    ensures |r| <= |es|
    ensures forall e :: e in r <==> e in es && IsNegRisk(e)
  {
    if |es| == 0 then []
    else (if IsNegRisk(es[0]) then [es[0]] else []) + FilterNegRisk(es[1..])
  }

  // ---------------------------------------------------------------------
  // analyze_event
  // ---------------------------------------------------------------------

  /** Index of the first token whose upper-cased outcome is "YES". */
  function FirstYes(ts: seq<Token>): (r: Option<nat>)
    ensures r.Some? ==> r.value < |ts| && IsYes(ts[r.value])
                        && forall j :: 0 <= j < r.value ==> !IsYes(ts[j])
    ensures r.None? ==> forall j :: 0 <= j < |ts| ==> !IsYes(ts[j])
  {
    if |ts| == 0 then None
    else if IsYes(ts[0]) then Some(0)
    else match FirstYes(ts[1..])
      case Some(k) => Some(k + 1)
      case None => None
  }

  /** One priced outcome of an opportunity. */
  datatype Outcome = Outcome(conditionId: string, question: string, yesPrice: real,
                             yesTokenId: Option<string>, liquidity: real)

  /** The YES price lines 71-86 settle on before the positivity test: the
      first YES token's price (null reads as 0), replaced by
      `float(outcomePrices[0])` when that is not positive. A ValueError from
      `float` is swallowed; a TypeError (a null entry) escapes. */
  function YesPrice(m: EventMarket): (r: Result<Option<real>>)
    ensures r.Err? <==> TokenPriceMissing(m) && m.outcomePrices.Some? && |m.outcomePrices.value| > 0
                        && m.outcomePrices.value[0].Null?
    ensures !TokenPriceMissing(m) ==> r == Ok(Some(TokenPrice(m).value))
  {
    var fromToken := TokenPrice(m);
    if !TokenPriceMissing(m) then Ok(fromToken)
    else if m.outcomePrices.Some? && |m.outcomePrices.value| > 0 then
      match ToFloat(m.outcomePrices.value[0])
      case Float(x) => Ok(Some(x))
      case ValueErr => Ok(fromToken)
      case TypeErr => Err("float() argument must be a string or a real number, not 'NoneType'")
    else Ok(fromToken)
  }

  /** `float(t.get("price", 0) or 0)` of the first YES token, if any. */
  function TokenPrice(m: EventMarket): Option<real> {
    match FirstYes(m.tokens)
    case Some(k) => Some(m.tokens[k].price.GetOr(0.0))
    case None => None
  }

  /** `not yes_price or yes_price <= 0` after the token walk. */
  predicate TokenPriceMissing(m: EventMarket) {
    TokenPrice(m).None? || TokenPrice(m).value <= 0.0
  }

  /** One iteration of the loop of lines 66-101: the outcome, `None` when
      the market has no positive YES price (which ends the whole analysis),
      or the escaping TypeError. */
  function OutcomeOf(m: EventMarket): (r: Result<Option<Outcome>>)
    ensures r.Ok? && r.value.Some? ==> r.value.value.yesPrice > 0.0
    ensures r.Ok? && r.value.Some? ==>
      r.value.value.conditionId == m.conditionId && r.value.value.liquidity == m.liquidityNum.GetOr(0.0)
    ensures r.Ok? && r.value.Some? ==>
      r.value.value.yesTokenId == (if FirstYes(m.tokens).Some? then Some(m.tokens[FirstYes(m.tokens).value].tokenId) else None)
    ensures r.Ok? <==> YesPrice(m).Ok?
    ensures r.Ok? && r.value.Some? <==> YesPrice(m).Ok? && YesPrice(m).value.Some? && YesPrice(m).value.value > 0.0
  {
    match YesPrice(m)
    case Err(e) => Err(e)
    case Ok(p) =>
      if p.None? || p.value <= 0.0 then Ok(None)
      else
        var tokenId := match FirstYes(m.tokens)
          case Some(k) => Some(m.tokens[k].tokenId)
          case None => None;
        Ok(Some(Outcome(m.conditionId, m.question, p.value, tokenId, m.liquidityNum.GetOr(0.0))))
  }

  /** The loop of lines 66-101: every market priced, in order; the first
      market that is unpriced or raises decides the whole result. */
  function Outcomes(ms: seq<EventMarket>): (r: Result<Option<seq<Outcome>>>)
    ensures r.Ok? && r.value.Some? ==> |r.value.value| == |ms|
  {
    if |ms| == 0 then Ok(Some([]))
    else match OutcomeOf(ms[0])
      case Err(e) => Err(e)
      case Ok(None) => Ok(None)
      case Ok(Some(o)) =>
        match Outcomes(ms[1..])
        case Err(e) => Err(e)
        case Ok(None) => Ok(None)
        case Ok(Some(rest)) => Ok(Some([o] + rest))
  }

  /** Every market is priced, in order, exactly when each one is. */
  lemma {:induction false} OutcomesPriced(ms: seq<EventMarket>)
    ensures var r := Outcomes(ms);
      && (r.Ok? && r.value.Some? ==> forall i :: 0 <= i < |ms| ==> OutcomeOf(ms[i]) == Ok(Some(r.value.value[i])))
      && ((forall i :: 0 <= i < |ms| ==> OutcomeOf(ms[i]).Ok? && OutcomeOf(ms[i]).value.Some?) <==> r.Ok? && r.value.Some?)
    decreases |ms|
  {
    if |ms| > 0 {
      OutcomesPriced(ms[1..]);
      assert forall i :: 1 <= i < |ms| ==> ms[i] == ms[1..][i - 1];
    }
  }

  function SumPrices(os: seq<Outcome>): real {
    if |os| == 0 then 0.0 else SumPrices(os[..|os| - 1]) + os[|os| - 1].yesPrice
  }

  /** The least liquidity; None stands for the `float("inf")` start value. */
  function MinLiquidity(os: seq<Outcome>): (r: Option<real>)
    ensures r.None? <==> |os| == 0
    ensures r.Some? ==> (exists i :: 0 <= i < |os| && os[i].liquidity == r.value)
                        && forall i :: 0 <= i < |os| ==> r.value <= os[i].liquidity
  {
    if |os| == 0 then None
    else
      var rest := MinLiquidity(os[..|os| - 1]);
      var l := os[|os| - 1].liquidity;
      if rest.Some? && rest.value <= l then
        assert forall i :: 0 <= i < |os| - 1 ==> os[..|os| - 1][i] == os[i];
        rest
      else
        assert forall i :: 0 <= i < |os| - 1 ==> os[..|os| - 1][i] == os[i];
        Some(l)
  }

  /** The opportunity dict of lines 114-125. A `minLiquidity` of None is
      infinity, possible only for an event without markets. */
  datatype CombOpp = CombOpp(
    eventId: string,
    eventTitle: string,
    numOutcomes: nat,
    outcomes: seq<Outcome>,
    totalCost: real,      // round(net_cost, 6)
    netProfit: real,      // round(net_profit, 6)
    netProfitPct: real,
    minLiquidity: Option<real>,
    maxSize: real
  )

  /** `net_cost = Σ price + N·fee`, exactly. */
  function NetCost(os: seq<Outcome>, cfg: Settings): real {
    SumPrices(os) + cfg.feeRate * (|os| as real)
  }

  function ProfitPct(netCost: real): real {
    if netCost > 0.0 then (1.0 - netCost) / netCost else 0.0
  }

  /** Lines 103-125 once every outcome is priced. */
  function Assess(e: Event, os: seq<Outcome>, cfg: Settings): (r: Option<CombOpp>)
    ensures r.Some? <==> (MinLiquidity(os).None? || MinLiquidity(os).value >= cfg.minLiquidity)
                         && ProfitPct(NetCost(os, cfg)) >= cfg.minProfit
    ensures r.Some? ==>
      && r.value.outcomes == os && r.value.numOutcomes == |os|
      && r.value.netProfitPct == ProfitPct(NetCost(os, cfg)) >= cfg.minProfit
      && Near(r.value.totalCost, NetCost(os, cfg), 6)
      && Near(r.value.netProfit, 1.0 - NetCost(os, cfg), 6)
      && r.value.minLiquidity == MinLiquidity(os)
      && r.value.maxSize <= cfg.maxPositionSize
      && (MinLiquidity(os).Some? ==> r.value.maxSize <= MinLiquidity(os).value * 0.1)
      && (r.value.maxSize == cfg.maxPositionSize
          || (MinLiquidity(os).Some? && r.value.maxSize == MinLiquidity(os).value * 0.1))
  {
    var minLiq := MinLiquidity(os);
    if minLiq.Some? && minLiq.value < cfg.minLiquidity then None
    else
      var netCost := NetCost(os, cfg);
      var pct := ProfitPct(netCost);
      if pct < cfg.minProfit then None
      else
        var maxSize := if minLiq.Some? then Min(cfg.maxPositionSize, minLiq.value * 0.1) else cfg.maxPositionSize;
        Some(CombOpp(e.id, e.title, |os|, os, Round(netCost, 6), Round(1.0 - netCost, 6), pct, minLiq, maxSize))
  }

  /** `analyze_event`: an opportunity, None, or the TypeError that escapes. */
  function AnalyzeEvent(e: Event, cfg: Settings): (r: Result<Option<CombOpp>>)
    ensures r.Ok? && r.value.Some? ==>
      && r.value.value.numOutcomes == |e.markets| == |r.value.value.outcomes|
      && (forall i :: 0 <= i < |e.markets| ==> OutcomeOf(e.markets[i]) == Ok(Some(r.value.value.outcomes[i])))
      && r.value.value.netProfitPct >= cfg.minProfit
      && r.value.value.maxSize <= cfg.maxPositionSize
    ensures (exists i :: 0 <= i < |e.markets| && OutcomeOf(e.markets[i]) == Ok(None)) ==> !(r.Ok? && r.value.Some?)
    ensures Outcomes(e.markets).Ok? && Outcomes(e.markets).value.Some? ==>
      r == Ok(Assess(e, Outcomes(e.markets).value.value, cfg))
  {
    OutcomesPriced(e.markets);
    match Outcomes(e.markets)
    case Err(msg) => Err(msg)
    case Ok(None) => Ok(None)
    case Ok(Some(os)) => Ok(Assess(e, os, cfg))
  }

  /** A YES token with a positive price is used as it is: the outcomePrices
      fallback is consulted only when that price is missing or not positive. */
  lemma TokenPriceWins(m: EventMarket)
    requires FirstYes(m.tokens).Some? && m.tokens[FirstYes(m.tokens).value].price.GetOr(0.0) > 0.0
    ensures OutcomeOf(m).Ok? && OutcomeOf(m).value.Some?
    ensures OutcomeOf(m).value.value.yesPrice == m.tokens[FirstYes(m.tokens).value].price.value
  {
  }

  /** Without a usable YES token the first outcomePrices entry is used,
      provided it reads as a positive number. */
  lemma FallbackPriceUsed(m: EventMarket, x: real)
    requires TokenPriceMissing(m)
    requires m.outcomePrices.Some? && |m.outcomePrices.value| > 0 && m.outcomePrices.value[0] == Number(x)
    ensures x > 0.0 ==> OutcomeOf(m) == Ok(Some(Outcome(m.conditionId, m.question, x,
      if FirstYes(m.tokens).Some? then Some(m.tokens[FirstYes(m.tokens).value].tokenId) else None,
      m.liquidityNum.GetOr(0.0))))
    ensures x <= 0.0 ==> OutcomeOf(m) == Ok(None)
  {
  }

  // ---------------------------------------------------------------------
  // scan_combinatorial
  // ---------------------------------------------------------------------

  /** Opportunities in event order; the first escaping TypeError ends the
      scan. */
  function Collect(es: seq<Event>, cfg: Settings): (r: Result<seq<CombOpp>>)
    ensures r.Ok? ==> |r.value| <= |es|
    ensures r.Ok? <==> forall i :: 0 <= i < |es| ==> AnalyzeEvent(es[i], cfg).Ok?
  {
    if |es| == 0 then Ok([])
    else
      assert forall i :: 1 <= i < |es| ==> es[i] == es[1..][i - 1];
      match AnalyzeEvent(es[0], cfg)
      case Err(msg) => Err(msg)
      case Ok(first) =>
        match Collect(es[1..], cfg)
        case Err(msg) => Err(msg)
        case Ok(rest) => Ok((if first.Some? then [first.value] else []) + rest)
  }

  /** A collected opportunity is exactly what some event analyses to. */
  lemma {:induction false} CollectMembers(es: seq<Event>, cfg: Settings, o: CombOpp)
    requires Collect(es, cfg).Ok?
    ensures o in Collect(es, cfg).value <==> exists i :: 0 <= i < |es| && AnalyzeEvent(es[i], cfg) == Ok(Some(o))
    decreases |es|
  {
    if |es| > 0 {
      CollectMembers(es[1..], cfg, o);
      var first := AnalyzeEvent(es[0], cfg).value;
      var rest := Collect(es[1..], cfg).value;
      assert Collect(es, cfg).value == (if first.Some? then [first.value] else []) + rest;
      if exists i :: 0 <= i < |es| && AnalyzeEvent(es[i], cfg) == Ok(Some(o)) {
        var i :| 0 <= i < |es| && AnalyzeEvent(es[i], cfg) == Ok(Some(o));
        if i > 0 {
          assert es[1..][i - 1] == es[i];
        }
      }
      if o in rest {
        var i :| 0 <= i < |es[1..]| && AnalyzeEvent(es[1..][i], cfg) == Ok(Some(o));
        assert es[i + 1] == es[1..][i];
      }
    }
  }

  function PctKey(o: CombOpp): real { o.netProfitPct }

  /** `scan_combinatorial` over the fetched events: filter, analyse, rank by
      profit percentage, largest first. */
  function ScanCombinatorial(events: seq<Event>, cfg: Settings): (r: Result<seq<CombOpp>>)
    ensures r.Ok? <==> Collect(FilterNegRisk(events), cfg).Ok?
    ensures r.Ok? ==> multiset(r.value) == multiset(Collect(FilterNegRisk(events), cfg).value)
    ensures r.Ok? ==> Sorting.SortedDesc(r.value, PctKey)
  {
    match Collect(FilterNegRisk(events), cfg)
    case Err(msg) => Err(msg)
    case Ok(opps) => Ok(Sorting.SortDesc(opps, PctKey))
  }

  /** Every ranked opportunity comes from a neg-risk event of the input with
      at least three outcomes and clears the profit threshold. */
  lemma ScanCombinatorialFilters(events: seq<Event>, cfg: Settings, o: CombOpp)
    requires ScanCombinatorial(events, cfg).Ok? && o in ScanCombinatorial(events, cfg).value
    ensures o.netProfitPct >= cfg.minProfit && o.numOutcomes >= 3
    ensures exists e :: e in events && IsNegRisk(e) && AnalyzeEvent(e, cfg) == Ok(Some(o))
  {
    var evs := FilterNegRisk(events);
    var opps := Collect(evs, cfg).value;
    Sorting.SortDescMembers(opps, PctKey, o);
    CollectMembers(evs, cfg, o);
    var i :| 0 <= i < |evs| && AnalyzeEvent(evs[i], cfg) == Ok(Some(o));
    assert evs[i] in evs;
  }

  // ---------------------------------------------------------------------
  // execute_combinatorial
  // ---------------------------------------------------------------------

  /** The summary dict of lines 172-178, with the legs asked for. */
  datatype Execution = Execution(event: string, outcomesTraded: nat, totalSize: real,
                                 profitPct: real, legs: seq<Trading.BuyCall>)

  /** The leg bought for one outcome: its YES side, at an equal share,
      never selling. */
  function Leg(o: Outcome, perOutcome: real, dryRun: bool): Trading.BuyCall {
    Trading.BuyCall(o.conditionId, "YES", perOutcome, o.yesPrice, o.yesTokenId, None, true, dryRun)
  }

  /** One leg per outcome with a condition id, each buying YES for an
      equal share and never selling. */
  function Legs(os: seq<Outcome>, perOutcome: real, dryRun: bool): (r: seq<Trading.BuyCall>)
    ensures |r| <= |os|
    ensures forall l :: l in r ==> l.side == "YES" && l.skipSell && l.amountUsdc == perOutcome
                                   && l.noTokenId.None? && l.dryRun == dryRun && l.conditionId != ""
    ensures forall o :: o in os && o.conditionId != "" ==> Leg(o, perOutcome, dryRun) in r
    ensures forall l :: l in r ==> exists o :: o in os && o.conditionId != "" && l == Leg(o, perOutcome, dryRun)
  {
    if |os| == 0 then []
    else
      var o := os[0];
      var rest := Legs(os[1..], perOutcome, dryRun);
      assert forall x :: x in os ==> x == o || x in os[1..];
      assert forall x :: x in os[1..] ==> x in os;
      if o.conditionId == "" then rest
      else [Leg(o, perOutcome, dryRun)] + rest
  }

  /** Legs follow the outcome order: the legs of a concatenation are the
      legs of each part in turn. */
  lemma {:induction false} LegsAppend(a: seq<Outcome>, b: seq<Outcome>, perOutcome: real, dryRun: bool)
    ensures Legs(a + b, perOutcome, dryRun) == Legs(a, perOutcome, dryRun) + Legs(b, perOutcome, dryRun)
    decreases |a|
  {
    if |a| == 0 {
      assert a + b == b;
    } else {
      assert (a + b)[1..] == a[1..] + b;
      LegsAppend(a[1..], b, perOutcome, dryRun);
    }
  }

  /** A single outcome gives its own leg exactly when it has a condition id. */
  lemma LegsSingle(o: Outcome, perOutcome: real, dryRun: bool)
    ensures Legs([o], perOutcome, dryRun) == if o.conditionId != "" then [Leg(o, perOutcome, dryRun)] else []
  {
    assert [o][1..] == [];
  }

  /** `execute_combinatorial`; a zero outcome count is the ZeroDivisionError
      of line 154. */
  function ExecuteCombinatorial(opp: CombOpp, dryRun: bool): (r: Result<Execution>)
    ensures r.Err? <==> opp.numOutcomes == 0
    ensures r.Ok? ==>
      && r.value.outcomesTraded == |r.value.legs| <= |opp.outcomes|
      && r.value.totalSize == opp.maxSize && r.value.profitPct == opp.netProfitPct
      && forall l :: l in r.value.legs ==> l.amountUsdc * (opp.numOutcomes as real) == opp.maxSize
  {
    if opp.numOutcomes == 0 then Err("division by zero")
    else
      var per := opp.maxSize / (opp.numOutcomes as real);
      var legs := Legs(opp.outcomes, per, dryRun);
      Ok(Execution(opp.eventTitle, |legs|, opp.maxSize, opp.netProfitPct, legs))
  }

  /** The legs never spend more than the opportunity's size in all: at
      most one leg per outcome, each a 1/N share. */
  lemma LegsWithinSize(opp: CombOpp, dryRun: bool)
    requires opp.numOutcomes == |opp.outcomes| > 0 && opp.maxSize >= 0.0
    ensures ExecuteCombinatorial(opp, dryRun).Ok?
    ensures var x := ExecuteCombinatorial(opp, dryRun).value;
      SumAmounts(x.legs) <= opp.maxSize
  {
    var per := opp.maxSize / (opp.numOutcomes as real);
    var legs := Legs(opp.outcomes, per, dryRun);
    assert ExecuteCombinatorial(opp, dryRun).value.legs == legs;
    EqualSharesWithin(legs, per, opp.numOutcomes, opp.maxSize);
  }

  /** At most n legs of size/n each spend at most size. */
  lemma EqualSharesWithin(legs: seq<Trading.BuyCall>, per: real, n: nat, size: real)
    requires 0 < n && |legs| <= n && size >= 0.0 && per == size / (n as real)
    requires forall l :: l in legs ==> l.amountUsdc == per
    ensures SumAmounts(legs) <= size
  {
    ShareBound(|legs|, n, size, per);
    SumWithin(legs, per, size);
  }

  /** Legs of equal amounts whose count times the amount is within size
      spend at most size. */
  lemma SumWithin(legs: seq<Trading.BuyCall>, per: real, size: real)
    requires forall l :: l in legs ==> l.amountUsdc == per
    requires (|legs| as real) * per <= size
    ensures SumAmounts(legs) <= size
  {
    SumAmountsEqual(legs, per);
  }

  /** k shares of size/n add up to at most size when k <= n. */
  lemma ShareBound(k: nat, n: nat, size: real, per: real)
    requires 0 < n && k <= n && size >= 0.0 && per == size / (n as real)
    ensures (k as real) * per <= size
  {
    assert per >= 0.0;
    assert per * (n as real) == size;
    MulLe(k as real, n as real, per);
  }

  function SumAmounts(ls: seq<Trading.BuyCall>): real {
    if |ls| == 0 then 0.0 else SumAmounts(ls[..|ls| - 1]) + ls[|ls| - 1].amountUsdc
  }

  lemma {:induction false} SumAmountsEqual(ls: seq<Trading.BuyCall>, per: real)
    requires forall l :: l in ls ==> l.amountUsdc == per
    ensures SumAmounts(ls) == (|ls| as real) * per
  {
    if |ls| > 0 {
      assert ls[|ls| - 1] in ls;
      SumAmountsEqual(ls[..|ls| - 1], per);
    }
  }

  lemma MulLe(a: real, b: real, c: real)
    requires a <= b && c >= 0.0
    ensures a * c <= b * c
  {
  }

  /** Every leg is a YES buy with the hedge sell switched off: none asks
      for a sell order, and each executed leg is recorded at an entry price
      of 1 per token. */
  lemma LegsNeverSell(opp: CombOpp, dryRun: bool, l: Trading.BuyCall, store: seq<Positions.Position>,
                      now: real, split: Result<Trading.SplitResult>, sellPlaced: bool)
    requires ExecuteCombinatorial(opp, dryRun).Ok? && l in ExecuteCombinatorial(opp, dryRun).value.legs
    ensures Trading.BuyFor(l, store, now, split, sellPlaced).sell.None?
    ensures var r := Trading.BuyFor(l, store, now, split, sellPlaced);
      r.result.Ok? && r.result.value.Executed? && l.amountUsdc > 0.0 ==> r.result.value.entryPrice == 1.0
  {
    Trading.SkipSellEntryIsOne(l, store, now, split, sellPlaced);
  }
}

=== FILE: common.dfy ===
/** Shared vocabulary of the bot's model: optional and error-carrying values,
    the JSON scalars that arrive from the exchange APIs, Python's string and
    number conversions restricted to what the core uses, and small numeric
    helpers. */
module Common {

  /** Python's `None` or a value. */
  datatype Option<+T> = None | Some(value: T) {
    function GetOr(default: T): T {
      match this
      case Some(v) => v
      case None => default
    }
  }

  /** A returned value, or the message of a raised exception. */
  datatype Result<+T> = Ok(value: T) | Err(error: string)

  /** A JSON scalar as the exchange APIs deliver it. A `Text` carries, next to
      the string itself, the value Python's `float()` gives that string, or
      `None` when `float()` rejects it. */
  datatype Scalar = Null | Flag(b: bool) | Number(x: real) | Text(s: string, asFloat: Option<real>)

  /** Python truthiness of a scalar. */
  predicate Truthy(v: Scalar) {
    match v
    case Null => false
    case Flag(b) => b
    case Number(x) => x != 0.0
    case Text(s, _) => s != ""
  }

  /** What Python's `float(v)` does: a value, a ValueError or a TypeError. */
  datatype FloatOutcome = Float(x: real) | ValueErr | TypeErr

  function ToFloat(v: Scalar): (r: FloatOutcome)
    ensures r.TypeErr? <==> v.Null?
    ensures v.Number? ==> r == Float(v.x)
    ensures v.Flag? ==> r == Float(if v.b then 1.0 else 0.0)
  {
    match v
    case Null => TypeErr
    case Flag(b) => Float(if b then 1.0 else 0.0)
    case Number(x) => Float(x)
    case Text(_, f) => if f.Some? then Float(f.value) else ValueErr
  }

  /** A string that is absent, `None` or empty is falsy. */
  predicate Present(s: Option<string>) {
    s.Some? && s.value != ""
  }

  function Min(a: real, b: real): (r: real)
    ensures r <= a && r <= b
    ensures r == a || r == b
  {
    if a <= b then a else b
  }

  function Abs(x: real): (r: real)
    ensures r >= 0.0
    ensures r == x || r == -x
  {
    if x < 0.0 then -x else x
  }

  /** Python's `int(x)` on a real: truncation toward zero. */
  function Trunc(x: real): (r: int)
    ensures x >= 0.0 ==> 0 <= r && r as real <= x < r as real + 1.0
    ensures x < 0.0 ==> r <= 0 && r as real - 1.0 < x <= r as real
  {
    if x >= 0.0 then x.Floor else -((-x).Floor)
  }

  function Pow10(n: nat): (r: nat)
    ensures r >= 1
  {
    if n == 0 then 1 else 10 * Pow10(n - 1)
  }

  function Pow2(n: nat): (r: nat)
    ensures r >= 1
  {
    if n == 0 then 1 else 2 * Pow2(n - 1)
  }

  /** `r` is within half a unit of the `digits`-th decimal place of `x`. */
  predicate Near(r: real, x: real, digits: nat) {
    Abs(r - x) * (Pow10(digits) as real) <= 0.5
  }

  /** Python's `round(x, digits)` on an exact real: the nearest multiple of
      10^-digits, ties to the even multiple. */
  function Round(x: real, digits: nat): (r: real)
    ensures Near(r, x, digits)
    ensures x == 0.0 ==> r == 0.0
  {
    var scale := Pow10(digits) as real;
    var n := RoundHalfEven(x * scale);
    RoundBound(x, scale, n);
    n as real / scale
  }

  /** The integer nearest to `y`, ties to the even one. */
  function RoundHalfEven(y: real): (n: int)
    ensures Abs(n as real - y) <= 0.5
    ensures Abs(n as real - y) == 0.5 ==> n % 2 == 0
    ensures y == 0.0 ==> n == 0
  {
    var f := y.Floor;
    var d := y - f as real;
    if d < 0.5 then f else if d > 0.5 then f + 1 else if f % 2 == 0 then f else f + 1
  }

  lemma RoundBound(x: real, scale: real, n: int)
    requires scale >= 1.0
    requires Abs(n as real - x * scale) <= 0.5
    ensures Abs(n as real / scale - x) * scale <= 0.5
  {
    var d := n as real / scale - x;
    assert d * scale == n as real - x * scale;
    AbsScale(d, scale);
  }

  lemma AbsScale(d: real, scale: real)
    requires scale > 0.0
    ensures Abs(d) * scale == Abs(d * scale)
  {
    if d < 0.0 {
      assert d * scale < 0.0;
    } else {
      assert d * scale >= 0.0;
    }
  }

  // ---------------------------------------------------------------------
  // Characters and strings (ASCII case mapping, Python whitespace)
  // ---------------------------------------------------------------------

  predicate IsDigit(c: char) {
    '0' <= c <= '9'
  }

  predicate IsHexDigit(c: char) {
    IsDigit(c) || 'a' <= c <= 'f' || 'A' <= c <= 'F'
  }

  /** Characters Python's `str.isspace()` accepts. */
  predicate IsPySpace(c: char) {
    '\t' <= c <= '\r' || '\U{1C}' <= c <= ' ' || c == '\U{85}' || c == '\U{A0}'
    || c == '\U{1680}' || '\U{2000}' <= c <= '\U{200A}' || c == '\U{2028}' || c == '\U{2029}'
    || c == '\U{202F}' || c == '\U{205F}' || c == '\U{3000}'
  }

  /** ASCII whitespace, the set `bytes.fromhex` skips. */
  predicate IsAsciiSpace(c: char) {
    c == ' ' || '\t' <= c <= '\r'
  }

  function UpperChar(c: char): char {
    if 'a' <= c <= 'z' then (c as int - 32) as char else c
  }

  function LowerChar(c: char): char {
    if 'A' <= c <= 'Z' then (c as int + 32) as char else c
  }

  /** Python's `str.upper()` restricted to ASCII letters. */
  function Upper(s: string): (r: string)
    ensures |r| == |s|
    ensures forall i :: 0 <= i < |s| ==> r[i] == UpperChar(s[i])
  {
    if |s| == 0 then "" else [UpperChar(s[0])] + Upper(s[1..])
  }

  /** Python's `str.lower()` restricted to ASCII letters. */
  function Lower(s: string): (r: string)
    ensures |r| == |s|
    ensures forall i :: 0 <= i < |s| ==> r[i] == LowerChar(s[i])
  {
    if |s| == 0 then "" else [LowerChar(s[0])] + Lower(s[1..])
  }

  predicate StartsWith(s: string, prefix: string) {
    |prefix| <= |s| && s[..|prefix|] == prefix
  }

  /** `needle` occurs in `hay` starting at position `i`. */
  predicate OccursAt(hay: string, needle: string, i: int) {
    0 <= i <= |hay| - |needle| && hay[i..i + |needle|] == needle
  }

  /** Python's `needle in hay` on strings. */
  predicate Contains(hay: string, needle: string) {
    exists i :: 0 <= i <= |hay| && OccursAt(hay, needle, i)
  }

  /** Python's `str.isdigit()` restricted to ASCII digits: false on "". */
  predicate AllDigits(s: string) {
    |s| > 0 && forall i :: 0 <= i < |s| ==> IsDigit(s[i])
  }

  // ---------------------------------------------------------------------
  // Decimal rendering of integers, as in an f-string `{n}`
  // ---------------------------------------------------------------------

  function DigitChar(d: nat): char
    requires d < 10
  {
    ('0' as int + d) as char
  }

  function DigitValue(c: char): nat
    requires IsDigit(c)
  {
    c as int - '0' as int
  }

  function NatToString(n: nat): (r: string)
    ensures AllDigits(r)
    decreases n
  {
    if n < 10 then [DigitChar(n)] else NatToString(n / 10) + [DigitChar(n % 10)]
  }

  function IntToString(i: int): (r: string)
    ensures |r| > 0
  {
    if i < 0 then "-" + NatToString(-i) else NatToString(i)
  }

  /** Reads a string of decimal digits back as a number. */
  function ParseDigits(s: string): nat
    requires forall i :: 0 <= i < |s| ==> IsDigit(s[i])
  {
    if |s| == 0 then 0 else 10 * ParseDigits(s[..|s| - 1]) + DigitValue(s[|s| - 1])
  }

  lemma {:induction false} NatToStringRoundTrip(n: nat)
    ensures ParseDigits(NatToString(n)) == n
    decreases n
  {
    if n >= 10 {
      var s := NatToString(n);
      var p := NatToString(n / 10);
      assert s == p + [DigitChar(n % 10)];
      assert s[..|s| - 1] == p;
      NatToStringRoundTrip(n / 10);
    }
  }

  /** Distinct numbers render as distinct strings. */
  lemma NatToStringInjective(a: nat, b: nat)
    requires NatToString(a) == NatToString(b)
    ensures a == b
  {
    NatToStringRoundTrip(a);
    NatToStringRoundTrip(b);
  }
}

=== FILE: config.dfy ===
/** Settings read from the environment (config.py): the trading parameters
    every scanner uses, the dry-run switch and the credential check run at
    start-up. Environment variables are passed in as strings; an unset
    variable is the empty string, as `os.getenv(name, "")` gives. */
module Config {
  import opened Common

  /** The trading parameters of config.py lines 25-27 and 34. */
  datatype Settings = Settings(
    minProfit: real,        // MIN_PROFIT_THRESHOLD
    maxPositionSize: real,  // MAX_POSITION_SIZE
    feeRate: real,          // TAKER_FEE_RATE
    minLiquidity: real      // MIN_LIQUIDITY
  )

  /** The values config.py falls back to when the variables are unset. */
  const Defaults := Settings(0.005, 50.0, 0.001, 100.0)

  /** Per-hour trade cap default; config.py defines it but no code path reads it. */
  const MaxTradesPerHour: int := 20

  /** `DRY_RUN = os.getenv("DRY_RUN", "true").lower() in ("true", "1", "yes")`. */
  function DryRun(raw: Option<string>): (r: bool)
    ensures raw.None? ==> r
    ensures r <==> Lower(raw.GetOr("true")) in {"true", "1", "yes"}
  {
    var v := Lower(raw.GetOr("true"));
    v == "true" || v == "1" || v == "yes"
  }

  /** The five credentials a trading run needs. */
  datatype Credentials = Credentials(
    node: string,        // CHAINSTACK_NODE
    privateKey: string,  // POLYCLAW_PRIVATE_KEY
    apiKey: string,      // POLYMARKET_API_KEY
    apiSecret: string,   // POLYMARKET_API_SECRET
    passphrase: string   // POLYMARKET_PASSPHRASE
  )

  /** The five credential variables, in the order the check tests them. */
  datatype CredentialVar = ChainstackNode | PolyclawPrivateKey | PolymarketApiKey
                         | PolymarketApiSecret | PolymarketPassphrase

  function VarName(v: CredentialVar): string {
    match v
    case ChainstackNode => "CHAINSTACK_NODE"
    case PolyclawPrivateKey => "POLYCLAW_PRIVATE_KEY"
    case PolymarketApiKey => "POLYMARKET_API_KEY"
    case PolymarketApiSecret => "POLYMARKET_API_SECRET"
    case PolymarketPassphrase => "POLYMARKET_PASSPHRASE"
  }

  function VarNames(vs: seq<CredentialVar>): (r: seq<string>)
    ensures |r| == |vs|
    ensures forall i :: 0 <= i < |vs| ==> r[i] == VarName(vs[i])
  {
    if |vs| == 0 then [] else [VarName(vs[0])] + VarNames(vs[1..])
  }

  function Value(c: Credentials, v: CredentialVar): string {
    match v
    case ChainstackNode => c.node
    case PolyclawPrivateKey => c.privateKey
    case PolymarketApiKey => c.apiKey
    case PolymarketApiSecret => c.apiSecret
    case PolymarketPassphrase => c.passphrase
  }

  const CheckOrder: seq<CredentialVar> :=
    [ChainstackNode, PolyclawPrivateKey, PolymarketApiKey, PolymarketApiSecret, PolymarketPassphrase]

  /** The variables of `vs` whose value is unset, in order. */
  function UnsetOf(c: Credentials, vs: seq<CredentialVar>): (r: seq<CredentialVar>)
    ensures |r| <= |vs|
    ensures forall v :: v in r <==> v in vs && Value(c, v) == ""
  {
    if |vs| == 0 then []
    else (if Value(c, vs[0]) == "" then [vs[0]] else []) + UnsetOf(c, vs[1..])
  }

  lemma CheckOrderComplete()
    ensures forall v :: v in CheckOrder
  {
    forall v ensures v in CheckOrder {
      match v
      case ChainstackNode => assert CheckOrder[0] == v;
      case PolyclawPrivateKey => assert CheckOrder[1] == v;
      case PolymarketApiKey => assert CheckOrder[2] == v;
      case PolymarketApiSecret => assert CheckOrder[3] == v;
      case PolymarketPassphrase => assert CheckOrder[4] == v;
    }
  }

  /** The unset credentials, in the fixed order the check lists them. */
  function Missing(c: Credentials): (r: seq<CredentialVar>)
    ensures |r| <= 5
    ensures forall v :: v in r <==> Value(c, v) == ""
  {
    CheckOrderComplete();
    UnsetOf(c, CheckOrder)
  }

  /** `validate_config`: `Ok(true)`, or the EnvironmentError it raises, whose
      message lists the missing names joined by ", ". */
  function ValidateConfig(requireTrading: bool, c: Credentials): (r: Result<bool>)
    ensures !requireTrading ==> r == Ok(true)
    ensures r.Ok? ==> r.value
    ensures r.Err? <==> requireTrading && exists v :: Value(c, v) == ""
  {
    var missing := if requireTrading then Missing(c) else [];
    if |missing| > 0 then
      assert missing[0] in missing;
      Err("Missing required environment variables: " + Join(VarNames(missing), ", "))
    else
      Ok(true)
  }

  function Join(parts: seq<string>, sep: string): string {
    if |parts| == 0 then ""
    else if |parts| == 1 then parts[0]
    else parts[0] + sep + Join(parts[1..], sep)
  }

  lemma {:induction false} UnsetOfNone(c: Credentials, vs: seq<CredentialVar>)
    requires forall i :: 0 <= i < |vs| ==> Value(c, vs[i]) != ""
    ensures UnsetOf(c, vs) == []
  {
    if |vs| > 0 {
      UnsetOfNone(c, vs[1..]);
    }
  }

  lemma {:induction false} UnsetOfAll(c: Credentials, vs: seq<CredentialVar>)
    requires forall i :: 0 <= i < |vs| ==> Value(c, vs[i]) == ""
    ensures UnsetOf(c, vs) == vs
  {
    if |vs| > 0 {
      UnsetOfAll(c, vs[1..]);
      assert [vs[0]] + vs[1..] == vs;
    }
  }

  /** With every credential set the check passes; with none set, all five
      are reported, in the order of config.py lines 52-62. */
  lemma ValidateConfigExtremes(c: Credentials)
    ensures (c.node != "" && c.privateKey != "" && c.apiKey != "" && c.apiSecret != ""
             && c.passphrase != "") ==> ValidateConfig(true, c) == Ok(true)
    ensures Missing(Credentials("", "", "", "", "")) == CheckOrder
  {
    if c.node != "" && c.privateKey != "" && c.apiKey != "" && c.apiSecret != "" && c.passphrase != "" {
      UnsetOfNone(c, CheckOrder);
    }
    UnsetOfAll(Credentials("", "", "", "", ""), CheckOrder);
  }
}

=== FILE: endgame.dfy ===
/** Near-resolution "endgame" selection (strategies/endgame.py): buy the side
    priced at or above a confidence level in markets that resolve within a
    few days, ranked by the annualised return of the remaining cents. The
    clock is a parameter; date parsing per format is an input (see
    `ParseEndDate`). */
module Endgame {
  import opened Common
  import opened Config
  import opened Markets
  import Sorting
  import Trading
  import Positions

  const MinConfidence: real := 0.95
  const MaxHoursToResolution: real := 72.0
  const MinHoursToResolution: real := 1.0

  /** `MAX_POSITION_SIZE * 2`. */
  function MaxEndgameExposure(cfg: Settings): real { cfg.maxPositionSize * 2.0 }

  // ---------------------------------------------------------------------
  // _parse_end_date and _annualize
  // ---------------------------------------------------------------------

  /** The four `strptime` formats, in the order they are tried. */
  datatype DateFormat = FractionZ | SecondsZ | Seconds | DateOnly

  const Formats: seq<DateFormat> := [FractionZ, SecondsZ, Seconds, DateOnly]

  /** What `datetime.strptime(s, fmt)` would give, read as a UTC timestamp,
      or None for its ValueError. */
  type Strptime = (string, DateFormat) -> Option<real>

  /** Index of the first format in `Formats[k..]` that parses `s`. */
  function FirstFormat(s: string, parse: Strptime, k: nat): (r: Option<nat>)
    requires k <= |Formats|
    ensures r.Some? ==> k <= r.value < |Formats| && parse(s, Formats[r.value]).Some?
                        && forall j :: k <= j < r.value ==> parse(s, Formats[j]).None?
    ensures r.None? ==> forall j :: k <= j < |Formats| ==> parse(s, Formats[j]).None?
    decreases |Formats| - k
  {
    if k == |Formats| then None
    else if parse(s, Formats[k]).Some? then Some(k)
    else FirstFormat(s, parse, k + 1)
  }

  /** `_parse_end_date`: the first format that parses wins; none raises. */
  function ParseEndDate(s: string, parse: Strptime): (r: Result<real>)
    ensures r.Err? <==> forall f :: f in Formats ==> parse(s, f).None?
    ensures r.Ok? ==> exists j :: 0 <= j < |Formats| && parse(s, Formats[j]) == Some(r.value)
                                  && forall i :: 0 <= i < j ==> parse(s, Formats[i]).None?
  {
    match FirstFormat(s, parse, 0)
    case Some(j) => Ok(parse(s, Formats[j]).value)
    case None =>
      assert forall f :: f in Formats ==> exists j :: 0 <= j < |Formats| && Formats[j] == f;
      Err("Cannot parse date: " + s)
  }

  /** A full timestamp with fractional seconds is read by the first format
      even when a later one would also accept it. */
  lemma FirstFormatWins(s: string, parse: Strptime, t: real)
    requires parse(s, FractionZ) == Some(t)
    ensures ParseEndDate(s, parse) == Ok(t)
  {
  }

  /** `_annualize(return_pct, hours)`: the return scaled to a year of 8760
      hours, in percent; 0 for a non-positive horizon. */
  function Annualize(ret: real, hours: real): (r: real)
    ensures hours <= 0.0 ==> r == 0.0
    ensures hours > 0.0 ==> r * hours == ret * 8760.0 * 100.0
  {
    if hours <= 0.0 then 0.0
    else
      var periods := 8760.0 / hours;
      assert periods * hours == 8760.0;
      ret * periods * 100.0
  }

  /** The same return over a shorter horizon annualises to at least as much. */
  lemma AnnualizeShorterIsHigher(ret: real, h1: real, h2: real)
    requires 0.0 < h1 <= h2 && ret >= 0.0
    ensures Annualize(ret, h1) >= Annualize(ret, h2)
  {
    var a := 8760.0 / h1;
    var b := 8760.0 / h2;
    assert a * h1 == 8760.0 && b * h2 == 8760.0;
    assert b >= 0.0;
    assert b * h1 <= b * h2;
    assert b * h1 <= a * h1;
    assert b <= a;
    assert ret * b <= ret * a;
  }

  // ---------------------------------------------------------------------
  // find_endgame_opportunities
  // ---------------------------------------------------------------------

  /** The opportunity dict of lines 85-98. */
  datatype EndgameOpp = EndgameOpp(
    conditionId: string,
    question: string,
    side: string,
    price: real,
    profitPerToken: real,     // round(1 - price, 4)
    hoursToResolution: real,  // round(hours, 1)
    annualizedReturn: real,   // round(annualized, 2)
    maxSize: real,
    liquidity: real,
    yesTokenId: Option<string>,
    noTokenId: Option<string>
  )

  /** Hours until the market's end date, when it has one that parses. */
  function HoursLeft(m: Market, now: real, parse: Strptime): Option<real> {
    if m.endDate == "" then None
    else match ParseEndDate(m.endDate, parse)
      case Err(_) => None
      case Ok(t) => Some((t - now) / 3600.0)
  }

  /** Lines 67-76: the side at or above the confidence level, YES first. */
  function Choice(yes: real, no: real, minConfidence: real): (r: Option<(string, real)>)
    ensures r.Some? <==> yes >= minConfidence || no >= minConfidence
    ensures yes >= minConfidence ==> r == Some(("YES", yes))
    ensures yes < minConfidence && no >= minConfidence ==> r == Some(("NO", no))
  {
    if yes >= minConfidence then Some(("YES", yes))
    else if no >= minConfidence then Some(("NO", no))
    else None
  }

  /** Whether a market passes every filter of lines 43-80. */
  predicate Qualifies(m: Market, now: real, minConfidence: real, maxHours: real, parse: Strptime) {
    && HoursLeft(m, now, parse).Some?
    && MinHoursToResolution <= HoursLeft(m, now, parse).value <= maxHours
    && m.yesPrice.Some? && m.noPrice.Some?
    && Choice(m.yesPrice.value, m.noPrice.value, minConfidence).Some?
    && Choice(m.yesPrice.value, m.noPrice.value, minConfidence).value.1 < 1.0
  }

  /** The dict for a qualifying market. */
  function Opportunity(m: Market, hours: real, side: string, price: real, cfg: Settings): (o: EndgameOpp)
    requires price != 0.0
    ensures o.side == side && o.price == price && o.conditionId == m.conditionId
    ensures Near(o.profitPerToken, 1.0 - price, 4) && Near(o.hoursToResolution, hours, 1)
    ensures Near(o.annualizedReturn, Annualize((1.0 - price) / price, hours), 2)
    ensures o.maxSize <= MaxEndgameExposure(cfg) && o.maxSize <= m.liquidity * 0.05
    ensures o.maxSize == MaxEndgameExposure(cfg) || o.maxSize == m.liquidity * 0.05
  {
    var profit := 1.0 - price;
    EndgameOpp(m.conditionId, m.question, side, price, Round(profit, 4), Round(hours, 1),
               Round(Annualize(profit / price, hours), 2),
               Min(MaxEndgameExposure(cfg), m.liquidity * 0.05), m.liquidity, m.yesTokenId, m.noTokenId)
  }

  /** One iteration of the loop of lines 42-99. A chosen price of exactly 0
      (possible only with a confidence level of at most 0) is the
      ZeroDivisionError of line 82. */
  function EvaluateEndgame(m: Market, now: real, minConfidence: real, maxHours: real,
                           cfg: Settings, parse: Strptime): (r: Result<Option<EndgameOpp>>)
    ensures r.Err? <==> Qualifies(m, now, minConfidence, maxHours, parse)
                        && Choice(m.yesPrice.value, m.noPrice.value, minConfidence).value.1 == 0.0
    ensures r.Ok? && r.value.Some? <==> (Qualifies(m, now, minConfidence, maxHours, parse)
                        && Choice(m.yesPrice.value, m.noPrice.value, minConfidence).value.1 != 0.0)
    ensures r.Ok? && r.value.Some? ==>
      var c := Choice(m.yesPrice.value, m.noPrice.value, minConfidence).value;
      r.value.value == Opportunity(m, HoursLeft(m, now, parse).value, c.0, c.1, cfg)
  {
    match HoursLeft(m, now, parse)
    case None => Ok(None)
    case Some(h) =>
      if h < MinHoursToResolution || h > maxHours then Ok(None)
      else if m.yesPrice.None? || m.noPrice.None? then Ok(None)
      else match Choice(m.yesPrice.value, m.noPrice.value, minConfidence)
        case None => Ok(None)
        case Some((side, price)) =>
          if 1.0 - price <= 0.0 then Ok(None)
          else if price == 0.0 then Err("float division by zero")
          else Ok(Some(Opportunity(m, h, side, price, cfg)))
  }

  function AnnualKey(o: EndgameOpp): real { o.annualizedReturn }

  /** One loop iteration, with the scan's parameters fixed. */
  function Evaluator(now: real, minConfidence: real, maxHours: real, cfg: Settings, parse: Strptime)
    : Market -> Result<Option<EndgameOpp>>
  {
    m => EvaluateEndgame(m, now, minConfidence, maxHours, cfg, parse)
  }

  /** `f` applied to every element, in order. */
  function MapSeq<A, B>(f: A -> B, s: seq<A>): (r: seq<B>)
    ensures |r| == |s|
    ensures forall i :: 0 <= i < |s| ==> r[i] == f(s[i])
  {
    seq(|s|, i requires 0 <= i < |s| => f(s[i]))
  }

  /** Mapping over two runs is mapping over each. */
  lemma MapSeqAppend<A, B>(f: A -> B, a: seq<A>, b: seq<A>)
    ensures MapSeq(f, a + b) == MapSeq(f, a) + MapSeq(f, b)
  {
    var m := MapSeq(f, a + b);
    forall i | 0 <= i < |a + b|
      ensures m[i] == (MapSeq(f, a) + MapSeq(f, b))[i]
    {
      if i < |a| {
        assert (a + b)[i] == a[i];
      } else {
        assert (a + b)[i] == b[i - |a|];
      }
    }
  }

  /** One loop step on top of the rest of the loop: a raised error ends it,
      otherwise a found opportunity goes in front. */
  function Push<T>(e: Result<Option<T>>, rest: Result<seq<T>>): Result<seq<T>> {
    match e
    case Err(msg) => Err(msg)
    case Ok(first) =>
      match rest
      case Err(msg) => Err(msg)
      case Ok(rs) => Ok((if first.Some? then [first.value] else []) + rs)
  }

  /** Two loop runs one after the other: the first error wins, otherwise
      the opportunities are concatenated. */
  function Then<T>(g: Result<seq<T>>, h: Result<seq<T>>): Result<seq<T>> {
    if g.Err? then g else if h.Err? then h else Ok(g.value + h.value)
  }

  /** The loop body's bookkeeping: the first raised error ends the loop,
      otherwise every found opportunity is appended in turn. */
  function Gather<T(!new)>(es: seq<Result<Option<T>>>): (r: Result<seq<T>>)
    ensures r.Ok? ==> |r.value| <= |es|
    ensures r.Ok? <==> forall i :: 0 <= i < |es| ==> es[i].Ok?
    ensures r.Err? ==> exists i :: 0 <= i < |es| && es[i] == Err(r.error)
    ensures r.Ok? ==> forall o :: o in r.value <==> exists i :: 0 <= i < |es| && es[i] == Ok(Some(o))
  {
    if |es| == 0 then Ok([])
    else
      assert forall i :: 1 <= i < |es| ==> es[i] == es[1..][i - 1];
      var rest := Gather(es[1..]);
      var r := Push(es[0], rest);
      assert r.Ok? ==> forall o :: o in r.value <==> (es[0] == Ok(Some(o)) || o in rest.value);
      r
  }

  /** A step in front of two runs is a step in front of the first. */
  lemma PushThen<T>(e: Result<Option<T>>, g: Result<seq<T>>, h: Result<seq<T>>)
    ensures Then(Push(e, g), h) == Push(e, Then(g, h))
  {
    if e.Ok? && g.Ok? && h.Ok? {
      var head := if e.value.Some? then [e.value.value] else [];
      assert head + (g.value + h.value) == (head + g.value) + h.value;
    }
  }

  /** Gathering two runs of evaluations is gathering each in turn: the
      first error wins, otherwise the opportunities are concatenated. */
  lemma {:induction false} GatherAppend<T(!new)>(x: seq<Result<Option<T>>>, y: seq<Result<Option<T>>>)
    ensures var gx := Gather(x);
      var gy := Gather(y);
      Gather(x + y) == if gx.Err? then gx else if gy.Err? then gy else Ok(gx.value + gy.value)
    decreases |x|
  {
    if |x| > 0 {
      assert (x + y)[0] == x[0];
      assert (x + y)[1..] == x[1..] + y;
      GatherAppend(x[1..], y);
      assert Gather(x + y) == Push(x[0], Gather(x[1..] + y));
      assert Gather(x) == Push(x[0], Gather(x[1..]));
      PushThen(x[0], Gather(x[1..]), Gather(y));
    } else {
      assert x + y == y;
      assert Gather(x) == Ok([]);
      if Gather(y).Ok? {
        assert [] + Gather(y).value == Gather(y).value;
      }
    }
  }

  /** One evaluation alone: its error, its opportunity, or nothing. */
  lemma GatherSingle<T(!new)>(e: Result<Option<T>>)
    ensures Gather([e]) == if e.Err? then Err(e.error) else if e.value.Some? then Ok([e.value.value]) else Ok([])
  {
    assert [e][0] == e && [e][1..] == [];
    var none: seq<Result<Option<T>>> := [];
    assert Gather(none) == Ok([]);
    if e.Ok? {
      var head := if e.value.Some? then [e.value.value] else [];
      assert head + [] == head;
    }
  }

  /** The loop of lines 42-99: opportunities in market order. */
  function CollectEndgame(ms: seq<Market>, now: real, minConfidence: real, maxHours: real,
                          cfg: Settings, parse: Strptime): (r: Result<seq<EndgameOpp>>)
    ensures r.Ok? ==> |r.value| <= |ms|
    ensures r.Ok? <==> forall i :: 0 <= i < |ms| ==> EvaluateEndgame(ms[i], now, minConfidence, maxHours, cfg, parse).Ok?
    ensures r.Err? ==> exists i :: 0 <= i < |ms| && EvaluateEndgame(ms[i], now, minConfidence, maxHours, cfg, parse) == Err(r.error)
    ensures r.Ok? ==> forall o :: o in r.value <==>
      exists i :: 0 <= i < |ms| && EvaluateEndgame(ms[i], now, minConfidence, maxHours, cfg, parse) == Ok(Some(o))
  {
    Gather(MapSeq(Evaluator(now, minConfidence, maxHours, cfg, parse), ms))
  }

  /** Collecting over two runs of markets is collecting over each in turn:
      the first error stops the loop, otherwise the opportunities are
      concatenated in market order. */
  lemma CollectEndgameAppend(a: seq<Market>, b: seq<Market>, now: real, minConfidence: real,
                             maxHours: real, cfg: Settings, parse: Strptime)
    ensures var ra := CollectEndgame(a, now, minConfidence, maxHours, cfg, parse);
      var rb := CollectEndgame(b, now, minConfidence, maxHours, cfg, parse);
      CollectEndgame(a + b, now, minConfidence, maxHours, cfg, parse)
        == if ra.Err? then ra else if rb.Err? then rb else Ok(ra.value + rb.value)
  {
    var f := Evaluator(now, minConfidence, maxHours, cfg, parse);
    MapSeqAppend(f, a, b);
    GatherAppend(MapSeq(f, a), MapSeq(f, b));
  }

  /** A single market yields its opportunity when it has one, nothing when
      it is skipped, and its error when its evaluation raises. */
  lemma CollectEndgameSingle(m: Market, now: real, minConfidence: real, maxHours: real,
                             cfg: Settings, parse: Strptime)
    ensures var e := EvaluateEndgame(m, now, minConfidence, maxHours, cfg, parse);
      CollectEndgame([m], now, minConfidence, maxHours, cfg, parse)
        == if e.Err? then Err(e.error) else if e.value.Some? then Ok([e.value.value]) else Ok([])
  {
    var e := EvaluateEndgame(m, now, minConfidence, maxHours, cfg, parse);
    assert MapSeq(Evaluator(now, minConfidence, maxHours, cfg, parse), [m]) == [e];
    GatherSingle(e);
  }

  /** `find_endgame_opportunities`, ranked by annualised return, largest
      first. */
  function FindEndgameOpportunities(ms: seq<Market>, now: real, minConfidence: real, maxHours: real,
                                    cfg: Settings, parse: Strptime): (r: Result<seq<EndgameOpp>>)
    ensures r.Ok? <==> CollectEndgame(ms, now, minConfidence, maxHours, cfg, parse).Ok?
    ensures r.Ok? ==> multiset(r.value) == multiset(CollectEndgame(ms, now, minConfidence, maxHours, cfg, parse).value)
    ensures r.Ok? ==> Sorting.SortedDesc(r.value, AnnualKey)
  {
    match CollectEndgame(ms, now, minConfidence, maxHours, cfg, parse)
    case Err(msg) => Err(msg)
    case Ok(opps) => Ok(Sorting.SortDesc(opps, AnnualKey))
  }

  /** Every ranked opportunity comes from a qualifying market of the input:
      one that resolves in 1 to `maxHours` hours, has both prices, and whose
      chosen side is at or above the confidence level and below 1. */
  lemma EndgameFilters(ms: seq<Market>, now: real, minConfidence: real, maxHours: real,
                       cfg: Settings, parse: Strptime, o: EndgameOpp)
    requires FindEndgameOpportunities(ms, now, minConfidence, maxHours, cfg, parse).Ok?
    requires o in FindEndgameOpportunities(ms, now, minConfidence, maxHours, cfg, parse).value
    ensures exists m :: m in ms && Qualifies(m, now, minConfidence, maxHours, parse) && m.conditionId == o.conditionId
    ensures o.price >= minConfidence && o.price < 1.0 && o.maxSize <= MaxEndgameExposure(cfg)
  {
    var opps := CollectEndgame(ms, now, minConfidence, maxHours, cfg, parse).value;
    Sorting.SortDescMembers(opps, AnnualKey, o);
    var i :| 0 <= i < |ms| && EvaluateEndgame(ms[i], now, minConfidence, maxHours, cfg, parse) == Ok(Some(o));
    assert ms[i] in ms;
  }

  /** When both sides clear the confidence level YES is bought; a side
      priced at 1 or more leaves nothing to earn and is skipped. */
  lemma YesWinsAndFullPriceSkipped(m: Market, now: real, maxHours: real, cfg: Settings, parse: Strptime)
    requires m.yesPrice.Some? && m.noPrice.Some?
    ensures m.yesPrice.value >= MinConfidence && m.noPrice.value >= MinConfidence && m.yesPrice.value < 1.0
            && Qualifies(m, now, MinConfidence, maxHours, parse) ==>
      var r := EvaluateEndgame(m, now, MinConfidence, maxHours, cfg, parse);
      r.Ok? && r.value.Some? && r.value.value.side == "YES"
    ensures m.yesPrice.value >= 1.0 ==> EvaluateEndgame(m, now, MinConfidence, maxHours, cfg, parse) == Ok(None)
  {
  }

  /** A market at 0.97 a day before resolution: 3 cents on 97 annualise to
      365 times the daily return, about 1129%. */
  lemma EndgameExample()
    ensures Annualize(0.03 / 0.97, 24.0) == 0.03 / 0.97 * 365.0 * 100.0
  {
  }

  // ---------------------------------------------------------------------
  // execute_endgame
  // ---------------------------------------------------------------------

  /** The summary dict of lines 149-156, with the buy asked for. */
  datatype EndgameExecution = EndgameExecution(market: string, side: string, price: real,
                                               hoursLeft: real, annualizedReturn: real, call: Trading.BuyCall)

  function ExecuteEndgame(opp: EndgameOpp, dryRun: bool): (r: EndgameExecution)
    ensures r.call == Trading.BuyCall(opp.conditionId, opp.side, opp.maxSize, opp.price,
                                      opp.yesTokenId, opp.noTokenId, true, dryRun)
    ensures r.side == opp.side && r.price == opp.price && r.market == opp.question
  {
    EndgameExecution(opp.question, opp.side, opp.price, opp.hoursToResolution, opp.annualizedReturn,
                     Trading.BuyCall(opp.conditionId, opp.side, opp.maxSize, opp.price,
                                     opp.yesTokenId, opp.noTokenId, true, dryRun))
  }

  /** An endgame buy never hedges, so an executed one is recorded at the
      split's full dollar per token rather than at the quoted price. */
  lemma EndgameBuyRecordsFullDollar(opp: EndgameOpp, dryRun: bool, store: seq<Positions.Position>,
                                    now: real, split: Result<Trading.SplitResult>, sellPlaced: bool)
    ensures Trading.BuyFor(ExecuteEndgame(opp, dryRun).call, store, now, split, sellPlaced).sell.None?
    ensures var r := Trading.BuyFor(ExecuteEndgame(opp, dryRun).call, store, now, split, sellPlaced);
      r.result.Ok? && r.result.value.Executed? && opp.maxSize > 0.0 ==> r.result.value.entryPrice == 1.0
  {
    Trading.SkipSellEntryIsOne(ExecuteEndgame(opp, dryRun).call, store, now, split, sellPlaced);
  }
}

=== FILE: engine.dfy ===
/** The trading engine (modules/engine.py): the strategy registry, engine
    construction, one iteration of the polling loop with its per-strategy
    error isolation, shutdown, and the token ids handed to the live feed.
    Market fetching, strategy side effects and time are inputs. */
module Engine {
  import opened Common
  import Config
  import Markets
  import Scanner
  import WsFeed

  /** SCAN_INTERVAL_SECONDS when the variable is unset. */
  const ScanIntervalSeconds: int := 10

  /** The feed subscribes to at most this many token ids. */
  const MaxFeedTokens: int := 500

  /** The arbitrage strategy executes at most this many opportunities a tick. */
  const ArbTopN: int := 3

  // ---------------------------------------------------------------------
  // Registry and construction
  // ---------------------------------------------------------------------

  datatype StrategyClass = ArbStrategy | EndgameStrategy

  type Registry = map<string, StrategyClass>

  /** `register_strategy(name)(cls)`: binds the name, replacing any earlier
      class under it. */
  function Register(reg: Registry, name: string, cls: StrategyClass): (r: Registry)
    ensures name in r && r[name] == cls
    ensures forall n :: n != name ==> (n in r <==> n in reg)
    ensures forall n :: n != name && n in reg ==> r[n] == reg[n]
  {
    reg[name := cls]
  }

  /** Registering a name twice leaves the second class. */
  lemma RegisterOverwrites(reg: Registry, name: string, a: StrategyClass, b: StrategyClass)
    ensures Register(Register(reg, name, a), name, b) == Register(reg, name, b)
  {
  }

  /** The registry after the two decorated classes are defined. */
  const BuiltIn: Registry := Register(Register(map[], "arb", ArbStrategy), "endgame", EndgameStrategy)

  /** `strategies or ["arb"]`. */
  function RequestedNames(strategies: Option<seq<string>>): (r: seq<string>)
    ensures r != []
    ensures strategies.Some? && strategies.value != [] ==> r == strategies.value
  {
    if strategies.Some? && strategies.value != [] then strategies.value else ["arb"]
  }

  /** Lines 129-134: each registered name's class, in the order requested;
      unknown names are logged and skipped. */
  function Resolve(names: seq<string>, reg: Registry): (r: seq<StrategyClass>)
    ensures |r| <= |names|
    ensures (forall n :: n in names ==> n in reg) ==> |r| == |names|
    ensures forall c :: c in r ==> exists n :: n in names && n in reg && reg[n] == c
  {
    if |names| == 0 then []
    else
      var rest := Resolve(names[1..], reg);
      assert forall n :: n in names[1..] ==> n in names;
      (if names[0] in reg then [reg[names[0]]] else []) + rest
  }

  /** Resolution goes name by name: resolving a concatenation concatenates
      the resolutions, so the requested order is kept. */
  lemma {:induction false} ResolveAppend(a: seq<string>, b: seq<string>, reg: Registry)
    ensures Resolve(a + b, reg) == Resolve(a, reg) + Resolve(b, reg)
  {
    if |a| > 0 {
      assert (a + b)[0] == a[0];
      assert (a + b)[1..] == a[1..] + b;
      ResolveAppend(a[1..], b, reg);
    } else {
      assert a + b == b;
    }
  }

  /** No list, or an empty one, gives the arbitrage strategy alone; an
      unknown name between two known ones is dropped. */
  lemma ResolveExamples()
    ensures Resolve(RequestedNames(None), BuiltIn) == [ArbStrategy]
    ensures Resolve(RequestedNames(Some([])), BuiltIn) == [ArbStrategy]
    ensures Resolve(["endgame", "momentum", "arb"], BuiltIn) == [EndgameStrategy, ArbStrategy]
  {
    assert "momentum" !in BuiltIn;
  }

  datatype EngineState = EngineState(
    interval: int,
    dryRun: bool,
    useWs: bool,
    limit: int,
    query: Option<string>,
    running: bool,
    cycle: nat,
    strategies: seq<StrategyClass>,
    feed: Option<WsFeed.FeedState>,
    feedIds: seq<string>
  )

  /** `TradingEngine.__init__`; `envDryRun` is the DRY_RUN setting and
      `envInterval` the SCAN_INTERVAL_SECONDS setting (ScanIntervalSeconds
      when the variable is unset). */
  function NewEngine(strategies: Option<seq<string>>, interval: Option<int>, dryRun: Option<bool>,
                     useWs: bool, limit: int, query: Option<string>, reg: Registry,
                     envDryRun: bool, envInterval: int): (e: EngineState)
    ensures interval.Some? && interval.value != 0 ==> e.interval == interval.value
    ensures interval.None? || interval.value == 0 ==> e.interval == envInterval
    ensures e.dryRun == (if dryRun.Some? then dryRun.value else envDryRun)
    ensures !e.running && e.cycle == 0 && e.feed.None?
    ensures e.strategies == Resolve(RequestedNames(strategies), reg)
  {
    EngineState(if interval.Some? && interval.value != 0 then interval.value else envInterval,
                if dryRun.Some? then dryRun.value else envDryRun,
                useWs, limit, query, false, 0, Resolve(RequestedNames(strategies), reg), None, [])
  }

  // ---------------------------------------------------------------------
  // Strategies
  // ---------------------------------------------------------------------

  /** One attempted execution and what it returned (or raised). */
  datatype ArbAttempt = ArbAttempt(opp: Scanner.PairOpp, outcome: Result<bool>)

  function Attempts(opps: seq<Scanner.PairOpp>, execute: Scanner.PairOpp -> Result<bool>): (r: seq<ArbAttempt>)
    ensures |r| == |opps|
    ensures forall i :: 0 <= i < |r| ==> r[i].opp == opps[i] && r[i].outcome == execute(opps[i])
  {
    if |opps| == 0 then [] else [ArbAttempt(opps[0], execute(opps[0]))] + Attempts(opps[1..], execute)
  }

  /** `ArbStrategy.on_tick` with the execution step available: scan, then
      attempt the three best opportunities; an attempt that raises is logged
      and the next one still runs. */
  function ArbTick(markets: seq<Markets.Market>, cfg: Config.Settings,
                   execute: Scanner.PairOpp -> Result<bool>): (r: seq<ArbAttempt>)
    ensures |r| <= ArbTopN
    ensures |r| == (if |Scanner.ScanForArbitrage(markets, cfg)| < ArbTopN
                    then |Scanner.ScanForArbitrage(markets, cfg)| else ArbTopN)
    ensures forall i :: 0 <= i < |r| ==> r[i].opp == Scanner.ScanForArbitrage(markets, cfg)[i]
  {
    var opps := Scanner.ScanForArbitrage(markets, cfg);
    Attempts(Markets.TakePy(opps, ArbTopN), execute)
  }

  /** Failed executions do not shorten the tick: the same opportunities
      are attempted whatever `execute` does. */
  lemma ArbAttemptsIsolated(markets: seq<Markets.Market>, cfg: Config.Settings,
                            e1: Scanner.PairOpp -> Result<bool>, e2: Scanner.PairOpp -> Result<bool>)
    ensures var a := ArbTick(markets, cfg, e1);
      var b := ArbTick(markets, cfg, e2);
      |a| == |b| && forall i :: 0 <= i < |a| ==> a[i].opp == b[i].opp
  {
  }

  /** What a strategy's tick did: raised, or ran, with the executions the
      arbitrage strategy attempted. The endgame strategy only reports what
      it found and catches its own errors, so its tick never raises and
      trades nothing. */
  datatype TickOutcome = Raised(error: string) | Ran(attempts: seq<ArbAttempt>)

  /** `ArbStrategy.on_tick` as line 61 writes it: the import names
      something modules/scanner.py does not define, so the import raises
      before any scan. */
  function ArbTickAsWritten(markets: seq<Markets.Market>, cfg: Config.Settings,
                            execute: Scanner.PairOpp -> Result<bool>): (r: TickOutcome)
    ensures r.Raised?
  {
    Raised("ImportError: cannot import name 'execute_opportunity' from 'modules.scanner'")
  }

  /** Where the scan finds an opportunity the tick as written still attempts
      nothing, while the intended tick attempts the best one first. */
  lemma ArbNeverTrades(markets: seq<Markets.Market>, cfg: Config.Settings,
                       execute: Scanner.PairOpp -> Result<bool>)
    requires |Scanner.ScanForArbitrage(markets, cfg)| > 0
    ensures ArbTickAsWritten(markets, cfg, execute).Raised?
    ensures |ArbTick(markets, cfg, execute)| > 0
    ensures ArbTick(markets, cfg, execute)[0].opp == Scanner.ScanForArbitrage(markets, cfg)[0]
  {
  }

  function StrategyTick(cls: StrategyClass, markets: seq<Markets.Market>, cfg: Config.Settings,
                        execute: Scanner.PairOpp -> Result<bool>): (r: TickOutcome)
    ensures cls == EndgameStrategy ==> r == Ran([])
    ensures cls == ArbStrategy ==> r == Ran(ArbTick(markets, cfg, execute))
  {
    match cls
    case ArbStrategy => Ran(ArbTick(markets, cfg, execute))
    case EndgameStrategy => Ran([])
  }

  // ---------------------------------------------------------------------
  // The polling loop
  // ---------------------------------------------------------------------

  /** Lines 179-183: every strategy is ticked in order; `raises` says whose
      tick raised, which is logged and does not stop the loop. */
  function TickAll(ss: seq<StrategyClass>, markets: seq<Markets.Market>, cfg: Config.Settings,
                   execute: Scanner.PairOpp -> Result<bool>, raises: StrategyClass -> bool): (r: seq<(StrategyClass, TickOutcome)>)
    ensures |r| == |ss|
    ensures forall i :: 0 <= i < |r| ==> r[i].0 == ss[i]
  {
    if |ss| == 0 then []
    else
      var out := if raises(ss[0]) then Raised("strategy error") else StrategyTick(ss[0], markets, cfg, execute);
      [(ss[0], out)] + TickAll(ss[1..], markets, cfg, execute, raises)
  }

  /** One pass of `_poll_loop`'s body, run only while the engine is running:
      the cycle count goes up, the markets are fetched, and if the fetch did
      not raise every strategy is ticked. */
  function PollOnce(e: EngineState, fetched: Result<seq<Markets.Market>>, cfg: Config.Settings,
                    execute: Scanner.PairOpp -> Result<bool>, raises: StrategyClass -> bool): (r: (EngineState, seq<(StrategyClass, TickOutcome)>))
    ensures !e.running ==> r == (e, [])
    ensures e.running ==> r.0 == e.(cycle := e.cycle + 1)
    ensures e.running && fetched.Err? ==> r.1 == []
    ensures e.running && fetched.Ok? ==>
      |r.1| == |e.strategies| && forall i :: 0 <= i < |r.1| ==> r.1[i].0 == e.strategies[i]
  {
    if !e.running then (e, [])
    else
      var e1 := e.(cycle := e.cycle + 1);
      match fetched
      case Err(_) => (e1, [])
      case Ok(ms) => (e1, TickAll(e.strategies, ms, cfg, execute, raises))
  }

  /** A strategy that raises does not stop the ones after it: whichever
      strategies raise, the same strategies are ticked, and those that do
      not raise do the same thing. */
  lemma ErrorsIsolated(e: EngineState, ms: seq<Markets.Market>, cfg: Config.Settings,
                       execute: Scanner.PairOpp -> Result<bool>, r1: StrategyClass -> bool, r2: StrategyClass -> bool)
    requires e.running
    ensures var a := PollOnce(e, Ok(ms), cfg, execute, r1).1;
      var b := PollOnce(e, Ok(ms), cfg, execute, r2).1;
      && |a| == |b|
      && forall i :: 0 <= i < |a| ==> a[i].0 == b[i].0 && (!r1(a[i].0) && !r2(a[i].0) ==> a[i].1 == b[i].1)
  {
    TickAllSameOutcome(e.strategies, ms, cfg, execute, r1, r2);
  }

  lemma {:induction false} TickAllSameOutcome(ss: seq<StrategyClass>, ms: seq<Markets.Market>, cfg: Config.Settings,
                                              execute: Scanner.PairOpp -> Result<bool>,
                                              r1: StrategyClass -> bool, r2: StrategyClass -> bool)
    ensures var a := TickAll(ss, ms, cfg, execute, r1);
      var b := TickAll(ss, ms, cfg, execute, r2);
      forall i :: 0 <= i < |a| && !r1(ss[i]) && !r2(ss[i]) ==> a[i].1 == b[i].1
  {
    if |ss| > 0 {
      TickAllSameOutcome(ss[1..], ms, cfg, execute, r1, r2);
      var a := TickAll(ss, ms, cfg, execute, r1);
      var b := TickAll(ss, ms, cfg, execute, r2);
      forall i | 0 <= i < |a| && !r1(ss[i]) && !r2(ss[i])
        ensures a[i].1 == b[i].1
      {
        if i > 0 {
          assert ss[i] == ss[1..][i - 1];
          assert a[i] == TickAll(ss[1..], ms, cfg, execute, r1)[i - 1];
          assert b[i] == TickAll(ss[1..], ms, cfg, execute, r2)[i - 1];
        }
      }
    }
  }

  /** `stop`: clears the running flag and stops the feed, if there is one. */
  function Stop(e: EngineState): (r: EngineState)
    ensures !r.running && r.cycle == e.cycle && r.strategies == e.strategies
    ensures r.feed.Some? <==> e.feed.Some?
    ensures r.feed.Some? ==> !r.feed.value.running && r.feed.value.delay == e.feed.value.delay
  {
    e.(running := false, feed := if e.feed.Some? then Some(e.feed.value.(running := false)) else None)
  }

  /** What each strategy did in one pass of the poll loop. */
  type Pass = seq<(StrategyClass, TickOutcome)>

  /** `_poll_loop` over several passes, one fetch result per pass: the state
      after them and each pass's strategy outcomes. */
  function PollRun(e: EngineState, fetches: seq<Result<seq<Markets.Market>>>, cfg: Config.Settings,
                   execute: Scanner.PairOpp -> Result<bool>, raises: StrategyClass -> bool): (r: (EngineState, seq<Pass>))
    ensures !e.running ==> r == (e, [])
    ensures e.running ==> r.0 == e.(cycle := e.cycle + |fetches|) && |r.1| == |fetches|
    ensures e.running ==> forall k :: 0 <= k < |r.1| && k < |fetches| ==>
      r.1[k] == (if fetches[k].Err? then [] else TickAll(e.strategies, fetches[k].value, cfg, execute, raises))
    decreases |fetches|
  {
    if |fetches| == 0 || !e.running then (e, [])
    else
      var (e1, outs) := PollOnce(e, fetches[0], cfg, execute, raises);
      var (e2, rest) := PollRun(e1, fetches[1..], cfg, execute, raises);
      (e2, [outs] + rest)
  }

  /** While running, every pass counts one cycle, whether or not its fetch
      raised; once stopped, no pass does anything. */
  lemma PollRunCycles(e: EngineState, fetches: seq<Result<seq<Markets.Market>>>, cfg: Config.Settings,
                      execute: Scanner.PairOpp -> Result<bool>, raises: StrategyClass -> bool)
    ensures e.running ==> PollRun(e, fetches, cfg, execute, raises).0 == e.(cycle := e.cycle + |fetches|)
    ensures PollRun(Stop(e), fetches, cfg, execute, raises) == (Stop(e), [])
  {
  }

  /** `_fetch_markets`: the question search when a query is set, the
      trending list otherwise. */
  function FetchMarkets<T>(query: Option<string>, limit: int,
                           search: (string, int) -> T, trending: int -> T): (r: T)
    ensures Present(query) ==> r == search(query.value, limit)
    ensures !Present(query) ==> r == trending(limit)
  {
    if Present(query) then search(query.value, limit) else trending(limit)
  }

  // ---------------------------------------------------------------------
  // The live feed's token ids
  // ---------------------------------------------------------------------

  /** Lines 199-203: each market's YES id then its NO id, skipping ids that
      are missing or empty. */
  function TokenIds(ms: seq<Markets.Market>): (r: seq<string>)
    ensures |r| <= 2 * |ms|
    ensures forall t :: t in r ==> t != ""
    ensures forall t :: t in r <==> exists i :: (0 <= i < |ms| &&
      ((Present(ms[i].yesTokenId) && ms[i].yesTokenId.value == t)
       || (Present(ms[i].noTokenId) && ms[i].noTokenId.value == t)))
  {
    if |ms| == 0 then []
    else
      var m := ms[0];
      var rest := TokenIds(ms[1..]);
      assert forall i :: 1 <= i < |ms| ==> ms[i] == ms[1..][i - 1];
      (if Present(m.yesTokenId) then [m.yesTokenId.value] else [])
      + (if Present(m.noTokenId) then [m.noTokenId.value] else [])
      + rest
  }

  /** Ids are collected market by market, in market order. */
  lemma {:induction false} TokenIdsAppend(a: seq<Markets.Market>, b: seq<Markets.Market>)
    ensures TokenIds(a + b) == TokenIds(a) + TokenIds(b)
  {
    if |a| > 0 {
      assert (a + b)[0] == a[0];
      assert (a + b)[1..] == a[1..] + b;
      TokenIdsAppend(a[1..], b);
    } else {
      assert a + b == b;
    }
  }

  /** `_start_ws_feed`: no ids means no feed; otherwise a feed on the first
      500 ids, started with the base reconnect delay. */
  function StartWsFeed(e: EngineState, ms: seq<Markets.Market>): (r: EngineState)
    ensures TokenIds(ms) == [] ==> r == e
    ensures TokenIds(ms) != [] ==>
      && r.feed == Some(WsFeed.FeedState(true, WsFeed.ReconnectDelayBase))
      && |r.feedIds| == (if |TokenIds(ms)| < MaxFeedTokens then |TokenIds(ms)| else MaxFeedTokens)
      && r.feedIds == TokenIds(ms)[..|r.feedIds|]
      && r.strategies == e.strategies && r.cycle == e.cycle && r.running == e.running
  {
    var ids := TokenIds(ms);
    if ids == [] then e
    else e.(feed := Some(WsFeed.FeedState(true, WsFeed.ReconnectDelayBase)),
            feedIds := Markets.TakePy(ids, MaxFeedTokens))
  }

  /** A market with both ids contributes YES before NO. */
  lemma YesBeforeNo(m: Markets.Market, y: string, n: string)
    requires m.yesTokenId == Some(y) && m.noTokenId == Some(n) && y != "" && n != ""
    ensures TokenIds([m]) == [y, n]
  {
    assert [m][1..] == [];
  }
}

=== FILE: hedge.dfy ===
/** Hedge discovery (modules/hedge.py): a language model is asked whether
    one market implies another, its JSON reply is cut out of the response
    text, and the market pairs it relates are kept, tiered and ranked. The
    HTTP call and the JSON decoder are outside the model: the reply text and
    a decoder are inputs. */
module Hedge {
  import opened Common
  import Sorting

  const DefaultModel: string := "nvidia/nemotron-nano-9b-v2:free"

  /** The tier a reply without one counts as. */
  const MissingTier: int := 4

  // ---------------------------------------------------------------------
  // Coverage tiers
  // ---------------------------------------------------------------------

  /** `_get_coverage_tier`: 1 from 95%, 2 from 90%, 3 from 85%, else 4. */
  function CoverageTier(pct: real): (t: int)
    ensures 1 <= t <= 4
    ensures t == 1 <==> pct >= 95.0
    ensures t <= 2 <==> pct >= 90.0
    ensures t <= 3 <==> pct >= 85.0
  {
    if pct >= 95.0 then 1
    else if pct >= 90.0 then 2
    else if pct >= 85.0 then 3
    else 4
  }

  /** More coverage never gives a worse tier. */
  lemma CoverageTierMonotone(p: real, q: real)
    requires p <= q
    ensures CoverageTier(q) <= CoverageTier(p)
  {
  }

  /** `_tier_label`. */
  function TierLabel(tier: int): (s: string)
    ensures s == "HIGH" <==> tier == 1
    ensures s == "GOOD" <==> tier == 2
    ensures s == "MODERATE" <==> tier == 3
    ensures s == "LOW" <==> tier == 4
    ensures s == "UNKNOWN" <==> !(1 <= tier <= 4)
  {
    if tier == 1 then "HIGH"
    else if tier == 2 then "GOOD"
    else if tier == 3 then "MODERATE"
    else if tier == 4 then "LOW"
    else "UNKNOWN"
  }

  /** Every coverage figure gets a known label, and distinct tiers get
      distinct labels. */
  lemma TierLabelsDistinct(pct: real, t1: int, t2: int)
    requires 1 <= t1 <= 4 && 1 <= t2 <= 4 && t1 != t2
    ensures TierLabel(CoverageTier(pct)) != "UNKNOWN"
    ensures TierLabel(t1) != TierLabel(t2)
  {
  }

  // ---------------------------------------------------------------------
  // Cutting the JSON object out of a reply
  // ---------------------------------------------------------------------

  /** `s.index(c)`: the first position of `c`, None where Python raises. */
  function FirstIndex(s: string, c: char): (r: Option<nat>)
    ensures r.None? <==> c !in s
    ensures r.Some? ==> r.value < |s| && s[r.value] == c && c !in s[..r.value]
  {
    if |s| == 0 then None
    else if s[0] == c then Some(0)
    else match FirstIndex(s[1..], c)
      case None => None
      case Some(k) =>
        assert s[..k + 1] == [s[0]] + s[1..][..k];
        Some(k + 1)
  }

  /** `s.rindex(c)`: the last position of `c`. */
  function LastIndex(s: string, c: char): (r: Option<nat>)
    ensures r.None? <==> c !in s
    ensures r.Some? ==> r.value < |s| && s[r.value] == c && c !in s[r.value + 1..]
    decreases |s|
  {
    if |s| == 0 then None
    else if s[|s| - 1] == c then Some(|s| - 1)
    else match LastIndex(s[..|s| - 1], c)
      case None =>
        assert s == s[..|s| - 1] + [s[|s| - 1]];
        None
      case Some(k) =>
        assert s[k + 1..] == s[..|s| - 1][k + 1..] + [s[|s| - 1]];
        Some(k)
  }

  /** `content[content.index("{"):content.rindex("}") + 1]`; None where
      either search raises. A last "}" before the first "{" gives the empty
      slice, as Python's slicing does. */
  function JsonSpan(content: string): (r: Option<string>)
    ensures r.Some? <==> '{' in content && '}' in content
    ensures r.Some? && r.value != [] ==>
      r.value[0] == '{' && r.value[|r.value| - 1] == '}'
      && exists i, j :: 0 <= i < j <= |content| && r.value == content[i..j]
           && '{' !in content[..i] && '}' !in content[j..]
  {
    match (FirstIndex(content, '{'), LastIndex(content, '}'))
    case (Some(i), Some(k)) =>
      if i <= k then
        assert '{' !in content[..i] && '}' !in content[k + 1..];
        Some(content[i..k + 1])
      else Some([])
    case _ => None
  }

  /** Text around an object that holds no "{" before it and no "}" after it
      is cut away, whatever the object holds. */
  lemma JsonSpanOfObject(pre: string, body: string, post: string)
    requires '{' !in pre && '}' !in post
    ensures JsonSpan(pre + ['{'] + body + ['}'] + post) == Some(['{'] + body + ['}'])
  {
    var obj := ['{'] + body + ['}'];
    var s := pre + obj + post;
    assert s == pre + ['{'] + body + ['}'] + post;
    var i := |pre|;
    var k := |pre| + |obj| - 1;
    assert s[i] == obj[0] == '{';
    assert s[k] == obj[|obj| - 1] == '}';
    assert s[..i] == pre;
    assert s[k + 1..] == post;
    FirstIndexAt(s, '{', i);
    LastIndexAt(s, '}', k);
    assert s[i..k + 1] == obj;
  }

  lemma FirstIndexAt(s: string, c: char, i: nat)
    requires i < |s| && s[i] == c && c !in s[..i]
    ensures FirstIndex(s, c) == Some(i)
  {
    assert c in s by { assert s[i] == c; }
  }

  lemma LastIndexAt(s: string, c: char, k: nat)
    requires k < |s| && s[k] == c && c !in s[k + 1..]
    ensures LastIndex(s, c) == Some(k)
  {
    assert c in s by { assert s[k] == c; }
  }

  // ---------------------------------------------------------------------
  // analyze_pair
  // ---------------------------------------------------------------------

  /** The fields of a market the analysis reads. */
  datatype HedgeMarket = HedgeMarket(conditionId: string, question: string)

  /** What `json.loads` made of the span: an object with the two fields the
      scan reads (`has_relationship` by truthiness), another JSON value, or
      a decoding error. */
  datatype Decoded = JsonObject(hasRelationship: bool, tier: Option<int>) | JsonOther | JsonInvalid

  /** The analysis dict `analyze_pair` returns, with the fields the scan
      reads and the ones it adds. */
  datatype Analysis = Analysis(hasRelationship: bool, tier: Option<int>, parseFailed: bool,
                               marketA: HedgeMarket, marketB: HedgeMarket, modelUsed: string,
                               tierLabel: Option<string>)

  /** `analyze_pair` once the model has replied (`reply` is the message
      content, or the error the request raised). */
  function AnalyzePair(a: HedgeMarket, b: HedgeMarket, model: Option<string>, apiKey: string,
                       reply: Result<string>, decode: string -> Decoded): (r: Result<Analysis>)
    ensures apiKey == "" ==> r.Err?
    ensures apiKey != "" && reply.Ok? && JsonSpan(reply.value).None? ==>
      r.Ok? && !r.value.hasRelationship && r.value.parseFailed
    ensures r.Ok? ==> r.value.marketA == a && r.value.marketB == b && r.value.tierLabel.None?
                      && r.value.modelUsed == (if Present(model) then model.value else DefaultModel)
    ensures r.Ok? && r.value.hasRelationship ==>
      reply.Ok? && JsonSpan(reply.value).Some? && decode(JsonSpan(reply.value).value).JsonObject?
  {
    if apiKey == "" then Err("OPENROUTER_API_KEY not set")
    else
      var used := if Present(model) then model.value else DefaultModel;
      match reply
      case Err(e) => Err(e)
      case Ok(content) =>
        var decoded := match JsonSpan(content)
          case None => JsonInvalid
          case Some(span) => decode(span);
        match decoded
        case JsonInvalid => Ok(Analysis(false, None, true, a, b, used, None))
        // item assignment on a list, string or number raises TypeError
        case JsonOther => Err("TypeError")
        case JsonObject(h, t) => Ok(Analysis(h, t, false, a, b, used, None))
  }

  // ---------------------------------------------------------------------
  // Pair enumeration
  // ---------------------------------------------------------------------

  /** `(i, j)` for `j` from `j0` up to `n - 1`. */
  function Row(i: nat, j0: nat, n: nat): (r: seq<(nat, nat)>)
    ensures j0 <= n ==> |r| == n - j0
    ensures forall k :: 0 <= k < |r| ==> r[k] == (i, j0 + k)
    decreases n - j0
  {
    if j0 >= n then [] else [(i, j0)] + Row(i, j0 + 1, n)
  }

  /** The pairs the two nested loops visit, from row `i` on. */
  function PairsFrom(i: nat, n: nat): seq<(nat, nat)>
    decreases n - i
  {
    if i >= n then [] else Row(i, i + 1, n) + PairsFrom(i + 1, n)
  }

  function AllPairs(n: nat): seq<(nat, nat)> { PairsFrom(0, n) }

  predicate LexLess(p: (nat, nat), q: (nat, nat)) {
    p.0 < q.0 || (p.0 == q.0 && p.1 < q.1)
  }

  predicate LexSorted(s: seq<(nat, nat)>) {
    forall k, l :: 0 <= k < l < |s| ==> LexLess(s[k], s[l])
  }

  /** Row `i` onwards holds every pair `i <= p.0 < p.1 < n`, and nothing
      else. */
  lemma {:induction false} PairsFromMembers(i: nat, n: nat)
    ensures forall p :: p in PairsFrom(i, n) <==> i <= p.0 < p.1 < n
    decreases n - i
  {
    if i < n {
      PairsFromMembers(i + 1, n);
      var row := Row(i, i + 1, n);
      var rest := PairsFrom(i + 1, n);
      assert PairsFrom(i, n) == row + rest;
      forall p: (nat, nat) | i <= p.0 < p.1 < n
        ensures p in row + rest
      {
        if p.0 == i {
          assert row[p.1 - i - 1] == p;
        } else {
          assert p in rest;
        }
      }
    }
  }

  lemma {:induction false} PairsFromRowAtLeast(i: nat, n: nat, k: nat)
    requires k < |PairsFrom(i, n)|
    ensures PairsFrom(i, n)[k].0 >= i
    decreases n - i
  {
    var row := Row(i, i + 1, n);
    assert PairsFrom(i, n) == row + PairsFrom(i + 1, n);
    if k >= |row| {
      PairsFromRowAtLeast(i + 1, n, k - |row|);
    }
  }

  /** The enumeration is strictly increasing in lexicographic order, so no
      pair is visited twice. */
  lemma {:induction false} PairsFromSorted(i: nat, n: nat)
    ensures LexSorted(PairsFrom(i, n))
    decreases n - i
  {
    if i < n {
      PairsFromSorted(i + 1, n);
      var row := Row(i, i + 1, n);
      var rest := PairsFrom(i + 1, n);
      var all := row + rest;
      assert PairsFrom(i, n) == all;
      forall k, l | 0 <= k < l < |all|
        ensures LexLess(all[k], all[l])
      {
        if l < |row| {
          assert all[k] == row[k] && all[l] == row[l];
        } else if k < |row| {
          assert all[k] == row[k] && all[l] == rest[l - |row|];
          PairsFromRowAtLeast(i + 1, n, l - |row|);
        } else {
          assert all[k] == rest[k - |row|];
          assert all[l] == rest[l - |row|];
        }
      }
    }
  }

  /** Row `i` onwards has (n-i)(n-i-1)/2 pairs. */
  lemma {:induction false} PairsFromCount(i: nat, n: nat)
    requires i <= n
    ensures 2 * |PairsFrom(i, n)| == (n - i) * (n - i - 1)
    decreases n - i
  {
    if i < n {
      PairsFromCount(i + 1, n);
      var m := n - i;
      assert 2 * |PairsFrom(i + 1, n)| == (m - 1) * (m - 2);
      assert (m - 1) * (m - 2) + 2 * (m - 1) == m * (m - 1);
    }
  }

  /** `min(limit * 3, n * (n - 1) // 2)`. */
  function MaxPairs(limit: int, n: nat): int {
    var all := n * (n - 1) / 2;
    if 3 * limit < all then 3 * limit else all
  }

  /** The pairs analysed: the nested loops stop as soon as `max_pairs`
      pairs were counted, so this is a prefix of the lexicographic
      enumeration (none at all for a negative budget). */
  function CheckedPairs(limit: int, n: nat): (c: seq<(nat, nat)>)
    ensures forall p :: p in c ==> p.0 < p.1 < n
  {
    PairsFromMembers(0, n);
    var all := AllPairs(n);
    assert forall k :: 0 <= k < |all| ==> all[k] in all;
    var m := MaxPairs(limit, n);
    if m <= 0 then [] else if m < |all| then all[..m] else all
  }

  /** The budget counts pairs exactly: min(3·limit, n(n-1)/2) of them (none
      for a negative limit), each `i < j < n`, in lexicographic order. */
  lemma CheckedPairsFacts(limit: int, n: nat)
    ensures var c := CheckedPairs(limit, n);
      && |c| == (if MaxPairs(limit, n) <= 0 then 0 else MaxPairs(limit, n))
      && (forall p :: p in c ==> p.0 < p.1 < n)
      && LexSorted(c)
      && c == AllPairs(n)[..|c|]
  {
    PairsFromSorted(0, n);
    PairsFromCount(0, n);
    var all := AllPairs(n);
    var c := CheckedPairs(limit, n);
    assert 2 * |all| == n * (n - 1);
    assert |all| == n * (n - 1) / 2;
    forall p | p in c
      ensures p.0 < p.1 < n
    {
      assert p in all;
    }
  }

  // ---------------------------------------------------------------------
  // scan_for_hedges
  // ---------------------------------------------------------------------

  function TierOf(x: Analysis): int { x.tier.GetOr(MissingTier) }

  /** The test of lines 153-155. */
  predicate Keeps(r: Result<Analysis>, minTier: int) {
    r.Ok? && r.value.hasRelationship && TierOf(r.value) <= minTier
  }

  /** The kept results of the checked pairs, labelled, in pair order. A pair
      whose analysis raised is logged and skipped. */
  function KeptResults(markets: seq<HedgeMarket>, pairs: seq<(nat, nat)>, minTier: int,
                       analyze: (HedgeMarket, HedgeMarket) -> Result<Analysis>): (r: seq<Analysis>)
    requires forall p :: p in pairs ==> p.0 < |markets| && p.1 < |markets|
    ensures |r| <= |pairs|
    ensures forall x :: x in r ==> x.hasRelationship && TierOf(x) <= minTier
                                    && x.tierLabel == Some(TierLabel(TierOf(x)))
    decreases |pairs|
  {
    if |pairs| == 0 then []
    else
      var p := pairs[0];
      var res := analyze(markets[p.0], markets[p.1]);
      assert forall q :: q in pairs[1..] ==> q in pairs;
      var rest := KeptResults(markets, pairs[1..], minTier, analyze);
      if Keeps(res, minTier) then [res.value.(tierLabel := Some(TierLabel(TierOf(res.value))))] + rest
      else rest
  }

  /** Every kept result is the labelled analysis of one of the pairs, and
      that analysis passes the filter. */
  lemma {:induction false} KeptResultsFrom(markets: seq<HedgeMarket>, pairs: seq<(nat, nat)>, minTier: int,
                                           analyze: (HedgeMarket, HedgeMarket) -> Result<Analysis>, x: Analysis)
    requires forall p :: p in pairs ==> p.0 < |markets| && p.1 < |markets|
    requires x in KeptResults(markets, pairs, minTier, analyze)
    ensures exists k :: (0 <= k < |pairs|
      && Keeps(analyze(markets[pairs[k].0], markets[pairs[k].1]), minTier)
      && x == analyze(markets[pairs[k].0], markets[pairs[k].1]).value.(tierLabel := Some(TierLabel(TierOf(x)))))
    decreases |pairs|
  {
    var p := pairs[0];
    var res := analyze(markets[p.0], markets[p.1]);
    assert forall q :: q in pairs[1..] ==> q in pairs;
    var rest := KeptResults(markets, pairs[1..], minTier, analyze);
    if x in rest {
      KeptResultsFrom(markets, pairs[1..], minTier, analyze, x);
      var k :| 0 <= k < |pairs[1..]|
        && Keeps(analyze(markets[pairs[1..][k].0], markets[pairs[1..][k].1]), minTier)
        && x == analyze(markets[pairs[1..][k].0], markets[pairs[1..][k].1]).value.(tierLabel := Some(TierLabel(TierOf(x))));
      assert pairs[1..][k] == pairs[k + 1];
    } else {
      assert Keeps(res, minTier) && x == res.value.(tierLabel := Some(TierLabel(TierOf(res.value))));
      assert pairs[0] == p;
    }
  }

  /** Conversely, every pair whose analysis passes the filter contributes
      its labelled analysis. */
  lemma {:induction false} KeptResultsComplete(markets: seq<HedgeMarket>, pairs: seq<(nat, nat)>, minTier: int,
                                               analyze: (HedgeMarket, HedgeMarket) -> Result<Analysis>, k: nat)
    requires forall p :: p in pairs ==> p.0 < |markets| && p.1 < |markets|
    requires k < |pairs| && Keeps(analyze(markets[pairs[k].0], markets[pairs[k].1]), minTier)
    ensures var a := analyze(markets[pairs[k].0], markets[pairs[k].1]).value;
      a.(tierLabel := Some(TierLabel(TierOf(a)))) in KeptResults(markets, pairs, minTier, analyze)
    decreases |pairs|
  {
    assert forall q :: q in pairs[1..] ==> q in pairs;
    if k > 0 {
      KeptResultsComplete(markets, pairs[1..], minTier, analyze, k - 1);
      assert pairs[1..][k - 1] == pairs[k];
    }
  }

  /** Negated tier: the largest-first sort on it is the ascending sort on
      the tier. */
  function TierKey(x: Analysis): real { -(TierOf(x) as real) }

  /** `scan_for_hedges` once the markets are fetched. */
  function ScanForHedges(markets: seq<HedgeMarket>, limit: int, minTier: int,
                         analyze: (HedgeMarket, HedgeMarket) -> Result<Analysis>): (r: seq<Analysis>)
    ensures |markets| < 2 ==> r == []
    ensures |r| <= |CheckedPairs(limit, |markets|)|
    ensures forall i, j :: 0 <= i < j < |r| ==> TierOf(r[i]) <= TierOf(r[j])
    ensures |markets| >= 2 ==>
      multiset(r) == multiset(KeptResults(markets, CheckedPairs(limit, |markets|), minTier, analyze))
  {
    if |markets| < 2 then []
    else
      var pairs := CheckedPairs(limit, |markets|);
      CheckedPairsFacts(limit, |markets|);
      var kept := KeptResults(markets, pairs, minTier, analyze);
      var r := Sorting.SortDesc(kept, TierKey);
      assert forall i, j :: 0 <= i < j < |r| ==> TierKey(r[i]) >= TierKey(r[j]);
      r
  }

  /** The scan returns exactly the labelled analyses of the checked pairs
      that pass the filter. */
  lemma ScanForHedgesMembers(markets: seq<HedgeMarket>, limit: int, minTier: int,
                             analyze: (HedgeMarket, HedgeMarket) -> Result<Analysis>, x: Analysis)
    requires |markets| >= 2
    ensures x in ScanForHedges(markets, limit, minTier, analyze)
      <==> x in KeptResults(markets, CheckedPairs(limit, |markets|), minTier, analyze)
    ensures x in ScanForHedges(markets, limit, minTier, analyze) ==>
      x.hasRelationship && TierOf(x) <= minTier && x.tierLabel == Some(TierLabel(TierOf(x)))
  {
    CheckedPairsFacts(limit, |markets|);
    var kept := KeptResults(markets, CheckedPairs(limit, |markets|), minTier, analyze);
    Sorting.SortDescMembers(kept, TierKey, x);
  }

  /** A reply whose tier lies outside 1..4 but at most `min_tier` (0, say)
      is kept and labelled UNKNOWN. */
  lemma OutOfRangeTierKept(a: HedgeMarket, b: HedgeMarket)
    ensures var x := Analysis(true, Some(0), false, a, b, DefaultModel, None);
      KeptResults([a, b], [(0, 1)], 3, (_, _) => Ok(x))
      == [x.(tierLabel := Some("UNKNOWN"))]
  {
  }
}

=== FILE: markets.dfy ===
/** Market records (modules/markets.py). The exchange's metadata API returns
    loosely shaped market objects; `Normalize` turns one into the flat record
    every scanner reads, falling back field by field. HTTP requests are not
    modelled: their decoded responses are inputs. */
module Markets {
  import opened Common

  /** One entry of a raw market's `tokens` array. `outcome` and `tokenId`
      are "" when the key is missing; `price` is None when missing or null. */
  datatype Token = Token(outcome: string, tokenId: string, price: Option<real>)

  /** A market object as the metadata API returns it, with JSON-string fields
      (`outcomePrices`, `clobTokenIds`) already decoded. Absent keys are
      None; plain text fields are "" when absent. */
  datatype RawMarket = RawMarket(
    id: string,
    conditionId: Option<string>,       // "conditionId"
    conditionIdSnake: Option<string>,  // "condition_id"
    question: string,
    description: string,
    slug: Option<string>,              // "slug"
    marketSlug: Option<string>,        // "market_slug"
    tokens: seq<Token>,
    outcomePrices: Option<seq<Scalar>>,
    clobTokenIds: Option<seq<string>>,
    volume24hr: Option<real>,
    liquidityNum: Option<real>,
    endDate: string,
    category: string,
    active: Option<bool>,
    closed: Option<bool>
  )

  /** The normalised market record every scanner consumes. */
  datatype Market = Market(
    id: string,
    conditionId: string,
    question: string,
    description: string,
    slug: string,
    yesPrice: Option<real>,
    noPrice: Option<real>,
    yesTokenId: Option<string>,
    noTokenId: Option<string>,
    volume24h: real,
    liquidity: real,
    endDate: string,
    category: string,
    tokens: seq<Token>,
    active: bool,
    closed: bool
  )

  predicate IsYes(t: Token) { Upper(t.outcome) == "YES" }
  predicate IsNo(t: Token) { Upper(t.outcome) == "NO" }

  /** What the walk over the tokens array has found so far. */
  datatype TokenScan = TokenScan(yesId: Option<string>, yesPrice: Option<real>,
                                 noId: Option<string>, noPrice: Option<real>)

  function ScanStep(acc: TokenScan, t: Token): TokenScan {
    if IsYes(t) then
      acc.(yesId := Some(t.tokenId), yesPrice := if t.price.Some? then t.price else acc.yesPrice)
    else if IsNo(t) then
      acc.(noId := Some(t.tokenId), noPrice := if t.price.Some? then t.price else acc.noPrice)
    else acc
  }

  /** The loop of markets.py lines 239-251, left to right. */
  function ScanTokens(ts: seq<Token>): TokenScan
    decreases |ts|
  {
    if |ts| == 0 then TokenScan(None, None, None, None)
    else ScanStep(ScanTokens(ts[..|ts| - 1]), ts[|ts| - 1])
  }

  /** The YES or the NO side of a token and of a scan. */
  predicate IsSide(t: Token, yes: bool) { if yes then IsYes(t) else IsNo(t) }
  function ScanId(s: TokenScan, yes: bool): Option<string> { if yes then s.yesId else s.noId }
  function ScanPrice(s: TokenScan, yes: bool): Option<real> { if yes then s.yesPrice else s.noPrice }

  /** One step touches a side only through a token of that side: the id is
      overwritten, and the price only when the token has one. */
  lemma ScanStepSide(acc: TokenScan, t: Token, yes: bool)
    ensures ScanId(ScanStep(acc, t), yes) == if IsSide(t, yes) then Some(t.tokenId) else ScanId(acc, yes)
    ensures ScanPrice(ScanStep(acc, t), yes) ==
              if IsSide(t, yes) && t.price.Some? then t.price else ScanPrice(acc, yes)
  {
    assert !(IsYes(t) && IsNo(t));
  }

  lemma {:induction false} ScanSideNone(ts: seq<Token>, yes: bool)
    ensures ScanId(ScanTokens(ts), yes).None? <==> forall k :: 0 <= k < |ts| ==> !IsSide(ts[k], yes)
    decreases |ts|
  {
    if |ts| > 0 {
      var init := ts[..|ts| - 1];
      ScanSideNone(init, yes);
      ScanStepSide(ScanTokens(init), ts[|ts| - 1], yes);
      assert forall k :: 0 <= k < |init| ==> init[k] == ts[k];
    }
  }

  /** A token with no token of its side after it in all but the last token
      keeps that property when the last token is not of its side. */
  lemma NoLaterSide(ts: seq<Token>, init: seq<Token>, k: nat, yes: bool)
    requires |ts| > 0 && init == ts[..|ts| - 1] && k < |init|
    requires forall j :: k < j < |init| ==> !IsSide(init[j], yes)
    requires !IsSide(ts[|ts| - 1], yes)
    ensures ts[k] == init[k]
    ensures forall j :: k < j < |ts| ==> !IsSide(ts[j], yes)
  {
    forall j | k < j < |ts| ensures !IsSide(ts[j], yes) {
      if j < |init| { assert ts[j] == init[j]; }
    }
  }

  lemma {:induction false} ScanSideLast(ts: seq<Token>, yes: bool)
    ensures ScanId(ScanTokens(ts), yes).Some? ==>
      exists k :: 0 <= k < |ts| && IsSide(ts[k], yes) && ScanId(ScanTokens(ts), yes).value == ts[k].tokenId
                  && forall j :: k < j < |ts| ==> !IsSide(ts[j], yes)
    decreases |ts|
  {
    if |ts| > 0 {
      var init := ts[..|ts| - 1];
      var last := |ts| - 1;
      var id := ScanId(ScanTokens(ts), yes);
      ScanStepSide(ScanTokens(init), ts[last], yes);
      assert ScanTokens(ts) == ScanStep(ScanTokens(init), ts[last]);
      if IsSide(ts[last], yes) {
        assert id == Some(ts[last].tokenId);
      } else if id.Some? {
        assert ScanId(ScanTokens(init), yes) == id;
        ScanSideLast(init, yes);
        var k :| 0 <= k < |init| && IsSide(init[k], yes) && id.value == init[k].tokenId
                 && forall j :: k < j < |init| ==> !IsSide(init[j], yes);
        NoLaterSide(ts, init, k, yes);
      }
    }
  }

  /** A side's price is missing exactly when no token of that side has a
      price; otherwise it is the price of the last such token. */
  lemma {:induction false} ScanSidePriceNone(ts: seq<Token>, yes: bool)
    ensures ScanPrice(ScanTokens(ts), yes).None? <==>
      forall k :: 0 <= k < |ts| && IsSide(ts[k], yes) ==> ts[k].price.None?
    decreases |ts|
  {
    if |ts| > 0 {
      var init := ts[..|ts| - 1];
      ScanSidePriceNone(init, yes);
      ScanStepSide(ScanTokens(init), ts[|ts| - 1], yes);
      assert forall k :: 0 <= k < |init| ==> init[k] == ts[k];
    }
  }

  /** A token with no priced token of its side after it in all but the
      last token keeps that property when the last token is not a priced
      token of its side. */
  lemma NoLaterPriced(ts: seq<Token>, init: seq<Token>, k: nat, yes: bool)
    requires |ts| > 0 && init == ts[..|ts| - 1] && k < |init|
    requires forall j :: k < j < |init| && IsSide(init[j], yes) ==> init[j].price.None?
    requires !(IsSide(ts[|ts| - 1], yes) && ts[|ts| - 1].price.Some?)
    ensures ts[k] == init[k]
    ensures forall j :: k < j < |ts| && IsSide(ts[j], yes) ==> ts[j].price.None?
  {
    forall j | k < j < |ts| && IsSide(ts[j], yes) ensures ts[j].price.None? {
      if j < |init| { assert ts[j] == init[j]; }
    }
  }

  lemma {:induction false} ScanSidePriceLast(ts: seq<Token>, yes: bool)
    ensures ScanPrice(ScanTokens(ts), yes).Some? ==>
      exists k :: 0 <= k < |ts| && IsSide(ts[k], yes) && ts[k].price == ScanPrice(ScanTokens(ts), yes)
                  && forall j :: k < j < |ts| && IsSide(ts[j], yes) ==> ts[j].price.None?
    decreases |ts|
  {
    if |ts| > 0 {
      var init := ts[..|ts| - 1];
      var last := |ts| - 1;
      var p := ScanPrice(ScanTokens(ts), yes);
      ScanStepSide(ScanTokens(init), ts[last], yes);
      assert ScanTokens(ts) == ScanStep(ScanTokens(init), ts[last]);
      if IsSide(ts[last], yes) && ts[last].price.Some? {
        assert ts[last].price == p;
      } else if p.Some? {
        assert ScanPrice(ScanTokens(init), yes) == p;
        ScanSidePriceLast(init, yes);
        var k :| 0 <= k < |init| && IsSide(init[k], yes) && init[k].price == p
                 && forall j :: k < j < |init| && IsSide(init[j], yes) ==> init[j].price.None?;
        NoLaterPriced(ts, init, k, yes);
      }
    }
  }

  /** A side's price is missing exactly when none of its tokens has one, and
      is otherwise that of its last priced token. */
  lemma ScanSidePrice(ts: seq<Token>, yes: bool)
    ensures ScanPrice(ScanTokens(ts), yes).None? <==>
      forall k :: 0 <= k < |ts| && IsSide(ts[k], yes) ==> ts[k].price.None?
    ensures ScanPrice(ScanTokens(ts), yes).Some? ==>
      exists k :: 0 <= k < |ts| && IsSide(ts[k], yes) && ts[k].price == ScanPrice(ScanTokens(ts), yes)
                  && forall j :: k < j < |ts| && IsSide(ts[j], yes) ==> ts[j].price.None?
  {
    ScanSidePriceNone(ts, yes);
    ScanSidePriceLast(ts, yes);
  }

  /** Outcomes compare case-insensitively and the LAST YES token supplies the
      YES token id; the YES price is that of the last YES token with a price,
      and missing exactly when no YES token has one. */
  lemma ScanTokensLastYesWins(ts: seq<Token>)
    ensures ScanTokens(ts).yesId.None? <==> forall k :: 0 <= k < |ts| ==> !IsYes(ts[k])
    ensures ScanTokens(ts).yesId.Some? ==>
      exists k :: 0 <= k < |ts| && IsYes(ts[k]) && ScanTokens(ts).yesId.value == ts[k].tokenId
                  && forall j :: k < j < |ts| ==> !IsYes(ts[j])
    ensures ScanTokens(ts).yesPrice.None? <==> forall k :: 0 <= k < |ts| && IsYes(ts[k]) ==> ts[k].price.None?
    ensures ScanTokens(ts).yesPrice.Some? ==>
      exists k :: 0 <= k < |ts| && IsYes(ts[k]) && ts[k].price == ScanTokens(ts).yesPrice
                  && forall j :: k < j < |ts| && IsYes(ts[j]) ==> ts[j].price.None?
  {
    ScanSideNone(ts, true);
    ScanSideLast(ts, true);
    ScanSidePrice(ts, true);
  }

  /** The same rule for the NO side. */
  lemma ScanTokensLastNoWins(ts: seq<Token>)
    ensures ScanTokens(ts).noId.None? <==> forall k :: 0 <= k < |ts| ==> !IsNo(ts[k])
    ensures ScanTokens(ts).noId.Some? ==>
      exists k :: 0 <= k < |ts| && IsNo(ts[k]) && ScanTokens(ts).noId.value == ts[k].tokenId
                  && forall j :: k < j < |ts| ==> !IsNo(ts[j])
    ensures ScanTokens(ts).noPrice.None? <==> forall k :: 0 <= k < |ts| && IsNo(ts[k]) ==> ts[k].price.None?
    ensures ScanTokens(ts).noPrice.Some? ==>
      exists k :: 0 <= k < |ts| && IsNo(ts[k]) && ts[k].price == ScanTokens(ts).noPrice
                  && forall j :: k < j < |ts| && IsNo(ts[j]) ==> ts[j].price.None?
  {
    ScanSideNone(ts, false);
    ScanSideLast(ts, false);
    ScanSidePrice(ts, false);
  }

  /** One `outcomePrices` entry as markets.py lines 265 and 267 read it: a
      falsy entry gives None, otherwise `float(entry)`; `None` here means that
      float() raised, which aborts the rest of the fallback. */
  function PriceEntry(v: Scalar): (r: Option<Option<real>>)
    ensures !Truthy(v) ==> r == Some(None)
    ensures Truthy(v) ==> (r.Some? <==> ToFloat(v).Float?)
    ensures Truthy(v) && ToFloat(v).Float? ==> r == Some(Some(ToFloat(v).x))
  {
    if !Truthy(v) then Some(None)
    else match ToFloat(v)
      case Float(x) => Some(Some(x))
      case _ => None
  }

  /** The `outcomePrices` fallback of markets.py lines 254-269. */
  function PriceFallback(yes: Option<real>, no: Option<real>, ops: Option<seq<Scalar>>): (r: (Option<real>, Option<real>))
    ensures yes.Some? ==> r.0 == yes
    ensures no.Some? ==> r.1 == no
    ensures (ops.None? || |ops.value| < 2) ==> r == (yes, no)
    ensures yes.None? && ops.Some? && |ops.value| >= 2 && !Truthy(ops.value[0]) ==> r.0.None?
    ensures yes.None? && ops.Some? && |ops.value| >= 2 && Truthy(ops.value[0]) && ToFloat(ops.value[0]).Float? ==>
              r.0 == Some(ToFloat(ops.value[0]).x)
    ensures yes.None? && ops.Some? && |ops.value| >= 2 && Truthy(ops.value[0]) && !ToFloat(ops.value[0]).Float? ==>
              r == (yes, no)
    ensures no.None? && ops.Some? && |ops.value| >= 2 && PriceEntry(ops.value[1]).Some?
              && (yes.Some? || PriceEntry(ops.value[0]).Some?) ==>
              r.1 == PriceEntry(ops.value[1]).value
    ensures ops.Some? && |ops.value| >= 2 && PriceEntry(ops.value[1]).None? ==> r.1 == no
  {
    if yes.Some? && no.Some? then (yes, no)
    else if ops.None? || |ops.value| < 2 then (yes, no)
    else
      var ps := ops.value;
      var y := if yes.None? then PriceEntry(ps[0]) else Some(yes);
      if y.None? then (yes, no)
      else
        var n := if no.None? then PriceEntry(ps[1]) else Some(no);
        if n.None? then (y.value, no) else (y.value, n.value)
  }

  /** The `clobTokenIds` fallback of markets.py lines 272-285: only falsy ids
      are filled, from the first two entries. */
  function IdFallback(yesId: Option<string>, noId: Option<string>, clob: Option<seq<string>>): (r: (Option<string>, Option<string>))
    ensures Present(yesId) ==> r.0 == yesId
    ensures Present(noId) ==> r.1 == noId
    ensures clob.Some? && |clob.value| >= 2 && !Present(yesId) ==> r.0 == Some(clob.value[0])
    ensures clob.Some? && |clob.value| >= 2 && !Present(noId) ==> r.1 == Some(clob.value[1])
    ensures (clob.None? || |clob.value| < 2) ==> r == (yesId, noId)
  {
    if Present(yesId) && Present(noId) then (yesId, noId)
    else if clob.None? || |clob.value| < 2 then (yesId, noId)
    else
      (if Present(yesId) then yesId else Some(clob.value[0]),
       if Present(noId) then noId else Some(clob.value[1]))
  }

  /** `raw.get(a, raw.get(b, ""))`. */
  function FirstOf(a: Option<string>, b: Option<string>): (r: string)
    ensures a.Some? ==> r == a.value
    ensures a.None? && b.Some? ==> r == b.value
    ensures a.None? && b.None? ==> r == ""
  {
    if a.Some? then a.value else if b.Some? then b.value else ""
  }

  /** `float(raw.get(key, 0) or 0)` for a numeric field. */
  function NumOrZero(v: Option<real>): real {
    v.GetOr(0.0)
  }

  /** `_normalize_market`. */
  function Normalize(raw: RawMarket): (m: Market)
    ensures m.conditionId == FirstOf(raw.conditionId, raw.conditionIdSnake)
    ensures m.slug == FirstOf(raw.slug, raw.marketSlug)
    ensures raw.liquidityNum.None? ==> m.liquidity == 0.0
    ensures raw.volume24hr.None? ==> m.volume24h == 0.0
    ensures raw.active.None? ==> m.active
    ensures raw.closed.None? ==> !m.closed
    ensures ScanTokens(raw.tokens).yesPrice.Some? ==> m.yesPrice == ScanTokens(raw.tokens).yesPrice
    ensures ScanTokens(raw.tokens).noPrice.Some? ==> m.noPrice == ScanTokens(raw.tokens).noPrice
    ensures Present(ScanTokens(raw.tokens).yesId) ==> m.yesTokenId == ScanTokens(raw.tokens).yesId
    ensures Present(ScanTokens(raw.tokens).noId) ==> m.noTokenId == ScanTokens(raw.tokens).noId
    ensures var scan := ScanTokens(raw.tokens);
      && (scan.yesPrice.None? ==> m.yesPrice == PriceFallback(scan.yesPrice, scan.noPrice, raw.outcomePrices).0)
      && (scan.noPrice.None? ==> m.noPrice == PriceFallback(scan.yesPrice, scan.noPrice, raw.outcomePrices).1)
      && (!Present(scan.yesId) ==> m.yesTokenId == IdFallback(scan.yesId, scan.noId, raw.clobTokenIds).0)
      && (!Present(scan.noId) ==> m.noTokenId == IdFallback(scan.yesId, scan.noId, raw.clobTokenIds).1)
    ensures raw.liquidityNum.Some? ==> m.liquidity == raw.liquidityNum.value
    ensures raw.volume24hr.Some? ==> m.volume24h == raw.volume24hr.value
    ensures raw.active.Some? ==> m.active == raw.active.value
    ensures raw.closed.Some? ==> m.closed == raw.closed.value
    ensures m.id == raw.id && m.question == raw.question && m.description == raw.description
    ensures m.endDate == raw.endDate && m.category == raw.category && m.tokens == raw.tokens
  {
    var scan := ScanTokens(raw.tokens);
    var prices := PriceFallback(scan.yesPrice, scan.noPrice, raw.outcomePrices);
    var ids := if Present(scan.yesId) && Present(scan.noId) then (scan.yesId, scan.noId)
               else IdFallback(scan.yesId, scan.noId, raw.clobTokenIds);
    Market(
      raw.id,
      FirstOf(raw.conditionId, raw.conditionIdSnake),
      raw.question,
      raw.description,
      FirstOf(raw.slug, raw.marketSlug),
      prices.0,
      prices.1,
      ids.0,
      ids.1,
      NumOrZero(raw.volume24hr),
      NumOrZero(raw.liquidityNum),
      raw.endDate,
      raw.category,
      raw.tokens,
      raw.active.GetOr(true),
      raw.closed.GetOr(false)
    )
  }

  /** A market without tokens falls back to `outcomePrices`, reading the first
      entry as YES and the second as NO, with falsy entries giving None. */
  lemma NormalizeWithoutTokens(raw: RawMarket, y: real, n: real)
    requires raw.tokens == []
    requires raw.outcomePrices == Some([Text("y", Some(y)), Number(n)])
    ensures Normalize(raw).yesPrice == Some(y)
    ensures n != 0.0 ==> Normalize(raw).noPrice == Some(n)
    ensures n == 0.0 ==> Normalize(raw).noPrice.None?
  {
  }

  // ---------------------------------------------------------------------
  // Market id classification and lookups (get_market_detail)
  // ---------------------------------------------------------------------

  /** How many whitespace characters `s` starts with. */
  function LeadingSpaces(s: string): (n: nat)
    ensures n <= |s|
    ensures forall i :: 0 <= i < n ==> IsPySpace(s[i])
    ensures n < |s| ==> !IsPySpace(s[n])
  {
    if |s| > 0 && IsPySpace(s[0]) then 1 + LeadingSpaces(s[1..]) else 0
  }

  /** How many whitespace characters `s` ends with. */
  function TrailingSpaces(s: string): (n: nat)
    ensures n <= |s|
    ensures forall i :: |s| - n <= i < |s| ==> IsPySpace(s[i])
    ensures n < |s| ==> !IsPySpace(s[|s| - n - 1])
  {
    if |s| > 0 && IsPySpace(s[|s| - 1]) then 1 + TrailingSpaces(s[..|s| - 1]) else 0
  }

  /** Python's `str.strip()`: the slice of `s` after its leading whitespace
      that leaves only whitespace behind it and neither starts nor ends with
      whitespace. */
  function Strip(s: string): (r: string)
    ensures |r| <= |s|
    ensures |r| > 0 ==> !IsPySpace(r[0]) && !IsPySpace(r[|r| - 1])
    ensures LeadingSpaces(s) + |r| <= |s| && r == s[LeadingSpaces(s)..LeadingSpaces(s) + |r|]
    ensures forall i :: LeadingSpaces(s) + |r| <= i < |s| ==> IsPySpace(s[i])
  {
    var a := LeadingSpaces(s);
    var t := s[a..];
    var b := TrailingSpaces(t);
    StripSlice(s, a, t, b);
    t[..|t| - b]
  }

  /** Cutting a whitespace run of length `b` off the end of the suffix of
      `s` from a non-whitespace position `a` leaves a slice of `s` that
      neither starts nor ends with whitespace and has only whitespace behind
      it. */
  lemma StripSlice(s: string, a: nat, t: string, b: nat)
    requires a <= |s| && t == s[a..] && b <= |t|
    requires a < |s| ==> !IsPySpace(s[a])
    requires forall i :: |t| - b <= i < |t| ==> IsPySpace(t[i])
    requires b < |t| ==> !IsPySpace(t[|t| - b - 1])
    ensures var r := t[..|t| - b];
      && (|r| > 0 ==> !IsPySpace(r[0]) && !IsPySpace(r[|r| - 1]))
      && a + |r| <= |s| && r == s[a..a + |r|]
      && forall i :: a + |r| <= i < |s| ==> IsPySpace(s[i])
  {
    var r := t[..|t| - b];
    forall i | a + |r| <= i < |s|
      ensures IsPySpace(s[i])
    {
      assert s[i] == t[i - a];
    }
    if |r| > 0 {
      assert r[0] == s[a];
      assert r[|r| - 1] == t[|t| - b - 1];
    }
  }

  /** The left strip drops exactly the leading whitespace. */
  lemma StripLeftLeading(s: string)
    ensures |s| - |StripLeft(s)| == LeadingSpaces(s)
  {
    var l := StripLeft(s);
    var a := |s| - |l|;
    var n := LeadingSpaces(s);
    if n < a {
      assert false;
    } else if a < n {
      assert false;
    }
  }

  /** The right strip drops exactly the trailing whitespace. */
  lemma StripRightTrailing(s: string)
    ensures |s| - |StripRight(s)| == TrailingSpaces(s)
  {
    var r := StripRight(s);
    var a := |s| - |r|;
    var n := TrailingSpaces(s);
    if n < a {
      assert false;
    } else if a < n {
      assert false;
    }
  }

  function StripLeft(s: string): (r: string)
    ensures |r| <= |s|
    ensures |r| > 0 ==> !IsPySpace(r[0])
    ensures r == s[|s| - |r|..]
    ensures forall i :: 0 <= i < |s| - |r| ==> IsPySpace(s[i])
  {
    if |s| > 0 && IsPySpace(s[0]) then StripLeft(s[1..]) else s
  }

  function StripRight(s: string): (r: string)
    ensures |r| <= |s|
    ensures |r| > 0 ==> !IsPySpace(r[|r| - 1])
    ensures r == s[..|r|]
    ensures forall i :: |r| <= i < |s| ==> IsPySpace(s[i])
    ensures |s| > 0 && !IsPySpace(s[0]) ==> |r| > 0 && r[0] == s[0]
  {
    if |s| > 0 && IsPySpace(s[|s| - 1]) then StripRight(s[..|s| - 1]) else s
  }

  datatype IdKind = Numeric | Slug | ConditionHex

  /** Lines 93-97: strip, then numeric, slug or condition id. */
  function ClassifyId(raw: string): (k: IdKind)
    ensures var id := Strip(raw);
      && (k == Numeric <==> AllDigits(id))
      && (k == Slug <==> !AllDigits(id) && !StartsWith(id, "0x") && |id| < 40)
      && (k == ConditionHex <==> !AllDigits(id) && (StartsWith(id, "0x") || |id| >= 40))
  {
    var id := Strip(raw);
    if AllDigits(id) then Numeric
    else if !StartsWith(id, "0x") && |id| < 40 then Slug
    else ConditionHex
  }

  /** Every hex condition id as the exchange writes it is classified as one,
      and so is any id of 40 characters or more that is not all digits. */
  lemma ClassifyConditionIds(id: string)
    requires |id| >= 2 && id[0] == '0' && id[1] == 'x'
    requires forall i :: 0 <= i < |id| ==> !IsPySpace(id[i])
    ensures ClassifyId(id) == ConditionHex
  {
    assert Strip(id) == id by {
      assert LeadingSpaces(id) == 0;
      assert id[0..] == id;
      assert TrailingSpaces(id) == 0;
    }
    assert !IsDigit(id[1]);
    assert StartsWith(id, "0x");
  }

  /** A CLOB order-book token as the book endpoint reports it. `price` is
      None when the key is missing, which `ct.get("price", 0)` reads as 0. */
  datatype BookToken = BookToken(outcome: string, price: Option<Scalar>)

  /** Decoded responses of every request `get_market_detail` may make. */
  datatype Lookups = Lookups(
    byGammaId: seq<RawMarket>,          // _lookup_by_gamma_id
    bySlug: Option<RawMarket>,          // get_market_by_slug (None: 404 or empty)
    byCondition: seq<RawMarket>,        // active-only condition_id query
    retry: seq<RawMarket>,              // query without the active filter
    book: Option<seq<BookToken>>        // book["market"]["tokens"]; None when the fetch failed or has no market
  )

  /** `float(ct.get("price", 0))`. */
  function BookPrice(ct: BookToken): (r: FloatOutcome)
    ensures ct.price.None? ==> r == Float(0.0)
    ensures ct.price.Some? ==> (r.Float? <==> ToFloat(ct.price.value).Float?)
  {
    match ct.price
    case None => Float(0.0)
    case Some(v) => ToFloat(v)
  }

  /** The outcome label the book uses for one side, matched case-sensitively. */
  function Label(yes: bool): string { if yes then "Yes" else "No" }

  /** The price of one side of a market. */
  function Side(m: Market, yes: bool): Option<real> { if yes then m.yesPrice else m.noPrice }

  /** A token whose `float()` raises: a "Yes" or "No" token whose price is
      null or text that is not a number. */
  predicate Raises(ct: BookToken) {
    (ct.outcome == "Yes" || ct.outcome == "No") && !BookPrice(ct).Float?
  }

  /** How many tokens the update loop gets through before `float()` raises. */
  function Halt(book: seq<BookToken>): (n: nat)
    ensures n <= |book|
    ensures forall j :: 0 <= j < n ==> !Raises(book[j])
    ensures n < |book| ==> Raises(book[n])
  {
    if |book| == 0 then 0
    else if Raises(book[0]) then 0
    else 1 + Halt(book[1..])
  }

  /** The live-book price update of lines 147-153: exact-case "Yes"/"No"
      tokens set that side's price. The first price `float()` rejects raises
      inside the `try`; the handler of line 154 keeps the updates already
      made and skips the rest. Every other field is left alone. */
  function ApplyBook(m: Market, book: seq<BookToken>): (r: Market)
    ensures r.(yesPrice := m.yesPrice, noPrice := m.noPrice) == m
    decreases |book|
  {
    if |book| == 0 then m
    else
      var ct := book[0];
      if ct.outcome != "Yes" && ct.outcome != "No" then ApplyBook(m, book[1..])
      else
        match BookPrice(ct)
        case Float(x) =>
          ApplyBook(if ct.outcome == "Yes" then m.(yesPrice := Some(x)) else m.(noPrice := Some(x)), book[1..])
        case _ => m
  }

  /** Tokens after the first one that raises have no effect. */
  lemma {:induction false} ApplyBookStops(m: Market, book: seq<BookToken>)
    ensures ApplyBook(m, book) == ApplyBook(m, book[..Halt(book)])
    decreases |book|
  {
    if |book| > 0 && !Raises(book[0]) {
      var ct := book[0];
      var m' := if ct.outcome == "Yes" then m.(yesPrice := Some(BookPrice(ct).x))
                else if ct.outcome == "No" then m.(noPrice := Some(BookPrice(ct).x))
                else m;
      ApplyBookStops(m', book[1..]);
      assert book[..Halt(book)][1..] == book[1..][..Halt(book[1..])];
    }
  }

  /** The last token of a side before the loop stops sets that side's price
      to its own price. */
  lemma {:induction false} ApplyBookLast(m: Market, book: seq<BookToken>, yes: bool, i: nat)
    requires i < Halt(book) && book[i].outcome == Label(yes)
    requires forall j :: i < j < Halt(book) ==> book[j].outcome != Label(yes)
    ensures Side(ApplyBook(m, book), yes) == Some(BookPrice(book[i]).x)
    decreases |book|
  {
    var ct := book[0];
    var m' := if ct.outcome == "Yes" then m.(yesPrice := Some(BookPrice(ct).x))
              else if ct.outcome == "No" then m.(noPrice := Some(BookPrice(ct).x))
              else m;
    assert ApplyBook(m, book) == ApplyBook(m', book[1..]);
    if i == 0 {
      forall j | 0 <= j < Halt(book[1..]) ensures book[1..][j].outcome != Label(yes) {
        assert book[1..][j] == book[j + 1];
      }
      ApplyBookUnset(m', book[1..], yes);
    } else {
      forall j | i - 1 < j < Halt(book[1..]) ensures book[1..][j].outcome != Label(yes) {
        assert book[1..][j] == book[j + 1];
      }
      ApplyBookLast(m', book[1..], yes, i - 1);
    }
  }

  /** A side no token names before the loop stops keeps its price. */
  lemma {:induction false} ApplyBookUnset(m: Market, book: seq<BookToken>, yes: bool)
    requires forall j :: 0 <= j < Halt(book) ==> book[j].outcome != Label(yes)
    ensures Side(ApplyBook(m, book), yes) == Side(m, yes)
    decreases |book|
  {
    if |book| > 0 && !Raises(book[0]) {
      var ct := book[0];
      var m' := if ct.outcome == "Yes" then m.(yesPrice := Some(BookPrice(ct).x))
                else if ct.outcome == "No" then m.(noPrice := Some(BookPrice(ct).x))
                else m;
      assert ApplyBook(m, book) == ApplyBook(m', book[1..]);
      forall j | 0 <= j < Halt(book[1..]) ensures book[1..][j].outcome != Label(yes) {
        assert book[1..][j] == book[j + 1];
      }
      ApplyBookUnset(m', book[1..], yes);
    }
  }

  /** The markets `get_market_detail` takes the first of once the slug lookup
      has not answered: the lookup for the id's kind, or the unfiltered retry
      when that came back empty. */
  function Candidates(kind: IdKind, lk: Lookups): (r: seq<RawMarket>)
    ensures r == [] <==> match kind
      case Numeric => lk.byGammaId == [] && lk.retry == []
      case Slug => lk.retry == []
      case ConditionHex => lk.byCondition == [] && lk.retry == []
  {
    var first := match kind
      case Numeric => lk.byGammaId
      case Slug => []
      case ConditionHex => lk.byCondition;
    if first == [] then lk.retry else first
  }

  /** `get_market_detail`. */
  function GetMarketDetail(marketId: string, lk: Lookups): (r: Option<Market>)
    ensures ClassifyId(marketId) == Slug && lk.bySlug.Some? ==> r == Some(Normalize(lk.bySlug.value))
    ensures r.None? <==>
      match ClassifyId(marketId)
      case Numeric => lk.byGammaId == [] && lk.retry == []
      case Slug => lk.bySlug.None? && lk.retry == []
      case ConditionHex => lk.byCondition == [] && lk.retry == []
  {
    var kind := ClassifyId(marketId);
    if kind == Slug && lk.bySlug.Some? then Some(Normalize(lk.bySlug.value))
    else
      var found := Candidates(kind, lk);
      if found == [] then None
      else
        var m := Normalize(found[0]);
        if Present(m.yesTokenId) && lk.book.Some? then Some(ApplyBook(m, lk.book.value))
        else Some(m)
  }

  /** Past the slug lookup, the market returned is the first candidate
      normalised, with at most its two prices changed, and those only by the
      live book of its YES token: the last "Yes" (or "No") token before a
      price that does not convert sets that side, and a side no such token
      names keeps its normalised price. */
  lemma GetMarketDetailFromBook(marketId: string, lk: Lookups, yes: bool)
    requires !(ClassifyId(marketId) == Slug && lk.bySlug.Some?)
    requires GetMarketDetail(marketId, lk).Some?
    ensures var m := Normalize(Candidates(ClassifyId(marketId), lk)[0]);
            var r := GetMarketDetail(marketId, lk).value;
            && r.(yesPrice := m.yesPrice, noPrice := m.noPrice) == m
            && (!Present(m.yesTokenId) || lk.book.None? ==> r == m)
            && (Present(m.yesTokenId) && lk.book.Some? ==>
                  var book := lk.book.value;
                  (forall i :: 0 <= i < Halt(book) && book[i].outcome == Label(yes)
                     && (forall j :: i < j < Halt(book) ==> book[j].outcome != Label(yes))
                     ==> Side(r, yes) == Some(BookPrice(book[i]).x))
                  && ((forall j :: 0 <= j < Halt(book) ==> book[j].outcome != Label(yes))
                     ==> Side(r, yes) == Side(m, yes)))
  {
    var m := Normalize(Candidates(ClassifyId(marketId), lk)[0]);
    if Present(m.yesTokenId) && lk.book.Some? {
      var book := lk.book.value;
      forall i | 0 <= i < Halt(book) && book[i].outcome == Label(yes)
                 && (forall j :: i < j < Halt(book) ==> book[j].outcome != Label(yes))
        ensures Side(ApplyBook(m, book), yes) == Some(BookPrice(book[i]).x)
      {
        ApplyBookLast(m, book, yes, i);
      }
      if forall j :: 0 <= j < Halt(book) ==> book[j].outcome != Label(yes) {
        ApplyBookUnset(m, book, yes);
      }
    }
  }

  // ---------------------------------------------------------------------
  // Question search (_search_by_question)
  // ---------------------------------------------------------------------

  /** Python's `xs[:limit]`, including a negative `limit`. */
  function TakePy<T>(xs: seq<T>, limit: int): (r: seq<T>)
    ensures limit >= 0 ==> |r| == if limit < |xs| then limit else |xs|
    ensures |r| <= |xs| && r == xs[..|r|]
  {
    if limit >= 0 then (if limit < |xs| then xs[..limit] else xs)
    else if |xs| + limit > 0 then xs[..|xs| + limit]
    else []
  }

  predicate QuestionMatches(m: RawMarket, query: string) {
    Contains(Lower(m.question), Lower(query))
  }

  function FilterQuestion(ms: seq<RawMarket>, query: string): (r: seq<RawMarket>)
    ensures |r| <= |ms|
    ensures forall m :: m in r <==> m in ms && QuestionMatches(m, query)
  {
    if |ms| == 0 then []
    else (if QuestionMatches(ms[0], query) then [ms[0]] else []) + FilterQuestion(ms[1..], query)
  }

  /** The filter keeps order: filtering a concatenation filters each part
      in place. */
  lemma {:induction false} FilterQuestionAppend(a: seq<RawMarket>, b: seq<RawMarket>, query: string)
    ensures FilterQuestion(a + b, query) == FilterQuestion(a, query) + FilterQuestion(b, query)
    decreases |a|
  {
    if |a| == 0 {
      assert a + b == b;
    } else {
      assert (a + b)[1..] == a[1..] + b;
      FilterQuestionAppend(a[1..], b, query);
    }
  }

  /** A single market is kept exactly when its question matches. */
  lemma FilterQuestionSingle(m: RawMarket, query: string)
    ensures FilterQuestion([m], query) == if QuestionMatches(m, query) then [m] else []
  {
    assert [m][1..] == [];
  }

  /** Case-insensitive substring search over questions, in the order the
      markets came, cut to `limit`. */
  function SearchByQuestion(all: seq<RawMarket>, query: string, limit: int): (r: seq<RawMarket>)
    ensures limit >= 0 ==> |r| == if limit < |FilterQuestion(all, query)| then limit else |FilterQuestion(all, query)|
    ensures limit < 0 ==> |r| == if |FilterQuestion(all, query)| + limit > 0 then |FilterQuestion(all, query)| + limit else 0
    ensures forall m :: m in r ==> m in all && QuestionMatches(m, query)
    ensures |r| <= |FilterQuestion(all, query)| && r == FilterQuestion(all, query)[..|r|]
  {
    TakePy(FilterQuestion(all, query), limit)
  }
}

=== FILE: positions.dfy ===
/** The position ledger (modules/positions.py): an ordered record store that
    is only ever appended to or has records marked closed, and the unrealised
    P&L report over its open records. The JSON file behind it is modelled as
    the in-memory sequence it is loaded into. */
module Positions {
  import opened Common
  import opened Markets

  /** One ledger record. `closedAt` and `realizedPnl` are None while the keys
      are absent from the stored dict. */
  datatype Position = Position(
    id: string,
    conditionId: string,
    side: string,
    size: real,
    entryPrice: real,
    openedAt: real,
    closed: bool,
    closedAt: Option<real>,
    realizedPnl: Option<real>
  )

  /** What reading positions.json can find. */
  datatype StoreFile = Missing | Corrupt | Stored(records: seq<Position>)

  /** `_load_positions`: a missing or unreadable store is empty. */
  function LoadPositions(f: StoreFile): (r: seq<Position>)
    ensures f.Stored? ==> r == f.records
    ensures !f.Stored? ==> r == []
  {
    if f.Stored? then f.records else []
  }

  /** `f"{condition_id}_{side}_{int(time.time())}"`: the side as passed in. */
  function PositionId(conditionId: string, side: string, now: real): string {
    conditionId + "_" + side + "_" + IntToString(Trunc(now))
  }

  /** Two records of the same market and side opened at non-negative
      times get the same id exactly when they were opened in the same whole
      second. */
  lemma PositionIdSeconds(conditionId: string, side: string, a: real, b: real)
    requires a >= 0.0 && b >= 0.0
    ensures PositionId(conditionId, side, a) == PositionId(conditionId, side, b) <==> Trunc(a) == Trunc(b)
  {
    var pre := conditionId + "_" + side + "_";
    if PositionId(conditionId, side, a) == PositionId(conditionId, side, b) {
      var sa := NatToString(Trunc(a));
      var sb := NatToString(Trunc(b));
      assert pre + sa == pre + sb;
      assert sa == (pre + sa)[|pre|..];
      assert sb == (pre + sb)[|pre|..];
      NatToStringInjective(Trunc(a), Trunc(b));
    }
  }

  /** `record_position`: the new store and the record appended to it. */
  function RecordPosition(store: seq<Position>, conditionId: string, side: string,
                          size: real, entryPrice: real, now: real): (r: (seq<Position>, Position))
    ensures r.0 == store + [r.1]
    ensures !r.1.closed && r.1.closedAt.None? && r.1.realizedPnl.None?
    ensures r.1.side == Upper(side)
    ensures r.1.conditionId == conditionId && r.1.size == size && r.1.entryPrice == entryPrice
    ensures r.1.openedAt == now
    ensures StartsWith(r.1.id, conditionId + "_" + side + "_")
    ensures r.1.id == conditionId + "_" + side + "_" + IntToString(Trunc(now))
  {
    var p := Position(PositionId(conditionId, side, now), conditionId, Upper(side),
                      size, entryPrice, now, false, None, None);
    (store + [p], p)
  }

  /** Index of the first record with the given id. */
  function FirstWithId(store: seq<Position>, id: string): (r: Option<nat>)
    ensures r.Some? ==> r.value < |store| && store[r.value].id == id
                        && forall j :: 0 <= j < r.value ==> store[j].id != id
    ensures r.None? ==> forall j :: 0 <= j < |store| ==> store[j].id != id
  {
    if |store| == 0 then None
    else if store[0].id == id then Some(0)
    else match FirstWithId(store[1..], id)
      case Some(k) => Some(k + 1)
      case None => None
  }

  function MarkClosed(p: Position, now: real): Position {
    p.(closed := true, closedAt := Some(now))
  }

  /** `close_position`: whether a record was found, and the new store. */
  function ClosePosition(store: seq<Position>, id: string, now: real): (r: (bool, seq<Position>))
    ensures r.0 <==> exists j :: 0 <= j < |store| && store[j].id == id
    ensures !r.0 ==> r.1 == store
    ensures r.0 ==> var k := FirstWithId(store, id).value;
      r.1 == store[k := MarkClosed(store[k], now)]
  {
    match FirstWithId(store, id)
    case None => (false, store)
    case Some(k) => (true, store[k := MarkClosed(store[k], now)])
  }

  /** The fields a record keeps for its whole life. */
  predicate SameIdentity(a: Position, b: Position) {
    a.id == b.id && a.conditionId == b.conditionId && a.side == b.side
    && a.size == b.size && a.entryPrice == b.entryPrice && a.openedAt == b.openedAt
  }

  /** `after` extends `before`, record for record, without losing any. */
  predicate Extends(before: seq<Position>, after: seq<Position>) {
    |before| <= |after| && forall i :: 0 <= i < |before| ==> SameIdentity(before[i], after[i])
  }

  /** A ledger operation: append a record, or close one by id. */
  datatype LedgerOp =
    | Record(conditionId: string, side: string, size: real, entryPrice: real, now: real)
    | Close(id: string, now: real)

  function Apply(store: seq<Position>, op: LedgerOp): seq<Position> {
    match op
    case Record(c, s, size, e, now) => RecordPosition(store, c, s, size, e, now).0
    case Close(id, now) => ClosePosition(store, id, now).1
  }

  function ApplyAll(store: seq<Position>, ops: seq<LedgerOp>): seq<Position>
    decreases |ops|
  {
    if |ops| == 0 then store else ApplyAll(Apply(store, ops[0]), ops[1..])
  }

  /** Records are never deleted or rewritten: after any run of appends and
      closes every earlier record is still in place with the same identity,
      and a closed record stays closed. */
  lemma {:induction false} LedgerAppendOnly(store: seq<Position>, ops: seq<LedgerOp>)
    ensures Extends(store, ApplyAll(store, ops))
    ensures forall i :: 0 <= i < |store| && store[i].closed ==> ApplyAll(store, ops)[i].closed
    decreases |ops|
  {
    if |ops| > 0 {
      var next := Apply(store, ops[0]);
      assert Extends(store, next);
      assert forall i :: 0 <= i < |store| && store[i].closed ==> next[i].closed;
      LedgerAppendOnly(next, ops[1..]);
    }
  }

  /** Closing the record just appended marks it closed at `later`, provided
      no earlier record carries the same id; every other record is unchanged. */
  lemma RecordThenClose(store: seq<Position>, c: string, s: string, size: real, e: real,
                        now: real, later: real)
    requires forall j :: 0 <= j < |store| ==> store[j].id != PositionId(c, s, now)
    ensures var (st, p) := RecordPosition(store, c, s, size, e, now);
      var (found, st') := ClosePosition(st, p.id, later);
      found && st' == store + [MarkClosed(p, later)]
  {
    var (st, p) := RecordPosition(store, c, s, size, e, now);
    assert st[|store|] == p;
    assert FirstWithId(st, p.id) == Some(|store|);
  }

  /** Ids carry whole seconds only: two buys of the same market and side in
      one second get the same id, and closing by that id reaches only the
      first of them. */
  lemma SameSecondIdsCollide(c: string, s: string, size: real, e: real)
    ensures var (st1, p1) := RecordPosition([], c, s, size, e, 100.25);
      var (st2, p2) := RecordPosition(st1, c, s, size, e, 100.75);
      p1.id == p2.id && ClosePosition(st2, p2.id, 101.0).1 == [MarkClosed(p1, 101.0), p2]
  {
    var (st1, p1) := RecordPosition([], c, s, size, e, 100.25);
    var (st2, p2) := RecordPosition(st1, c, s, size, e, 100.75);
    assert Trunc(100.25) == 100 == Trunc(100.75);
    assert FirstWithId(st2, p2.id) == Some(0);
  }

  // ---------------------------------------------------------------------
  // P&L report (get_positions_with_pnl)
  // ---------------------------------------------------------------------

  function OpenPositions(store: seq<Position>): (r: seq<Position>)
    ensures |r| <= |store|
    ensures forall p :: p in r <==> p in store && !p.closed
  {
    if |store| == 0 then []
    else (if store[0].closed then [] else [store[0]]) + OpenPositions(store[1..])
  }

  /** One row of the report: the record and, when its market was found, the
      current price, P&L and market value. */
  datatype PnlRow = PnlRow(
    position: Position,
    currentPrice: Option<real>,
    pnlUsd: Option<real>,
    pnlPct: Option<real>,
    currentValue: Option<real>,
    question: Option<string>
  )

  /** The current price of the record's side, with a missing price read as 0. */
  function SidePrice(p: Position, m: Market): real {
    if p.side == "YES" then m.yesPrice.GetOr(0.0) else m.noPrice.GetOr(0.0)
  }

  /** Unrealised P&L in USD: the per-token change times the size. */
  function PnlUsd(current: real, entry: real, size: real): real {
    (current - entry) * size
  }

  function PnlPct(current: real, entry: real): real {
    if entry > 0.0 then (current - entry) / entry * 100.0 else 0.0
  }

  /** The three rounded report figures for a position of `size` tokens
      bought at `entry` and now priced at `current`: P&L in USD (4 places),
      P&L in percent (2 places) and market value (4 places). */
  datatype Figures = Figures(pnlUsd: real, pnlPct: real, currentValue: real)

  function PnlFigures(current: real, entry: real, size: real): (r: Figures)
    ensures Near(r.pnlUsd, PnlUsd(current, entry, size), 4)
    ensures Near(r.pnlPct, PnlPct(current, entry), 2)
    ensures Near(r.currentValue, current * size, 4)
    ensures entry <= 0.0 ==> r.pnlPct == 0.0
  {
    Figures(Round(PnlUsd(current, entry, size), 4), Round(PnlPct(current, entry), 2),
            Round(current * size, 4))
  }

  /** Lines 68-94 for one open record; `market` is what the market lookup
      returned. */
  function PnlOf(p: Position, market: Option<Market>): (r: PnlRow)
    ensures r.position == p
    ensures market.None? ==> r.currentPrice.None? && r.pnlUsd.None? && r.pnlPct.None?
    ensures market.Some? ==>
      var cur := SidePrice(p, market.value);
      var f := PnlFigures(cur, p.entryPrice, p.size);
      && r.currentPrice == Some(cur)
      && r.pnlUsd == Some(f.pnlUsd) && r.pnlPct == Some(f.pnlPct)
      && r.currentValue == Some(f.currentValue)
      && r.question == Some(market.value.question)
  {
    match market
    case None => PnlRow(p, None, None, None, None, None)
    case Some(m) =>
      var cur := SidePrice(p, m);
      var f := PnlFigures(cur, p.entryPrice, p.size);
      PnlRow(p, Some(cur), Some(f.pnlUsd), Some(f.pnlPct), Some(f.currentValue), Some(m.question))
  }

  /** `get_positions_with_pnl` with the market lookup as an input. */
  function PositionsWithPnl(store: seq<Position>, lookup: string -> Option<Market>): (r: seq<PnlRow>)
    ensures |r| == |OpenPositions(store)|
    ensures forall i :: 0 <= i < |r| ==> r[i] == PnlOf(OpenPositions(store)[i], lookup(OpenPositions(store)[i].conditionId))
  {
    var open := OpenPositions(store);
    seq(|open|, i requires 0 <= i < |open| => PnlOf(open[i], lookup(open[i].conditionId)))
  }

  /** Only open records are reported, each exactly as often as it is stored. */
  lemma PnlReportsOpenOnly(store: seq<Position>, lookup: string -> Option<Market>, row: PnlRow)
    requires row in PositionsWithPnl(store, lookup)
    ensures row.position in store && !row.position.closed
  {
    var r := PositionsWithPnl(store, lookup);
    var i :| 0 <= i < |r| && r[i] == row;
    assert OpenPositions(store)[i] in OpenPositions(store);
  }
}

=== FILE: risk.dfy ===
/** The pre-trade risk gate (modules/risk.py): ordered limit checks over the
    position ledger, a kill switch that the loss checks trip and only an
    explicit reset clears, and the exposure summary. The module-level globals
    of the source (`_kill_switch_active`, `_initial_portfolio_value`) become
    an explicit `RiskState` threaded through the calls; the start of the UTC
    day is a parameter. */
module Risk {
  import opened Common
  import opened Positions
  import Sorting

  /** The limits of risk.py lines 15-19. */
  datatype Limits = Limits(
    maxPositionSize: real,    // MAX_POSITION_SIZE (config.py)
    maxDrawdownPct: real,     // MAX_DRAWDOWN_PCT
    maxDailyLoss: real,       // MAX_DAILY_LOSS
    maxMarketExposure: real,  // MAX_MARKET_EXPOSURE, default 3 * MAX_POSITION_SIZE
    maxTotalExposure: real,   // MAX_TOTAL_EXPOSURE
    maxConcurrent: int        // MAX_CONCURRENT_POSITIONS
  )

  const DefaultLimits := Limits(50.0, 20.0, 50.0, 3.0 * 50.0, 500.0, 10)

  /** The two module globals: the kill-switch bit and the portfolio value
      recorded at start-up (None until it is set). */
  datatype RiskState = RiskState(killSwitch: bool, initialValue: Option<real>)

  const Initial := RiskState(false, None)

  function SetInitialValue(st: RiskState, v: real): (r: RiskState)
    ensures r.initialValue == Some(v) && r.killSwitch == st.killSwitch
  {
    st.(initialValue := Some(v))
  }

  function Activate(st: RiskState): (r: RiskState)
    ensures r.killSwitch && r.initialValue == st.initialValue
  {
    st.(killSwitch := true)
  }

  function Deactivate(st: RiskState): (r: RiskState)
    ensures !r.killSwitch && r.initialValue == st.initialValue
  {
    st.(killSwitch := false)
  }

  // ---------------------------------------------------------------------
  // Ledger sums. Each is a left-to-right sum, written as recursion on the
  // prefix so that extending the ledger by one record adds one term.
  // ---------------------------------------------------------------------

  /** The USD cost of a record: size times entry price. */
  function Cost(p: Position): real { p.size * p.entryPrice }

  function TotalExposure(ps: seq<Position>): real
    decreases |ps|
  {
    if |ps| == 0 then 0.0 else TotalExposure(ps[..|ps| - 1]) + Cost(ps[|ps| - 1])
  }

  function MarketExposure(ps: seq<Position>, cid: string): real
    decreases |ps|
  {
    if |ps| == 0 then 0.0
    else MarketExposure(ps[..|ps| - 1], cid)
         + (if ps[|ps| - 1].conditionId == cid then Cost(ps[|ps| - 1]) else 0.0)
  }

  /** The loss a record contributes to today's total: the size of a negative
      realised P&L on a record closed at or after the start of the day. A
      missing `closed_at` or `realized_pnl` reads as 0. */
  function LossOf(p: Position, dayStart: real): (r: real)
    ensures r >= 0.0
    ensures r > 0.0 <==> p.closed && p.closedAt.GetOr(0.0) >= dayStart && p.realizedPnl.GetOr(0.0) < 0.0
  {
    if !p.closed then 0.0
    else if p.closedAt.GetOr(0.0) < dayStart then 0.0
    else if p.realizedPnl.GetOr(0.0) < 0.0 then Abs(p.realizedPnl.GetOr(0.0))
    else 0.0
  }

  /** `_compute_daily_loss`. */
  function DailyLoss(ps: seq<Position>, dayStart: real): (r: real)
    ensures r >= 0.0
    decreases |ps|
  {
    if |ps| == 0 then 0.0 else DailyLoss(ps[..|ps| - 1], dayStart) + LossOf(ps[|ps| - 1], dayStart)
  }

  /** Today's loss is zero exactly when no record has a loss counted today. */
  lemma {:induction false} DailyLossZero(ps: seq<Position>, dayStart: real)
    ensures DailyLoss(ps, dayStart) == 0.0 <==> forall i :: 0 <= i < |ps| ==> LossOf(ps[i], dayStart) == 0.0
    decreases |ps|
  {
    if |ps| > 0 {
      var init := ps[..|ps| - 1];
      DailyLossZero(init, dayStart);
      assert forall i :: 0 <= i < |init| ==> init[i] == ps[i];
    }
  }

  /** The ledger itself never writes `realized_pnl`, so no run of record and
      close operations starting from an empty store produces a daily loss:
      the two loss checks can only fire on a store edited by hand. */
  lemma LedgerHasNoDailyLoss(ops: seq<LedgerOp>, dayStart: real)
    ensures DailyLoss(ApplyAll([], ops), dayStart) == 0.0
  {
    NoRealizedPnlKept([], ops);
    DailyLossZero(ApplyAll([], ops), dayStart);
  }

  predicate NoRealizedPnl(ps: seq<Position>) {
    forall i :: 0 <= i < |ps| ==> ps[i].realizedPnl.None?
  }

  lemma {:induction false} NoRealizedPnlKept(store: seq<Position>, ops: seq<LedgerOp>)
    requires NoRealizedPnl(store)
    ensures NoRealizedPnl(ApplyAll(store, ops))
    decreases |ops|
  {
    if |ops| > 0 {
      var next := Apply(store, ops[0]);
      assert NoRealizedPnl(next);
      NoRealizedPnlKept(next, ops[1..]);
    }
  }

  // ---------------------------------------------------------------------
  // check_risk_limits
  // ---------------------------------------------------------------------

  datatype Violation =
    | KillSwitchActive
    | SizeOverLimit(size: real)
    | TooManyPositions(limit: int)
    | MarketExposureOver(exposure: real)
    | TotalExposureOver(exposure: real)
    | DailyLossOver(loss: real)
    | DrawdownOver(pct: real)

  /** The position of each check in the fixed order the gate runs them. */
  function Rank(v: Violation): nat {
    match v
    case KillSwitchActive => 0
    case SizeOverLimit(_) => 1
    case TooManyPositions(_) => 2
    case MarketExposureOver(_) => 3
    case TotalExposureOver(_) => 4
    case DailyLossOver(_) => 5
    case DrawdownOver(_) => 6
  }

  /** Extra figures of a full check (absent after the kill-switch return). */
  datatype Details = Details(openPositions: nat, totalExposure: real, dailyLoss: real)

  datatype Check = Check(allowed: bool, violations: seq<Violation>, details: Option<Details>)

  /** `(initial - (initial - loss)) / initial * 100`, as written. */
  function Drawdown(initial: real, loss: real): real
    requires initial > 0.0
  {
    (initial - (initial - loss)) / initial * 100.0
  }

  /** The drawdown check runs only with a recorded, positive initial value. */
  predicate DrawdownHit(initial: Option<real>, loss: real, maxPct: real) {
    initial.Some? && initial.value > 0.0 && Drawdown(initial.value, loss) >= maxPct
  }

  /** The drawdown is the day's loss as a percentage of the initial value, so
      the check fires exactly when the loss reaches that share of it. */
  lemma DrawdownAsLoss(initial: real, loss: real, maxPct: real)
    requires initial > 0.0
    ensures Drawdown(initial, loss) == loss / initial * 100.0
    ensures Drawdown(initial, loss) >= maxPct <==> loss * 100.0 >= maxPct * initial
  {
    var d := loss / initial * 100.0;
    assert d * initial == loss * 100.0;
    if d >= maxPct {
      assert d * initial >= maxPct * initial;
    } else {
      assert d * initial < maxPct * initial;
    }
  }

  /** The figures a check measures on the ledger. */
  datatype Measures = Measures(
    openCount: nat,            // open positions
    marketExposure: real,      // open exposure in the traded market
    totalExposure: real,       // open exposure overall
    dailyLoss: real,           // losses realised today
    drawdownPct: Option<real>  // present only with a positive initial value
  )

  function Measure(store: seq<Position>, cid: string, dayStart: real, initial: Option<real>): (m: Measures)
    ensures m.drawdownPct.Some? <==> initial.Some? && initial.value > 0.0
    ensures m.dailyLoss == DailyLoss(store, dayStart)
    ensures m.drawdownPct.Some? ==> m.drawdownPct.value == DailyLoss(store, dayStart) / initial.value * 100.0
  {
    var open := OpenPositions(store);
    var loss := DailyLoss(store, dayStart);
    var pct := if initial.Some? && initial.value > 0.0
               then DrawdownAsLoss(initial.value, loss, 0.0); Some(Drawdown(initial.value, loss))
               else None;
    Measures(|open|, MarketExposure(open, cid), TotalExposure(open), loss, pct)
  }

  /** Whether check `k` of the gate fires (1 size, 2 open count, 3 market
      exposure, 4 total exposure, 5 daily loss, 6 drawdown). The market check
      runs only for a non-empty condition id, the drawdown check only when a
      drawdown was measured. */
  predicate Fires(k: nat, lim: Limits, size: real, cid: string, m: Measures) {
    match k
    case 1 => size > lim.maxPositionSize
    case 2 => m.openCount >= lim.maxConcurrent
    case 3 => cid != "" && m.marketExposure + size > lim.maxMarketExposure
    case 4 => m.totalExposure + size > lim.maxTotalExposure
    case 5 => m.dailyLoss >= lim.maxDailyLoss
    case 6 => m.drawdownPct.Some? && m.drawdownPct.value >= lim.maxDrawdownPct
    case _ => false
  }

  /** What check `k` reports when it fires. */
  function Report(k: nat, lim: Limits, size: real, cid: string, m: Measures): (v: Violation)
    requires 1 <= k <= 6
    ensures Rank(v) == k
  {
    match k
    case 1 => SizeOverLimit(size)
    case 2 => TooManyPositions(lim.maxConcurrent)
    case 3 => MarketExposureOver(m.marketExposure + size)
    case 4 => TotalExposureOver(m.totalExposure + size)
    case 5 => DailyLossOver(m.dailyLoss)
    case 6 => DrawdownOver(m.drawdownPct.GetOr(0.0))
  }

  /** Ranks strictly increase along `vs`: the order the checks run, each at
      most once. */
  predicate Ordered(vs: seq<Violation>) {
    forall i, j :: 0 <= i < j < |vs| ==> Rank(vs[i]) < Rank(vs[j])
  }

  /** The reports of checks `k` to 6 that fire, in check order. */
  function FiredFrom(k: nat, lim: Limits, size: real, cid: string, m: Measures): (vs: seq<Violation>)
    requires 1 <= k <= 7
    ensures forall i :: 0 <= i < |vs| ==> k <= Rank(vs[i]) <= 6
    ensures forall i :: 0 <= i < |vs| ==> Fires(Rank(vs[i]), lim, size, cid, m)
    decreases 7 - k
  {
    if k == 7 then []
    else
      var rest := FiredFrom(k + 1, lim, size, cid, m);
      if Fires(k, lim, size, cid, m) then [Report(k, lim, size, cid, m)] + rest else rest
  }

  lemma ConsOrdered(v: Violation, rest: seq<Violation>)
    requires Ordered(rest)
    requires forall i :: 0 <= i < |rest| ==> Rank(v) < Rank(rest[i])
    ensures Ordered([v] + rest)
  {
    var vs := [v] + rest;
    forall i, j | 0 <= i < j < |vs| ensures Rank(vs[i]) < Rank(vs[j]) {
      assert vs[j] == rest[j - 1];
      if i > 0 {
        assert vs[i] == rest[i - 1];
      }
    }
  }

  /** The reports come in check order, each check at most once. */
  lemma {:induction false} FiredFromOrdered(k: nat, lim: Limits, size: real, cid: string, m: Measures)
    requires 1 <= k <= 7
    ensures Ordered(FiredFrom(k, lim, size, cid, m))
    decreases 7 - k
  {
    if k < 7 {
      FiredFromOrdered(k + 1, lim, size, cid, m);
      var rest := FiredFrom(k + 1, lim, size, cid, m);
      if Fires(k, lim, size, cid, m) {
        ConsOrdered(Report(k, lim, size, cid, m), rest);
      }
    }
  }

  /** A check from `k` on that fires is reported. */
  lemma {:induction false} FiredFromHas(k: nat, j: nat, lim: Limits, size: real, cid: string, m: Measures)
    requires 1 <= k <= j <= 6 && Fires(j, lim, size, cid, m)
    ensures Report(j, lim, size, cid, m) in FiredFrom(k, lim, size, cid, m)
    decreases 7 - k
  {
    if k < j {
      FiredFromHas(k + 1, j, lim, size, cid, m);
    }
  }

  /** A reported violation comes from a check that fired. */
  lemma FiredMembers(vs: seq<Violation>, lim: Limits, size: real, cid: string, m: Measures)
    requires forall i :: 0 <= i < |vs| ==> Fires(Rank(vs[i]), lim, size, cid, m)
    ensures forall x :: x in vs ==> Fires(Rank(x), lim, size, cid, m)
  {
    forall x | x in vs ensures Fires(Rank(x), lim, size, cid, m) {
      var i :| 0 <= i < |vs| && vs[i] == x;
    }
  }

  /** The violations a check finds when the kill switch is off: exactly the
      reports of the checks that fire, each once, in the order the checks
      run. */
  function Violations(lim: Limits, size: real, cid: string, m: Measures): (vs: seq<Violation>)
    ensures Ordered(vs)
    ensures forall i :: 0 <= i < |vs| ==> 1 <= Rank(vs[i]) <= 6
    ensures forall i :: 0 <= i < |vs| ==> Fires(Rank(vs[i]), lim, size, cid, m)
    ensures forall j :: 1 <= j <= 6 ==>
      (Report(j, lim, size, cid, m) in vs <==> Fires(j, lim, size, cid, m))
  {
    var vs := FiredFrom(1, lim, size, cid, m);
    FiredFromOrdered(1, lim, size, cid, m);
    forall j | 1 <= j <= 6 && Fires(j, lim, size, cid, m) ensures Report(j, lim, size, cid, m) in vs {
      FiredFromHas(1, j, lim, size, cid, m);
    }
    FiredMembers(vs, lim, size, cid, m);
    vs
  }

  /** Whether the check trips the kill switch: either loss check fired. */
  predicate Trips(vs: seq<Violation>) {
    exists i :: 0 <= i < |vs| && Rank(vs[i]) >= 5
  }

  /** `check_risk_limits(proposed_size, condition_id)` against the ledger
      `store`: the verdict and the risk state afterwards. */
  function CheckRiskLimits(st: RiskState, lim: Limits, store: seq<Position>, size: real,
                           cid: string, dayStart: real): (r: (Check, RiskState))
    ensures st.killSwitch ==> r.0 == Check(false, [KillSwitchActive], None) && r.1 == st
    ensures !st.killSwitch ==>
      r.0.violations == Violations(lim, size, cid, Measure(store, cid, dayStart, st.initialValue))
    ensures r.0.allowed <==> |r.0.violations| == 0
    ensures r.1.initialValue == st.initialValue
    ensures r.1.killSwitch <==> (st.killSwitch || Trips(r.0.violations))
    ensures !st.killSwitch ==> (r.0.details.Some?
      && r.0.details.value.openPositions == |OpenPositions(store)|
      && Near(r.0.details.value.totalExposure, TotalExposure(OpenPositions(store)), 2)
      && Near(r.0.details.value.dailyLoss, DailyLoss(store, dayStart), 2))
  {
    if st.killSwitch then (Check(false, [KillSwitchActive], None), st)
    else
      var m := Measure(store, cid, dayStart, st.initialValue);
      var vs := Violations(lim, size, cid, m);
      var trip := Fires(5, lim, size, cid, m) || Fires(6, lim, size, cid, m);
      assert trip <==> Trips(vs) by {
        if trip {
          var j := if Fires(5, lim, size, cid, m) then 5 else 6;
          assert Report(j, lim, size, cid, m) in vs;
          var i :| 0 <= i < |vs| && vs[i] == Report(j, lim, size, cid, m);
          assert Rank(vs[i]) >= 5;
        }
      }
      (Check(|vs| == 0, vs, Some(Details(m.openCount, Round(m.totalExposure, 2), Round(m.dailyLoss, 2)))),
       if trip then Activate(st) else st)
  }

  /** A call that allows the trade changes no state, so repeating it gives
      the same verdict. */
  lemma AllowedCheckRepeats(st: RiskState, lim: Limits, store: seq<Position>, size: real,
                            cid: string, dayStart: real)
    requires CheckRiskLimits(st, lim, store, size, cid, dayStart).0.allowed
    ensures var (c1, s1) := CheckRiskLimits(st, lim, store, size, cid, dayStart);
      s1 == st && CheckRiskLimits(s1, lim, store, size, cid, dayStart) == (c1, s1)
  {
  }

  /** A call whose loss check fires halts every later call, the identical
      one included: the gate is not idempotent. */
  lemma LossTripHaltsNextCall(st: RiskState, lim: Limits, store: seq<Position>, size: real,
                              cid: string, dayStart: real)
    requires !st.killSwitch && DailyLoss(store, dayStart) >= lim.maxDailyLoss
    ensures var (c1, s1) := CheckRiskLimits(st, lim, store, size, cid, dayStart);
      DailyLossOver(DailyLoss(store, dayStart)) in c1.violations
      && CheckRiskLimits(s1, lim, store, size, cid, dayStart).0 == Check(false, [KillSwitchActive], None)
  {
  }

  /** A concrete instance: one record closed today at a $60 loss against the
      default $50 cap. */
  lemma LossTripExample()
    ensures var p := Position("c_YES_1", "c", "YES", 10.0, 0.5, 1.0, true, Some(5.0), Some(-60.0));
      var (c1, s1) := CheckRiskLimits(Initial, DefaultLimits, [p], 1.0, "", 0.0);
      c1.violations == [DailyLossOver(60.0)]
      && CheckRiskLimits(s1, DefaultLimits, [p], 1.0, "", 0.0).0.violations == [KillSwitchActive]
  {
    var p := Position("c_YES_1", "c", "YES", 10.0, 0.5, 1.0, true, Some(5.0), Some(-60.0));
    assert [p][..0] == [];
    assert DailyLoss([p], 0.0) == 60.0;
    assert OpenPositions([p]) == [];
    var m := Measure([p], "", 0.0, None);
    assert m == Measures(0, 0.0, 0.0, 60.0, None);
    var vs := Violations(DefaultLimits, 1.0, "", m);
    assert Report(5, DefaultLimits, 1.0, "", m) in vs;
    forall i | 0 <= i < |vs| ensures vs[i] == DailyLossOver(60.0) {
      assert Fires(Rank(vs[i]), DefaultLimits, 1.0, "", m);
    }
  }

  // ---------------------------------------------------------------------
  // The kill switch across a run of calls
  // ---------------------------------------------------------------------

  datatype RiskEvent =
    | Checked(store: seq<Position>, size: real, cid: string, dayStart: real)
    | Activated
    | Deactivated
    | InitialValueSet(v: real)

  function Step(st: RiskState, lim: Limits, e: RiskEvent): RiskState {
    match e
    case Checked(store, size, cid, dayStart) => CheckRiskLimits(st, lim, store, size, cid, dayStart).1
    case Activated => Activate(st)
    case Deactivated => Deactivate(st)
    case InitialValueSet(v) => SetInitialValue(st, v)
  }

  function Run(st: RiskState, lim: Limits, es: seq<RiskEvent>): RiskState
    decreases |es|
  {
    if |es| == 0 then st else Run(Step(st, lim, es[0]), lim, es[1..])
  }

  /** Once set, the kill switch stays set until an explicit deactivation: no
      check, activation or initial-value update clears it. */
  lemma {:induction false} KillSwitchSticky(st: RiskState, lim: Limits, es: seq<RiskEvent>)
    requires st.killSwitch
    requires forall i :: 0 <= i < |es| ==> !es[i].Deactivated?
    ensures Run(st, lim, es).killSwitch
    decreases |es|
  {
    if |es| > 0 {
      KillSwitchSticky(Step(st, lim, es[0]), lim, es[1..]);
    }
  }

  /** While the switch is set, every check is refused with the single
      kill-switch violation. */
  lemma {:induction false} HaltedChecksRefused(st: RiskState, lim: Limits, es: seq<RiskEvent>,
                                              store: seq<Position>, size: real, cid: string, dayStart: real)
    requires st.killSwitch
    requires forall i :: 0 <= i < |es| ==> !es[i].Deactivated?
    ensures CheckRiskLimits(Run(st, lim, es), lim, store, size, cid, dayStart).0.violations == [KillSwitchActive]
  {
    KillSwitchSticky(st, lim, es);
  }

  // ---------------------------------------------------------------------
  // get_risk_summary
  // ---------------------------------------------------------------------

  /** Index of `cid` among the keys of an exposure table. */
  function KeyIndex(table: seq<(string, real)>, cid: string): (r: Option<nat>)
    ensures r.Some? ==> r.value < |table| && table[r.value].0 == cid
    ensures r.None? ==> forall i :: 0 <= i < |table| ==> table[i].0 != cid
  {
    if |table| == 0 then None
    else if table[0].0 == cid then Some(0)
    else match KeyIndex(table[1..], cid)
      case Some(k) => Some(k + 1)
      case None => None
  }

  /** `per_market[cid] = per_market.get(cid, 0) + cost`: the entry is updated
      in place, or appended when the market is new. */
  function Bump(table: seq<(string, real)>, p: Position): seq<(string, real)> {
    match KeyIndex(table, p.conditionId)
    case Some(k) => table[k := (p.conditionId, table[k].1 + Cost(p))]
    case None => table + [(p.conditionId, Cost(p))]
  }

  /** The per-market exposure table, keys in order of first appearance. */
  function PerMarket(ps: seq<Position>): seq<(string, real)>
    decreases |ps|
  {
    if |ps| == 0 then [] else Bump(PerMarket(ps[..|ps| - 1]), ps[|ps| - 1])
  }

  predicate DistinctKeys(table: seq<(string, real)>) {
    forall i, j :: 0 <= i < j < |table| ==> table[i].0 != table[j].0
  }

  function SumValues(table: seq<(string, real)>): real
    decreases |table|
  {
    if |table| == 0 then 0.0 else SumValues(table[..|table| - 1]) + table[|table| - 1].1
  }

  lemma {:induction false} SumValuesUpdate(table: seq<(string, real)>, k: nat, e: (string, real))
    requires k < |table|
    ensures SumValues(table[k := e]) == SumValues(table) - table[k].1 + e.1
    decreases |table|
  {
    var n := |table| - 1;
    var t := table[k := e];
    assert t[..n] == if k == n then table[..n] else table[..n][k := e];
    if k < n {
      SumValuesUpdate(table[..n], k, e);
    }
  }

  /** Bumping keeps the keys already present, in place, and adds the
      position's market at the end when it is new. */
  lemma BumpShape(t: seq<(string, real)>, p: Position)
    requires DistinctKeys(t)
    ensures var t' := Bump(t, p);
      && |t| <= |t'| <= |t| + 1
      && (forall i :: 0 <= i < |t| ==> t'[i].0 == t[i].0)
      && (|t'| > |t| ==> t'[|t|].0 == p.conditionId)
      && KeyIndex(t', p.conditionId).Some?
      && DistinctKeys(t')
  {
    var t' := Bump(t, p);
    match KeyIndex(t, p.conditionId)
    case Some(k) =>
      assert t'[k].0 == p.conditionId;
    case None =>
      assert t'[|t|].0 == p.conditionId;
  }

  lemma {:induction false} PerMarketDistinct(ps: seq<Position>)
    ensures DistinctKeys(PerMarket(ps))
    decreases |ps|
  {
    if |ps| > 0 {
      PerMarketDistinct(ps[..|ps| - 1]);
      BumpShape(PerMarket(ps[..|ps| - 1]), ps[|ps| - 1]);
    }
  }

  lemma {:induction false} PerMarketCovers(ps: seq<Position>, j: nat)
    requires j < |ps|
    ensures KeyIndex(PerMarket(ps), ps[j].conditionId).Some?
    decreases |ps|
  {
    var init := ps[..|ps| - 1];
    var t := PerMarket(init);
    PerMarketDistinct(init);
    BumpShape(t, ps[|ps| - 1]);
    if j < |init| {
      PerMarketCovers(init, j);
      assert init[j] == ps[j];
      var k := KeyIndex(t, init[j].conditionId).value;
      assert PerMarket(ps)[k].0 == ps[j].conditionId;
    }
  }

  lemma {:induction false} PerMarketFrom(ps: seq<Position>, i: nat)
    requires i < |PerMarket(ps)|
    ensures exists j :: 0 <= j < |ps| && ps[j].conditionId == PerMarket(ps)[i].0
    decreases |ps|
  {
    var init := ps[..|ps| - 1];
    var t := PerMarket(init);
    PerMarketDistinct(init);
    BumpShape(t, ps[|ps| - 1]);
    if i < |t| {
      PerMarketFrom(init, i);
      var j :| 0 <= j < |init| && init[j].conditionId == t[i].0;
      assert init[j] == ps[j];
    } else {
      assert ps[|ps| - 1].conditionId == PerMarket(ps)[i].0;
    }
  }

  /** The table holds exactly one entry per market of the ledger. */
  lemma PerMarketKeys(ps: seq<Position>)
    ensures DistinctKeys(PerMarket(ps))
    ensures forall i :: 0 <= i < |PerMarket(ps)| ==>
      exists j :: 0 <= j < |ps| && ps[j].conditionId == PerMarket(ps)[i].0
    ensures forall j :: 0 <= j < |ps| ==> KeyIndex(PerMarket(ps), ps[j].conditionId).Some?
  {
    PerMarketDistinct(ps);
    forall i | 0 <= i < |PerMarket(ps)|
      ensures exists j :: 0 <= j < |ps| && ps[j].conditionId == PerMarket(ps)[i].0 {
      PerMarketFrom(ps, i);
    }
    forall j | 0 <= j < |ps| ensures KeyIndex(PerMarket(ps), ps[j].conditionId).Some? {
      PerMarketCovers(ps, j);
    }
  }

  /** Each entry holds its market's exposure. */
  lemma {:induction false} PerMarketValues(ps: seq<Position>)
    ensures forall i :: 0 <= i < |PerMarket(ps)| ==>
      PerMarket(ps)[i].1 == MarketExposure(ps, PerMarket(ps)[i].0)
    decreases |ps|
  {
    if |ps| > 0 {
      var init := ps[..|ps| - 1];
      var p := ps[|ps| - 1];
      var t := PerMarket(init);
      var t' := PerMarket(ps);
      PerMarketValues(init);
      PerMarketKeys(init);
      forall i | 0 <= i < |t'| ensures t'[i].1 == MarketExposure(ps, t'[i].0) {
        if i >= |t| {
          assert KeyIndex(t, p.conditionId).None?;
          assert forall j :: 0 <= j < |init| ==> init[j].conditionId != p.conditionId by {
            forall j | 0 <= j < |init| ensures init[j].conditionId != p.conditionId {
              assert ps[j] == init[j];
              assert KeyIndex(t, init[j].conditionId).Some?;
            }
          }
          NoExposureWithout(init, p.conditionId);
        }
      }
    }
  }

  /** The entries add up to the total exposure. */
  lemma {:induction false} PerMarketSum(ps: seq<Position>)
    ensures SumValues(PerMarket(ps)) == TotalExposure(ps)
    decreases |ps|
  {
    if |ps| > 0 {
      var init := ps[..|ps| - 1];
      var p := ps[|ps| - 1];
      var t := PerMarket(init);
      var c := Cost(p);
      PerMarketSum(init);
      assert TotalExposure(ps) == TotalExposure(init) + c;
      match KeyIndex(t, p.conditionId)
      case Some(k) =>
        SumValuesUpdate(t, k, (p.conditionId, t[k].1 + c));
        assert PerMarket(ps) == t[k := (p.conditionId, t[k].1 + c)];
      case None =>
        var t' := t + [(p.conditionId, c)];
        assert PerMarket(ps) == t';
        assert t'[..|t'| - 1] == t;
        assert SumValues(t') == SumValues(t) + c;
    }
  }

  lemma {:induction false} NoExposureWithout(ps: seq<Position>, cid: string)
    requires forall j :: 0 <= j < |ps| ==> ps[j].conditionId != cid
    ensures MarketExposure(ps, cid) == 0.0
    decreases |ps|
  {
    if |ps| > 0 {
      NoExposureWithout(ps[..|ps| - 1], cid);
    }
  }

  function Exposure(e: (string, real)): real { e.1 }

  datatype Summary = Summary(
    killSwitch: bool,
    openPositions: nat,
    totalExposure: real,
    maxTotalExposure: real,
    dailyLoss: real,
    maxDailyLoss: real,
    maxDrawdownPct: real,
    topMarkets: seq<(string, real)>
  )

  /** `get_risk_summary`. */
  function RiskSummary(st: RiskState, lim: Limits, store: seq<Position>, dayStart: real): (r: Summary)
    ensures r.killSwitch == st.killSwitch
    ensures r.openPositions == |OpenPositions(store)|
    ensures Near(r.totalExposure, TotalExposure(OpenPositions(store)), 2)
    ensures Near(r.dailyLoss, DailyLoss(store, dayStart), 2)
    ensures |r.topMarkets| == if |PerMarket(OpenPositions(store))| < 5 then |PerMarket(OpenPositions(store))| else 5
    ensures Sorting.SortedDesc(r.topMarkets, Exposure)
    ensures forall e :: e in r.topMarkets ==> e in PerMarket(OpenPositions(store))
    ensures multiset(r.topMarkets) <= multiset(PerMarket(OpenPositions(store)))
    ensures forall e, t :: e in PerMarket(OpenPositions(store)) && e !in r.topMarkets && t in r.topMarkets
              ==> Exposure(t) >= Exposure(e)
  {
    var open := OpenPositions(store);
    var ranked := Sorting.SortDesc(PerMarket(open), Exposure);
    var n := if |ranked| < 5 then |ranked| else 5;
    var top := ranked[..n];
    assert forall e :: e in top ==> e in ranked;
    forall e | e in top ensures e in PerMarket(open) {
      Sorting.SortDescMembers(PerMarket(open), Exposure, e);
    }
    assert Sorting.SortedDesc(top, Exposure);
    Sorting.TopPrefix(ranked, Exposure, n);
    forall e | e in PerMarket(open) ensures e in ranked {
      Sorting.SortDescMembers(PerMarket(open), Exposure, e);
    }
    Summary(st.killSwitch, |open|, Round(TotalExposure(open), 2), lim.maxTotalExposure,
            Round(DailyLoss(store, dayStart), 2), lim.maxDailyLoss, lim.maxDrawdownPct, top)
  }

  /** Every market the summary reports is a market with an open position, and
      the exposure it reports is that market's exposure summed straight over
      the open positions. */
  lemma RiskSummaryTopMarkets(st: RiskState, lim: Limits, store: seq<Position>, dayStart: real)
    ensures var top := RiskSummary(st, lim, store, dayStart).topMarkets;
            forall i :: 0 <= i < |top| ==>
              top[i].1 == MarketExposure(OpenPositions(store), top[i].0)
              && exists j :: 0 <= j < |OpenPositions(store)| && OpenPositions(store)[j].conditionId == top[i].0
  {
    var open := OpenPositions(store);
    var top := RiskSummary(st, lim, store, dayStart).topMarkets;
    forall i | 0 <= i < |top|
      ensures top[i].1 == MarketExposure(open, top[i].0)
      ensures exists j :: 0 <= j < |open| && open[j].conditionId == top[i].0
    {
      TopMarketFromTable(open, top[i]);
    }
  }

  /** An entry of the per-market table names a market with a position and
      carries that market's exposure. */
  lemma TopMarketFromTable(ps: seq<Position>, e: (string, real))
    requires e in PerMarket(ps)
    ensures e.1 == MarketExposure(ps, e.0)
    ensures exists j :: 0 <= j < |ps| && ps[j].conditionId == e.0
  {
    var t := PerMarket(ps);
    var k :| 0 <= k < |t| && t[k] == e;
    PerMarketValues(ps);
    PerMarketFrom(ps, k);
  }
}

=== FILE: scanner.dfy ===
/** Pair-cost arbitrage (modules/scanner.py). A binary market pays $1 to the
    winning side, so buying one YES and one NO token for less than $1 after
    fees locks in a profit whatever the outcome. */
module Scanner {
  import opened Common
  import opened Config
  import opened Markets
  import Sorting

  /** One emitted pair-cost opportunity (the dict of lines 56-67). */
  datatype PairOpp = PairOpp(
    conditionId: string,
    question: string,
    yesPrice: real,
    noPrice: real,
    totalCost: real,     // net cost including both legs' fees
    netProfit: real,
    netProfitPct: real,
    liquidity: real,
    maxSize: real
  )

  /** `net_profit / net_cost if net_cost > 0 else 0`. */
  function ProfitPct(netCost: real): real {
    if netCost > 0.0 then (1.0 - netCost) / netCost else 0.0
  }

  /** Whether a market passes the price and liquidity filters of lines 42-46. */
  predicate Eligible(m: Market, cfg: Settings) {
    m.yesPrice.Some? && m.noPrice.Some? && m.liquidity >= cfg.minLiquidity
  }

  function NetCost(m: Market, cfg: Settings): real
    requires m.yesPrice.Some? && m.noPrice.Some?
  {
    m.yesPrice.value + m.noPrice.value + cfg.feeRate * 2.0
  }

  /** The body of the loop of lines 38-70 for one market. */
  function Evaluate(m: Market, cfg: Settings): (r: Option<PairOpp>)
    ensures r.Some? <==> Eligible(m, cfg) && ProfitPct(NetCost(m, cfg)) >= cfg.minProfit
    ensures r.Some? ==>
      && r.value.conditionId == m.conditionId
      && r.value.yesPrice == m.yesPrice.value && r.value.noPrice == m.noPrice.value
      && r.value.totalCost == m.yesPrice.value + m.noPrice.value + 2.0 * cfg.feeRate
      && r.value.netProfit == 1.0 - r.value.totalCost
      && r.value.netProfitPct >= cfg.minProfit
      && r.value.netProfitPct == ProfitPct(r.value.totalCost)
      && (r.value.totalCost > 0.0 ==> r.value.netProfitPct * r.value.totalCost == r.value.netProfit)
      && r.value.question == m.question && r.value.liquidity == m.liquidity
      && r.value.maxSize <= cfg.maxPositionSize
      && r.value.maxSize <= m.liquidity * 0.1
      && (r.value.maxSize == cfg.maxPositionSize || r.value.maxSize == m.liquidity * 0.1)
  {
    if m.yesPrice.None? || m.noPrice.None? then None
    else if m.liquidity < cfg.minLiquidity then None
    else
      var netCost := NetCost(m, cfg);
      var pct := ProfitPct(netCost);
      if pct >= cfg.minProfit then
        Some(PairOpp(m.conditionId, m.question, m.yesPrice.value, m.noPrice.value,
                     netCost, 1.0 - netCost, pct, m.liquidity,
                     Min(cfg.maxPositionSize, m.liquidity * 0.1)))
      else None
  }

  /** Opportunities in market order, before ranking. */
  function Emitted(ms: seq<Market>, cfg: Settings): (r: seq<PairOpp>)
    ensures |r| <= |ms|
    decreases |ms|
  {
    if |ms| == 0 then []
    else
      var rest := Emitted(ms[1..], cfg);
      match Evaluate(ms[0], cfg)
      case Some(o) => [o] + rest
      case None => rest
  }

  function PctKey(o: PairOpp): real { o.netProfitPct }

  /** `scan_for_arbitrage` over an already fetched market list. */
  function ScanForArbitrage(ms: seq<Market>, cfg: Settings): (r: seq<PairOpp>)
    ensures |r| <= |ms|
    ensures multiset(r) == multiset(Emitted(ms, cfg))
    ensures Sorting.SortedDesc(r, PctKey)
  {
    Sorting.SortDesc(Emitted(ms, cfg), PctKey)
  }

  /** An opportunity is in the scan result exactly when some market of the
      input evaluates to it. */
  lemma {:induction false} EmittedMembers(ms: seq<Market>, cfg: Settings, o: PairOpp)
    ensures o in Emitted(ms, cfg) <==> exists i :: 0 <= i < |ms| && Evaluate(ms[i], cfg) == Some(o)
    decreases |ms|
  {
    if |ms| > 0 {
      EmittedMembers(ms[1..], cfg, o);
      if (exists i :: 0 <= i < |ms[1..]| && Evaluate(ms[1..][i], cfg) == Some(o)) {
        var i :| 0 <= i < |ms[1..]| && Evaluate(ms[1..][i], cfg) == Some(o);
        assert Evaluate(ms[i + 1], cfg) == Some(o);
      }
      if (exists i :: 0 <= i < |ms| && Evaluate(ms[i], cfg) == Some(o)) {
        var i :| 0 <= i < |ms| && Evaluate(ms[i], cfg) == Some(o);
        if i > 0 { assert Evaluate(ms[1..][i - 1], cfg) == Some(o); }
      }
    }
  }

  lemma ScanMembers(ms: seq<Market>, cfg: Settings, o: PairOpp)
    ensures o in ScanForArbitrage(ms, cfg) <==> exists i :: 0 <= i < |ms| && Evaluate(ms[i], cfg) == Some(o)
  {
    Sorting.SortDescMembers(Emitted(ms, cfg), PctKey, o);
    EmittedMembers(ms, cfg, o);
  }

  /** A market with a missing price or too little liquidity contributes
      nothing; every emitted opportunity clears the threshold and the cap. */
  lemma ScanFilters(ms: seq<Market>, cfg: Settings, o: PairOpp)
    requires o in ScanForArbitrage(ms, cfg)
    ensures o.netProfitPct >= cfg.minProfit
    ensures o.maxSize <= cfg.maxPositionSize
    ensures exists i :: 0 <= i < |ms| && Eligible(ms[i], cfg) && ms[i].conditionId == o.conditionId
  {
    ScanMembers(ms, cfg, o);
  }

  /** Scanning a concatenation scans each part in turn, so every market
      contributes its own opportunity, or none, in input order. */
  lemma {:induction false} EmittedAppend(a: seq<Market>, b: seq<Market>, cfg: Settings)
    ensures Emitted(a + b, cfg) == Emitted(a, cfg) + Emitted(b, cfg)
    decreases |a|
  {
    if |a| > 0 {
      assert (a + b)[0] == a[0];
      assert (a + b)[1..] == a[1..] + b;
      EmittedAppend(a[1..], b, cfg);
      var head := if Evaluate(a[0], cfg).Some? then [Evaluate(a[0], cfg).value] else [];
      assert Emitted(a, cfg) == head + Emitted(a[1..], cfg);
      assert Emitted(a + b, cfg) == head + Emitted(a[1..] + b, cfg);
    } else {
      assert a + b == b;
    }
  }

  /** A single market yields exactly one opportunity when it passes both
      filters and the threshold, and none otherwise. */
  lemma EmittedSingle(m: Market, cfg: Settings)
    ensures Emitted([m], cfg) == if Evaluate(m, cfg).Some? then [Evaluate(m, cfg).value] else []
  {
  }

  /** With a positive cost and a threshold above -1, the profit test of line
      55 is the cost bound `net_cost <= 1 / (1 + threshold)`. */
  lemma ThresholdAsCostBound(netCost: real, t: real)
    requires netCost > 0.0 && t > -1.0
    ensures ProfitPct(netCost) >= t <==> netCost <= 1.0 / (1.0 + t)
  {
    var c := netCost;
    var q := (1.0 - c) / c;
    assert q * c == 1.0 - c;
    assert q >= t <==> q * c >= t * c by {
      if q >= t { MulMono(t, q, c); } else { MulMono(q, t, c); }
    }
    var b := 1.0 / (1.0 + t);
    assert b * (1.0 + t) == 1.0;
    assert c <= b <==> c * (1.0 + t) <= b * (1.0 + t) by {
      if c <= b { MulMono(c, b, 1.0 + t); } else { MulMono(b, c, 1.0 + t); }
    }
  }

  lemma MulMono(x: real, y: real, k: real)
    requires x <= y && k > 0.0
    ensures x * k <= y * k
    ensures x < y ==> x * k < y * k
  {
  }

  /** A cost below `1 - threshold` always clears the test, but the converse
      fails: with the default threshold 0.005 a net cost of 0.995 still emits
      (profit 0.005/0.995 is just above 0.005). */
  lemma CostBelowOneMinusThreshold(netCost: real, t: real)
    requires netCost > 0.0 && t >= 0.0 && netCost < 1.0 - t
    ensures ProfitPct(netCost) >= t
  {
    ThresholdAsCostBound(netCost, t);
    var b := 1.0 / (1.0 + t);
    assert b * (1.0 + t) == 1.0;
    assert (1.0 - t) * (1.0 + t) <= 1.0;
    assert 1.0 - t <= b by {
      if 1.0 - t > b { MulMono(b, 1.0 - t, 1.0 + t); }
    }
  }

  lemma BoundaryCostEmits()
    ensures ProfitPct(0.995) >= Defaults.minProfit
  {
  }

  /** The worked example: YES 0.46, NO 0.50, fee 0.001, liquidity 500 gives
      net cost 0.962, profit 0.038/0.962 (about 3.95%) and size cap 50. */
  lemma WorkedExample(m: Market)
    requires m.yesPrice == Some(0.46) && m.noPrice == Some(0.50) && m.liquidity == 500.0
    ensures ScanForArbitrage([m], Defaults) ==
      [PairOpp(m.conditionId, m.question, 0.46, 0.50, 0.962, 0.038, 0.038 / 0.962, 500.0, 50.0)]
  {
    assert Evaluate(m, Defaults).Some?;
  }
}

=== FILE: sorting.dfy ===
/** Python's `list.sort(key=..., reverse=True)`: a stable sort that orders
    records by a numeric key, largest first. Every ranked result of the bot
    (opportunities, hedges, market exposures) goes through it. */
module Sorting {

  /** Keys never increase along `s`. */
  ghost predicate SortedDesc<T>(s: seq<T>, key: T -> real) {
    forall i, j :: 0 <= i < j < |s| ==> key(s[i]) >= key(s[j])
  }

  /** Every element of `s` has a key of at most `bound`. */
  ghost predicate AllAtMost<T>(s: seq<T>, key: T -> real, bound: real) {
    forall i :: 0 <= i < |s| ==> key(s[i]) <= bound
  }

  /** Inserts `x` into a list sorted largest-first, after every element
      whose key is strictly larger and before the first one that is not. */
  function Insert<T>(x: T, s: seq<T>, key: T -> real): (r: seq<T>)
    requires SortedDesc(s, key)
    ensures |r| == |s| + 1
    ensures multiset(r) == multiset(s) + multiset{x}
    ensures SortedDesc(r, key)
  {
    if |s| == 0 then [x]
    else if key(s[0]) > key(x) then
      var rest := Insert(x, s[1..], key);
      assert SortedDesc(s[1..], key);
      assert s == [s[0]] + s[1..];
      BoundedBy(s[1..], x, rest, key, key(s[0]));
      ConsSorted(s[0], rest, key);
      [s[0]] + rest
    else
      assert AllAtMost(s, key, key(x));
      ConsSorted(x, s, key);
      [x] + s
  }

  /** A head whose key bounds a sorted tail keeps the list sorted. */
  lemma ConsSorted<T>(h: T, s: seq<T>, key: T -> real)
    requires SortedDesc(s, key) && AllAtMost(s, key, key(h))
    ensures SortedDesc([h] + s, key)
  {
    var r := [h] + s;
    forall i, j | 0 <= i < j < |r| ensures key(r[i]) >= key(r[j]) {
      assert r[j] == s[j - 1];
      if i > 0 {
        assert r[i] == s[i - 1];
      }
    }
  }

  lemma BoundedBy<T>(s: seq<T>, x: T, r: seq<T>, key: T -> real, bound: real)
    requires multiset(r) == multiset(s) + multiset{x}
    requires AllAtMost(s, key, bound)
    requires key(x) <= bound
    ensures AllAtMost(r, key, bound)
  {
    forall i | 0 <= i < |r|
      ensures key(r[i]) <= bound
    {
      assert r[i] in multiset(r);
      if r[i] != x {
        assert r[i] in multiset(s);
        var j :| 0 <= j < |s| && s[j] == r[i];
      }
    }
  }

  /** The stable largest-first sort. */
  function SortDesc<T>(s: seq<T>, key: T -> real): (r: seq<T>)
    ensures |r| == |s|
    ensures multiset(r) == multiset(s)
    ensures SortedDesc(r, key)
  {
    if |s| == 0 then []
    else
      assert s == [s[0]] + s[1..];
      Insert(s[0], SortDesc(s[1..], key), key)
  }

  /** Sorting keeps exactly the elements it was given. */
  lemma SortDescMembers<T>(s: seq<T>, key: T -> real, x: T)
    ensures x in SortDesc(s, key) <==> x in s
  {
    var r := SortDesc(s, key);
    assert x in r <==> x in multiset(r);
    assert x in s <==> x in multiset(s);
  }

  /** The first `n` elements of a list sorted largest-first are its top `n`:
      none of them has a smaller key than an element left out, and together
      they are a sub-multiset of the list. */
  lemma TopPrefix<T>(r: seq<T>, key: T -> real, n: nat)
    requires SortedDesc(r, key) && n <= |r|
    ensures multiset(r[..n]) <= multiset(r)
    ensures forall e, t :: e in r && e !in r[..n] && t in r[..n] ==> key(t) >= key(e)
  {
    assert r == r[..n] + r[n..];
    forall e, t | e in r && e !in r[..n] && t in r[..n] ensures key(t) >= key(e) {
      var j :| 0 <= j < |r| && r[j] == e;
      var i :| 0 <= i < n && r[..n][i] == t;
      assert r[i] == t;
    }
  }
}

=== FILE: swap.dfy ===
/** USDC <-> USDC.e conversion through a Uniswap V3 single-pool swap
    (modules/swap.py). The chain is outside the model: balances, allowance,
    transaction count and receipts are inputs; the transactions the code
    would sign are outputs. */
module Swap {
  import opened Common
  import Wallet

  /** Native USDC and bridged USDC.e on Polygon, and the Uniswap V3 router. */
  const UsdcNative: string := "0x3c499c542cEF5E3811e1192ce70d8cC03d5c3359"
  const UsdcE: string := "0x2791Bca1f2de4661ED88A30C99A7a9449Aa84174"
  const UniswapRouter: string := "0xE592427A0AEce92De3Edee1F18E0157C05861564"

  /** Fee tier 0.01%, the stablecoin pool. */
  const PoolFee: nat := 100

  /** `swap_usdc_to_usdc_e` or `swap_usdc_e_to_usdc`. */
  datatype Direction = ToBridged | ToNative

  function TokenIn(d: Direction): string { if d == ToBridged then UsdcNative else UsdcE }
  function TokenOut(d: Direction): string { if d == ToBridged then UsdcE else UsdcNative }

  /** `int(amount_raw * (10000 - slippage_bps) / 10000)`: the least output
      accepted, in raw units. */
  function MinOut(amountRaw: int, bps: int): (r: int)
    ensures amountRaw >= 0 && 0 <= bps <= 10000 ==> 0 <= r <= amountRaw
    ensures bps == 0 ==> r == amountRaw
  {
    Trunc((amountRaw * (10000 - bps)) as real / 10000.0)
  }

  /** The output floor loses at most one raw unit to truncation beyond the
      slippage itself. */
  lemma MinOutNearSlippage(amountRaw: nat, bps: nat)
    requires bps <= 10000
    ensures (MinOut(amountRaw, bps) + 1) as real > (amountRaw * (10000 - bps)) as real / 10000.0
    ensures MinOut(amountRaw, bps) as real <= (amountRaw * (10000 - bps)) as real / 10000.0
  {
    var p: nat := amountRaw * (10000 - bps);
    var x := p as real / 10000.0;
    assert x >= 0.0;
    assert MinOut(amountRaw, bps) == Trunc(x);
  }

  /** What the chain answers during a swap. `txCount` is the account's
      transaction count when the code first asks; a mined approval adds one
      to it. */
  datatype SwapChain = SwapChain(node: string, connected: bool, privateKey: string,
                                 balance: nat, allowance: nat, txCount: nat,
                                 receiptStatus: int, txHash: string)

  /** The `exactInputSingle` parameters of lines 128-137. */
  datatype SwapParams = SwapParams(tokenIn: string, tokenOut: string, fee: nat, deadline: int,
                                   amountIn: int, amountOutMinimum: int, sqrtPriceLimitX96: nat)

  /** A transaction the code signs and sends. */
  datatype Tx =
    | Approve(nonce: nat, spender: string, amount: nat)
    | Exchange(nonce: nat, params: SwapParams)

  datatype SwapOutcome =
    | SwapDryRun(amountIn: real, minOut: real, slippageBps: int)
    | SwapDone(status: string, txHash: string, amountIn: real, minOut: real)

  /** The result (or the exception), and the transactions sent in order. */
  datatype SwapRun = SwapRun(result: Result<SwapOutcome>, sent: seq<Tx>)

  /** Transactions carry consecutive nonces starting at `start`. */
  predicate Gapless(txs: seq<Tx>, start: nat) {
    forall i :: 0 <= i < |txs| ==> txs[i].nonce == start + i
  }

  /** Both swap functions; `bumpAfterApproval` says whether the swap nonce is
      the transaction count plus one after an approval (as the code does) or
      the count itself. */
  function SwapWith(d: Direction, ch: SwapChain, amount: real, bps: int, dryRun: bool, now: real,
                    bumpAfterApproval: bool): SwapRun
  {
    match Wallet.GetWeb3(ch.node, ch.connected)
    case Err(e) => SwapRun(Err(e), [])
    case Ok(_) =>
      match Wallet.AccountKey(ch.privateKey)
      case Err(e) => SwapRun(Err(e), [])
      case Ok(_) =>
        var amountRaw := Wallet.AmountRaw(amount);
        var minOut := MinOut(amountRaw, bps);
        if ch.balance < amountRaw then SwapRun(Err("Insufficient balance"), [])
        else
          var approved := ch.allowance < amountRaw;
          var approvals := if approved then [Approve(ch.txCount, UniswapRouter, Wallet.MaxUint256)] else [];
          // the count read at line 139, after the approval was mined
          var count := ch.txCount + |approvals|;
          var nonce := if approved && bumpAfterApproval then count + 1 else count;
          var params := SwapParams(TokenIn(d), TokenOut(d), PoolFee, Trunc(now) + 300, amountRaw, minOut, 0);
          var minOutUsdc := minOut as real / Wallet.UsdcScale;
          if dryRun then SwapRun(Ok(SwapDryRun(amount, minOutUsdc, bps)), approvals)
          else
            SwapRun(Ok(SwapDone(if ch.receiptStatus == 1 then "success" else "failed", ch.txHash,
                                amount, minOutUsdc)),
                    approvals + [Exchange(nonce, params)])
  }

  /** The swap as lines 139-141 (and 240-242) write it. */
  function SwapAsWritten(d: Direction, ch: SwapChain, amount: real, bps: int, dryRun: bool, now: real): SwapRun {
    SwapWith(d, ch, amount, bps, dryRun, now, true)
  }

  /** After a mined approval the count already includes it, so the extra
      `+ 1` skips a nonce: the swap is built with a nonce the chain will not
      accept until some other transaction fills the gap. */
  lemma SwapNonceGap(d: Direction, ch: SwapChain, amount: real, bps: int, now: real)
    requires Wallet.GetWeb3(ch.node, ch.connected).Ok? && Wallet.AccountKey(ch.privateKey).Ok?
    requires ch.allowance < Wallet.AmountRaw(amount) <= ch.balance
    ensures var r := SwapAsWritten(d, ch, amount, bps, false, now);
      |r.sent| == 2 && r.sent[0].nonce == ch.txCount && r.sent[1].nonce == ch.txCount + 2
      && !Gapless(r.sent, ch.txCount)
  {
  }

  /** The swap with the nonce the chain expects next. */
  function SwapTokens(d: Direction, ch: SwapChain, amount: real, bps: int, dryRun: bool, now: real): (r: SwapRun)
    ensures var amountRaw := Wallet.AmountRaw(amount);
      r.result.Ok? <==> Wallet.GetWeb3(ch.node, ch.connected).Ok? && Wallet.AccountKey(ch.privateKey).Ok?
                        && ch.balance >= amountRaw
    ensures r.result.Err? ==> r.sent == []
    ensures r.result.Ok? ==>
      var amountRaw := Wallet.AmountRaw(amount);
      && Gapless(r.sent, ch.txCount)
      && |r.sent| == (if ch.allowance < amountRaw then 1 else 0) + (if dryRun then 0 else 1)
      && (|r.sent| > 0 && r.sent[0].Approve? <==> ch.allowance < amountRaw)
      && (forall t :: t in r.sent && t.Approve? ==> t.spender == UniswapRouter && t.amount == Wallet.MaxUint256)
      && (dryRun <==> r.result.value.SwapDryRun?)
      && (dryRun ==> forall t :: t in r.sent ==> t.Approve?)
      && (!dryRun ==> (|r.sent| > 0 && r.sent[|r.sent| - 1].Exchange?
            && r.sent[|r.sent| - 1].params
               == SwapParams(TokenIn(d), TokenOut(d), PoolFee, Trunc(now) + 300, amountRaw, MinOut(amountRaw, bps), 0)))
      && (!dryRun ==> (r.result.value.status == "success" <==> ch.receiptStatus == 1))
      && (!dryRun ==> r.result.value.txHash == ch.txHash)
      && r.result.value.amountIn == amount
      && r.result.value.minOut == MinOut(amountRaw, bps) as real / Wallet.UsdcScale
      && (dryRun ==> r.result.value.slippageBps == bps)
  {
    SwapWith(d, ch, amount, bps, dryRun, now, false)
  }

  /** A dry run stops after the approval: with too small an allowance the
      approval is still sent, and nothing else. */
  lemma DryRunStillApproves(d: Direction, ch: SwapChain, amount: real, bps: int, now: real)
    requires Wallet.GetWeb3(ch.node, ch.connected).Ok? && Wallet.AccountKey(ch.privateKey).Ok?
    requires ch.allowance < Wallet.AmountRaw(amount) <= ch.balance
    ensures SwapTokens(d, ch, amount, bps, true, now).sent == [Approve(ch.txCount, UniswapRouter, Wallet.MaxUint256)]
  {
  }

  /** The reverse swap is the forward one with input and output tokens
      exchanged and everything else the same. */
  lemma ReverseMirrors(ch: SwapChain, amount: real, bps: int, dryRun: bool, now: real)
    ensures var f := SwapTokens(ToBridged, ch, amount, bps, dryRun, now);
      var b := SwapTokens(ToNative, ch, amount, bps, dryRun, now);
      && f.result == b.result && |f.sent| == |b.sent|
      && forall i :: 0 <= i < |f.sent| ==>
           (f.sent[i].Approve? ==> b.sent[i] == f.sent[i])
           && (f.sent[i].Exchange? ==> b.sent[i] == f.sent[i].(params := f.sent[i].params.(tokenIn := UsdcE, tokenOut := UsdcNative)))
  {
  }
}

=== FILE: trading.dfy ===
/** Trade execution (modules/trading.py): a buy splits USDC.e into one YES
    and one NO token per dollar, sells the unwanted side on the order book
    and records the position. The chain, the order-book client and the
    clock are outside the model: what they answer is an input, and what the
    code would ask of them is an output. */
module Trading {
  import opened Common
  import opened Markets
  import opened Positions
  import Wallet

  // ---------------------------------------------------------------------
  // Hex decoding (bytes.fromhex) and condition-id normalisation
  // ---------------------------------------------------------------------

  newtype Byte = x: int | 0 <= x < 256

  function HexValue(c: char): (d: nat)
    requires IsHexDigit(c)
    ensures d < 16
  {
    if IsDigit(c) then c as int - '0' as int
    else if 'a' <= c <= 'f' then c as int - 'a' as int + 10
    else c as int - 'A' as int + 10
  }

  function HexChar(d: nat): (c: char)
    requires d < 16
    ensures IsHexDigit(c) && HexValue(c) == d
  {
    if d < 10 then ('0' as int + d) as char else ('a' as int + d - 10) as char
  }

  /** Python's `bytes.fromhex`: two hex digits per byte, ASCII whitespace
      skipped before each pair, anything else a ValueError. */
  function FromHex(s: string): (r: Result<seq<Byte>>)
    ensures r.Ok? ==> |r.value| <= |s| / 2
    decreases |s|
  {
    if |s| == 0 then Ok([])
    else if IsAsciiSpace(s[0]) then FromHex(s[1..])
    else if |s| >= 2 && IsHexDigit(s[0]) && IsHexDigit(s[1]) then
      match FromHex(s[2..])
      case Ok(rest) => Ok([(16 * HexValue(s[0]) + HexValue(s[1])) as Byte] + rest)
      case Err(e) => Err(e)
    else Err("non-hexadecimal number found in fromhex() arg")
  }

  /** Lower-case hex rendering, two digits per byte. */
  function ToHex(bs: seq<Byte>): (s: string)
    ensures |s| == 2 * |bs|
    ensures forall i :: 0 <= i < |s| ==> IsHexDigit(s[i])
  {
    if |bs| == 0 then "" else [HexChar(bs[0] as nat / 16), HexChar(bs[0] as nat % 16)] + ToHex(bs[1..])
  }

  lemma {:induction false} FromHexToHex(bs: seq<Byte>)
    ensures FromHex(ToHex(bs)) == Ok(bs)
    decreases |bs|
  {
    if |bs| > 0 {
      var s := ToHex(bs);
      var b := bs[0] as nat;
      assert s[0] == HexChar(b / 16) && s[1] == HexChar(b % 16);
      assert !IsAsciiSpace(s[0]);
      assert s[2..] == ToHex(bs[1..]);
      FromHexToHex(bs[1..]);
      assert (16 * HexValue(s[0]) + HexValue(s[1])) as Byte == bs[0];
      assert FromHex(s) == Ok([bs[0]] + bs[1..]);
      assert [bs[0]] + bs[1..] == bs;
    }
  }

  /** An even-length run of hex digits always decodes, to half as many
      bytes. */
  lemma {:induction false} FromHexAllHex(s: string)
    requires |s| % 2 == 0
    requires forall i :: 0 <= i < |s| ==> IsHexDigit(s[i])
    ensures FromHex(s).Ok? && |FromHex(s).value| == |s| / 2
    decreases |s|
  {
    if |s| > 0 {
      assert !IsAsciiSpace(s[0]);
      FromHexAllHex(s[2..]);
    }
  }

  /** A character that is neither a hex digit nor whitespace makes the
      whole decode fail, wherever it stands. */
  lemma {:induction false} FromHexRejects(s: string, i: nat)
    requires i < |s| && !IsHexDigit(s[i]) && !IsAsciiSpace(s[i])
    ensures FromHex(s).Err?
    decreases |s|
  {
    if i > 0 {
      if IsAsciiSpace(s[0]) {
        FromHexRejects(s[1..], i - 1);
      } else if |s| >= 2 && IsHexDigit(s[0]) && IsHexDigit(s[1]) {
        FromHexRejects(s[2..], i - 2);
      }
    }
  }

  /** Python's `str.zfill(width)`: left-pad with '0' to `width`, keeping a
      leading sign in front; strings already long enough are unchanged. */
  function ZFill(s: string, width: nat): (r: string)
    ensures |s| >= width ==> r == s
    ensures |s| < width ==> |r| == width
    ensures |s| < width && (|s| == 0 || (s[0] != '+' && s[0] != '-')) ==>
      r == Zeros(width - |s|) + s
  {
    if |s| >= width then s
    else if |s| > 0 && (s[0] == '+' || s[0] == '-') then [s[0]] + Zeros(width - |s|) + s[1..]
    else Zeros(width - |s|) + s
  }

  function Zeros(n: nat): (r: string)
    ensures |r| == n && forall i :: 0 <= i < n ==> r[i] == '0'
  {
    if n == 0 then "" else "0" + Zeros(n - 1)
  }

  /** The id stripped of surrounding whitespace and of one leading "0x". */
  function IdDigits(raw: string): string {
    var c := Strip(raw);
    if StartsWith(c, "0x") then c[2..] else c
  }

  /** Lines 115-119: strip, drop one leading "0x", pad to 64 digits. */
  function NormalizeConditionId(raw: string): (r: string)
    ensures |r| >= 64
    ensures |IdDigits(raw)| >= 64 ==> r == IdDigits(raw)
  {
    ZFill(IdDigits(raw), 64)
  }

  /** The bytes32 condition argument of the split, or the ValueError. */
  function ConditionBytes(raw: string): (r: Result<seq<Byte>>)
    ensures r.Ok? <==> FromHex(NormalizeConditionId(raw)).Ok?
    ensures r.Ok? ==> r.value == FromHex(NormalizeConditionId(raw)).value
  {
    match FromHex(NormalizeConditionId(raw))
    case Ok(bs) => Ok(bs)
    case Err(_) => Err("condition_id is not valid hex: " + raw
                       + ". Make sure you're passing the condition_id, not a CLOB token_id.")
  }

  /** A "0x"-prefixed rendering of 32 bytes normalises to its own digits
      and decodes back to the same bytes. */
  lemma ConditionIdRoundTrip(bs: seq<Byte>)
    requires |bs| == 32
    ensures ConditionBytes("0x" + ToHex(bs)) == Ok(bs)
  {
    var h := ToHex(bs);
    var s := "0x" + h;
    assert !IsPySpace(s[0]) && !IsPySpace(s[|s| - 1]);
    assert LeadingSpaces(s) == 0 && s[0..] == s && TrailingSpaces(s) == 0;
    assert Strip(s) == s;
    assert s[..2] == "0x" && s[2..] == h;
    assert IdDigits(s) == h;
    assert NormalizeConditionId(s) == h;
    FromHexToHex(bs);
  }

  /** Any hex id of at most 64 digits, with or without "0x" and surrounding
      whitespace, decodes to exactly 32 bytes; shorter ids are left-padded
      with zero bytes. */
  lemma ShortHexIdsDecode(raw: string)
    requires |IdDigits(raw)| <= 64 && forall i :: 0 <= i < |IdDigits(raw)| ==> IsHexDigit(IdDigits(raw)[i])
    ensures ConditionBytes(raw).Ok? && |ConditionBytes(raw).value| == 32
  {
    var c := IdDigits(raw);
    var n := NormalizeConditionId(raw);
    assert |n| == 64;
    forall i | 0 <= i < 64 ensures IsHexDigit(n[i]) {
      if |c| < 64 {
        assert n == Zeros(64 - |c|) + c;
        if i >= 64 - |c| { assert n[i] == c[i - (64 - |c|)]; }
      }
    }
    FromHexAllHex(n);
  }

  /** An id holding a character that is neither a hex digit nor whitespace
      is refused before any transaction is built. */
  lemma NonHexIdRejected(raw: string, i: nat)
    requires i < |NormalizeConditionId(raw)|
    requires !IsHexDigit(NormalizeConditionId(raw)[i]) && !IsAsciiSpace(NormalizeConditionId(raw)[i])
    ensures ConditionBytes(raw).Err?
  {
    FromHexRejects(NormalizeConditionId(raw), i);
  }

  // ---------------------------------------------------------------------
  // split_position
  // ---------------------------------------------------------------------

  /** What the chain and environment answer during a split: the node URL,
      whether it is reachable, the configured key, and the receipt. */
  datatype Chain = Chain(node: string, connected: bool, privateKey: string,
                         receiptStatus: int, txHash: string)

  /** The splitPosition call that would be signed and sent. */
  datatype SplitCall = SplitCall(parentCollection: seq<Byte>, condition: seq<Byte>,
                                 partition: seq<nat>, amountRaw: int)

  /** The dict `split_position` returns, with the call it sent. */
  datatype SplitResult = SplitResult(txHash: string, status: string, amountUsdc: real,
                                     conditionId: string, sent: SplitCall)

  function SplitPosition(ch: Chain, conditionId: string, amountUsdc: real): (r: Result<SplitResult>)
    ensures r.Ok? <==> Wallet.GetWeb3(ch.node, ch.connected).Ok?
                       && Wallet.AccountKey(ch.privateKey).Ok? && ConditionBytes(conditionId).Ok?
    ensures r.Ok? ==>
      && (r.value.status == "success" <==> ch.receiptStatus == 1)
      && (r.value.status == "failed" <==> ch.receiptStatus != 1)
      && r.value.sent.condition == ConditionBytes(conditionId).value
      && r.value.sent.amountRaw == Wallet.AmountRaw(amountUsdc)
      && r.value.sent.partition == [1, 2]
      && |r.value.sent.parentCollection| == 32
      && r.value.conditionId == conditionId && r.value.amountUsdc == amountUsdc
  {
    match Wallet.GetWeb3(ch.node, ch.connected)
    case Err(e) => Err(e)
    case Ok(_) =>
      match Wallet.AccountKey(ch.privateKey)
      case Err(e) => Err(e)
      case Ok(_) =>
        match ConditionBytes(conditionId)
        case Err(e) => Err(e)
        case Ok(bs) =>
          var call := SplitCall(seq(32, _ => 0 as Byte), bs, [1, 2], Wallet.AmountRaw(amountUsdc));
          Ok(SplitResult(ch.txHash, if ch.receiptStatus == 1 then "success" else "failed",
                         amountUsdc, conditionId, call))
  }

  // ---------------------------------------------------------------------
  // place_order: bounded retries with exponential backoff
  // ---------------------------------------------------------------------

  datatype OrderType = GTC | GTD | FOK

  /** `ot_map.get(order_type.upper(), OrderType.GTC)`. */
  function OrderTypeOf(name: string): (t: OrderType)
    ensures Upper(name) == "GTD" <==> t == GTD
    ensures Upper(name) == "FOK" <==> t == FOK
  {
    var u := Upper(name);
    if u == "GTD" then GTD else if u == "FOK" then FOK else GTC
  }

  /** A placed order: the attempt (from 1) that succeeded and what it sent. */
  datatype Placed = Placed(attempt: nat, tokenId: string, side: string,
                           size: real, price: real, orderType: OrderType)

  /** `sleeps` is the backoff schedule 1, 2, 4, ... of `n` entries. */
  predicate IsBackoff(sleeps: seq<nat>, n: nat) {
    |sleeps| == n && forall i :: 0 <= i < n ==> sleeps[i] == Pow2(i)
  }

  function SumNat(xs: seq<nat>): nat {
    if |xs| == 0 then 0 else SumNat(xs[..|xs| - 1]) + xs[|xs| - 1]
  }

  /** `place_order` with `max_retries` from CLOB_MAX_RETRIES and
      `succeeds(k)` telling whether the client call of attempt `k` (from 0)
      returns rather than raises. Returns the result and the delays slept. */
  method PlaceOrder(tokenId: string, side: string, size: real, price: real, orderType: string,
                    maxRetries: int, succeeds: nat -> bool)
    returns (r: Result<Option<Placed>>, sleeps: seq<nat>)
    ensures Upper(side) != "BUY" && Upper(side) != "SELL" ==> r.Err? && sleeps == []
    ensures Upper(side) == "BUY" || Upper(side) == "SELL" ==> r.Ok?
    ensures r.Ok? ==> (r.value.Some? <==> exists k: nat :: k < maxRetries && succeeds(k))
    ensures r.Ok? && r.value.Some? ==>
      var p := r.value.value;
      && 1 <= p.attempt <= maxRetries && succeeds(p.attempt - 1)
      && (forall k: nat :: k < p.attempt - 1 ==> !succeeds(k))
      && IsBackoff(sleeps, p.attempt - 1)
      && p == Placed(p.attempt, tokenId, Upper(side), size, price, OrderTypeOf(orderType))
    ensures r.Ok? && r.value.None? ==> IsBackoff(sleeps, if maxRetries > 0 then maxRetries - 1 else 0)
  {
    sleeps := [];
    var s := Upper(side);
    if s != "BUY" && s != "SELL" {
      return Err("Side must be BUY or SELL, got: " + s), sleeps;
    }
    var ot := OrderTypeOf(orderType);
    var attempt: nat := 0;
    while attempt < maxRetries
      invariant maxRetries > 0 ==> attempt <= maxRetries
      invariant maxRetries <= 0 ==> attempt == 0
      invariant forall k: nat :: k < attempt ==> !succeeds(k)
      invariant attempt < maxRetries ==> IsBackoff(sleeps, attempt)
      invariant attempt >= maxRetries ==> IsBackoff(sleeps, if maxRetries > 0 then maxRetries - 1 else 0)
      decreases maxRetries - attempt
    {
      if succeeds(attempt) {
        return Ok(Some(Placed(attempt + 1, tokenId, s, size, price, ot))), sleeps;
      }
      if attempt < maxRetries - 1 {
        sleeps := sleeps + [Pow2(attempt)];
      }
      attempt := attempt + 1;
    }
    r := Ok(None);
  }

  /** The backoff before attempt `n` totals 2^n - 1 seconds. */
  lemma {:induction false} BackoffTotal(sleeps: seq<nat>, n: nat)
    requires IsBackoff(sleeps, n)
    ensures SumNat(sleeps) == Pow2(n) - 1
    decreases n
  {
    if n > 0 {
      BackoffTotal(sleeps[..n - 1], n - 1);
    }
  }

  /** With the default of five attempts a failing order sleeps 1+2+4+8 = 15
      seconds in all and never after the last attempt. */
  lemma DefaultRetriesSleep(sleeps: seq<nat>)
    requires IsBackoff(sleeps, 5 - 1)
    ensures SumNat(sleeps) == 15 && sleeps[|sleeps| - 1] == 8
  {
    BackoffTotal(sleeps, 4);
  }

  /** `sell_on_clob`: a SELL through `place_order`; the side is always valid. */
  method SellOnClob(tokenId: string, amount: real, price: real, maxRetries: int, succeeds: nat -> bool)
    returns (r: Option<Placed>, sleeps: seq<nat>)
    ensures r.Some? <==> exists k: nat :: k < maxRetries && succeeds(k)
    ensures r.Some? ==> r.value.side == "SELL" && r.value.size == amount && r.value.price == price
                        && r.value.tokenId == tokenId && r.value.orderType == GTC
  {
    assert Upper("SELL") == "SELL";
    assert Upper("GTC") == "GTC";
    var res;
    res, sleeps := PlaceOrder(tokenId, "SELL", amount, price, "GTC", maxRetries, succeeds);
    r := res.value;
  }

  // ---------------------------------------------------------------------
  // sell_position
  // ---------------------------------------------------------------------

  /** The `close_position_by_market(condition_id, side, price)` call a
      successful sell means to make; that function is not part of this model. */
  datatype CloseRequest = CloseRequest(conditionId: string, side: string, price: real)

  datatype SellOutcome =
    | SellDryRun(amount: real, price: real, side: string)
    | Sold(amount: real, price: real, side: string, order: Placed, close: CloseRequest)
    | SellFailed(amount: real, price: real)   // the order result is always None here

  /** The error `sell_position` raises as written once its order is placed:
      modules/positions.py defines no `close_position_by_market`. */
  const CloseImportError := "ImportError: cannot import name 'close_position_by_market' from 'modules.positions'"

  /** What a non-dry-run sell reports once the order attempt is over, as
      intended: a placed order closes the ledger record and reports `sold`. */
  function SellAfterOrder(order: Option<Placed>, amount: real, price: real, conditionId: string,
                          side: string): SellOutcome {
    match order
    case Some(p) => Sold(amount, price, side, p, CloseRequest(conditionId, side, price))
    case None => SellFailed(amount, price)
  }

  /** The same step as written: the import of the missing closer raises
      before anything is reported. */
  function SellAfterOrderAsWritten(order: Option<Placed>, amount: real, price: real): Result<SellOutcome> {
    if order.Some? then Err(CloseImportError) else Ok(SellFailed(amount, price))
  }

  /** As written, no placed sell is ever reported `sold`: every placed order
      ends in the ImportError, where the corrected step reports it sold with
      its close request; an order that was not placed reads the same both ways. */
  lemma PlacedSellRaises(order: Option<Placed>, amount: real, price: real, conditionId: string,
                         side: string)
    ensures order.Some? ==> SellAfterOrderAsWritten(order, amount, price) == Err(CloseImportError)
    ensures order.Some? ==> SellAfterOrder(order, amount, price, conditionId, side)
                              == Sold(amount, price, side, order.value, CloseRequest(conditionId, side, price))
    ensures order.None? ==> SellAfterOrderAsWritten(order, amount, price)
                              == Ok(SellAfterOrder(order, amount, price, conditionId, side))
    ensures SellAfterOrderAsWritten(order, amount, price).Ok? ==>
              !SellAfterOrderAsWritten(order, amount, price).value.Sold?
  {
  }

  /** `sell_position` as written: a dry run reports itself, a failed order
      reports `sell_failed`, and a placed order raises ImportError. */
  method SellPositionAsWritten(tokenId: string, amount: real, price: real, conditionId: string, side: string,
                               orderType: string, dryRun: bool, maxRetries: int, succeeds: nat -> bool)
    returns (r: Result<SellOutcome>, sleeps: seq<nat>)
    ensures dryRun ==> r == Ok(SellDryRun(amount, price, side)) && sleeps == []
    ensures !dryRun ==> (r == Err(CloseImportError) <==> exists k: nat :: k < maxRetries && succeeds(k))
    ensures !dryRun && r.Ok? ==> r.value == SellFailed(amount, price)
  {
    if dryRun {
      return Ok(SellDryRun(amount, price, side)), [];
    }
    assert Upper("SELL") == "SELL";
    var res;
    res, sleeps := PlaceOrder(tokenId, "SELL", amount, price, orderType, maxRetries, succeeds);
    r := SellAfterOrderAsWritten(res.value, amount, price);
  }

  /** `sell_position` corrected: a placed sell requests the close of the
      ledger record and reports `sold`. */
  method SellPosition(tokenId: string, amount: real, price: real, conditionId: string, side: string,
                      orderType: string, dryRun: bool, maxRetries: int, succeeds: nat -> bool)
    returns (r: SellOutcome, sleeps: seq<nat>)
    ensures dryRun ==> r == SellDryRun(amount, price, side) && sleeps == []
    ensures !dryRun ==> (r.Sold? <==> exists k: nat :: k < maxRetries && succeeds(k))
    ensures !dryRun ==> r.Sold? || r.SellFailed?
    ensures r.SellFailed? ==> r == SellFailed(amount, price)
    ensures r.Sold? ==> r.close == CloseRequest(conditionId, side, price) && r.amount == amount
                        && r.price == price && r.side == side
                        && r.order.side == "SELL" && r.order.tokenId == tokenId && r.order.size == amount
  {
    if dryRun {
      return SellDryRun(amount, price, side), [];
    }
    assert Upper("SELL") == "SELL";
    var res;
    res, sleeps := PlaceOrder(tokenId, "SELL", amount, price, orderType, maxRetries, succeeds);
    r := SellAfterOrder(res.value, amount, price, conditionId, side);
  }

  // ---------------------------------------------------------------------
  // buy: split, hedge, entry price, record
  // ---------------------------------------------------------------------

  /** The arguments of one `buy` call, as the strategies make it. */
  datatype BuyCall = BuyCall(conditionId: string, side: string, amountUsdc: real, currentPrice: real,
                             yesTokenId: Option<string>, noTokenId: Option<string>,
                             skipSell: bool, dryRun: bool)

  /** The order `buy` asks `sell_on_clob` for. */
  datatype SellRequest = SellRequest(tokenId: string, quantity: real, price: real)

  datatype BuyResult =
    | BuyDryRun(side: string, amountUsdc: real, conditionId: string)
    | SplitFailed(status: string, split: SplitResult)
    | Executed(side: string, amountUsdc: real, entryPrice: real, netCost: real, recovered: real,
               splitTx: string, sellStatus: string, conditionId: string)

  /** The outcome of one `buy`: its result (or the exception it raised),
      the ledger afterwards, and the hedge sell it asked for, if any. */
  datatype BuyStep = BuyStep(result: Result<BuyResult>, store: seq<Position>, sell: Option<SellRequest>)

  /** The token of the side not wanted: NO for a YES buy, YES for a NO buy. */
  function UnwantedToken(side: string, yesToken: Option<string>, noToken: Option<string>): Option<string> {
    if side == "YES" then noToken else yesToken
  }

  /** Entry price per token: what was paid net of the hedge, per token. */
  function EntryPrice(amount: real, recovered: real, current: real): real {
    if amount > 0.0 then (amount - recovered) / amount else current
  }

  /** `buy`. `split` is what `split_position` returns or raises when called;
      `sellPlaced` whether the hedge sell, when asked for, got placed. */
  function Buy(store: seq<Position>, now: real, conditionId: string, side: string, amount: real,
               current: real, yesToken: Option<string>, noToken: Option<string>,
               skipSell: bool, dryRun: bool, split: Result<SplitResult>, sellPlaced: bool): (r: BuyStep)
    ensures Upper(side) != "YES" && Upper(side) != "NO" ==> r.result.Err?
    ensures dryRun && (Upper(side) == "YES" || Upper(side) == "NO") ==>
      r.result == Ok(BuyDryRun(Upper(side), amount, conditionId))
    ensures !(r.result.Ok? && r.result.value.Executed?) ==> r.store == store && r.sell.None?
    ensures r.result.Ok? && r.result.value.SplitFailed? ==>
      split.Ok? && split.value.status != "success" && r.result.value.status == "split_failed"
    ensures (Upper(side) == "YES" || Upper(side) == "NO") && !dryRun && split.Ok? && split.value.status != "success" ==>
      r.result == Ok(SplitFailed("split_failed", split.value))
    ensures (Upper(side) == "YES" || Upper(side) == "NO") && !dryRun && split.Err? ==> r.result == Err(split.error)
    ensures r.result.Ok? && r.result.value.Executed? <==>
      (Upper(side) == "YES" || Upper(side) == "NO") && !dryRun && split.Ok? && split.value.status == "success"
    ensures r.result.Ok? && r.result.value.Executed? ==>
      var u := Upper(side);
      var e := r.result.value;
      && (r.sell.Some? <==> !skipSell && Present(UnwantedToken(u, yesToken, noToken)))
      && (r.sell.Some? ==> r.sell.value == SellRequest(UnwantedToken(u, yesToken, noToken).value, amount, 1.0 - current))
      && e.recovered == (if r.sell.Some? && sellPlaced then (1.0 - current) * amount else 0.0)
      && e.netCost == amount - e.recovered
      && e.entryPrice == EntryPrice(amount, e.recovered, current)
      && (e.sellStatus == "placed" <==> r.sell.Some? && sellPlaced)
      && (e.sellStatus == "skipped" <==> !(r.sell.Some? && sellPlaced))
      && r.store == RecordPosition(store, conditionId, u, amount, e.entryPrice, now).0
      && e.side == u && e.amountUsdc == amount && e.conditionId == conditionId
      && e.splitTx == split.value.txHash
  {
    var u := Upper(side);
    if u != "YES" && u != "NO" then BuyStep(Err("Side must be YES or NO, got: " + u), store, None)
    else if dryRun then BuyStep(Ok(BuyDryRun(u, amount, conditionId)), store, None)
    else match split
      case Err(e) => BuyStep(Err(e), store, None)
      case Ok(sr) =>
        if sr.status != "success" then BuyStep(Ok(SplitFailed("split_failed", sr)), store, None)
        else
          var unwanted := UnwantedToken(u, yesToken, noToken);
          var sell := if !skipSell && Present(unwanted) then Some(SellRequest(unwanted.value, amount, 1.0 - current)) else None;
          var placed := sell.Some? && sellPlaced;
          var recovered := if placed then (1.0 - current) * amount else 0.0;
          var entry := EntryPrice(amount, recovered, current);
          var st := RecordPosition(store, conditionId, u, amount, entry, now).0;
          BuyStep(Ok(Executed(u, amount, entry, amount - recovered, recovered, sr.txHash,
                              if placed then "placed" else "skipped", conditionId)), st, sell)
  }

  /** A dict built from a literal with `**` unpacking, as its key/value
      pairs in source order; a later pair for the same key wins. */
  function DictGet(entries: seq<(string, string)>, key: string): (r: Option<string>)
    ensures r.Some? <==> exists i :: 0 <= i < |entries| && entries[i].0 == key
    ensures r.Some? ==> exists i :: (0 <= i < |entries| && entries[i] == (key, r.value)
                                     && forall j :: i < j < |entries| ==> entries[j].0 != key)
    decreases |entries|
  {
    if |entries| == 0 then None
    else
      var last := entries[|entries| - 1];
      if last.0 == key then Some(last.1) else DictGet(entries[..|entries| - 1], key)
  }

  /** The text fields of `{"status": "split_failed", **split_result}` as
      line 327 writes it. */
  function SplitFailedDictAsWritten(sr: SplitResult): seq<(string, string)> {
    [("status", "split_failed"),
     ("tx_hash", sr.txHash), ("status", sr.status), ("condition_id", sr.conditionId)]
  }

  /** The unpacked split result comes second, so its own "failed" status
      overwrites "split_failed": a failed split is reported as "failed". */
  lemma SplitFailedStatusOverwritten(sr: SplitResult)
    requires sr.status == "failed"
    ensures DictGet(SplitFailedDictAsWritten(sr), "status") == Some("failed")
    ensures DictGet(SplitFailedDictAsWritten(sr), "status") != Some("split_failed")
  {
  }

  /** `buy` called with the arguments of `c`. */
  function BuyFor(c: BuyCall, store: seq<Position>, now: real, split: Result<SplitResult>, sellPlaced: bool): BuyStep {
    Buy(store, now, c.conditionId, c.side, c.amountUsdc, c.currentPrice, c.yesTokenId, c.noTokenId,
        c.skipSell, c.dryRun, split, sellPlaced)
  }

  /** With the hedge sell switched off no sell is asked for, and an executed
      buy of a positive amount records the full dollar per token as its
      entry price, whatever the quoted price. */
  lemma SkipSellEntryIsOne(c: BuyCall, store: seq<Position>, now: real, split: Result<SplitResult>, sellPlaced: bool)
    requires c.skipSell
    ensures BuyFor(c, store, now, split, sellPlaced).sell.None?
    ensures var r := BuyFor(c, store, now, split, sellPlaced);
      r.result.Ok? && r.result.value.Executed? && c.amountUsdc > 0.0 ==>
        r.result.value.entryPrice == 1.0 && r.result.value.sellStatus == "skipped"
  {
    if c.amountUsdc > 0.0 {
      EntryPriceOfHedge(c.amountUsdc, c.currentPrice);
    }
  }

  /** A placed hedge recovers `1 - current` per token, so the recorded entry
      price is the quoted price; without one the entry is the full dollar the
      split cost. */
  lemma EntryPriceOfHedge(amount: real, current: real)
    requires amount > 0.0
    ensures EntryPrice(amount, (1.0 - current) * amount, current) == current
    ensures EntryPrice(amount, 0.0, current) == 1.0
  {
    assert amount - (1.0 - current) * amount == current * amount;
  }

  /** A successful buy appends exactly one open record, for the upper-cased
      side and the full amount, and leaves the earlier records as they were. */
  lemma BuyRecordsOnce(store: seq<Position>, now: real, conditionId: string, side: string, amount: real,
                       current: real, yesToken: Option<string>, noToken: Option<string>,
                       skipSell: bool, split: Result<SplitResult>, sellPlaced: bool)
    requires var r := Buy(store, now, conditionId, side, amount, current, yesToken, noToken,
                          skipSell, false, split, sellPlaced);
      r.result.Ok? && r.result.value.Executed?
    ensures var r := Buy(store, now, conditionId, side, amount, current, yesToken, noToken,
                         skipSell, false, split, sellPlaced);
      && |r.store| == |store| + 1 && r.store[..|store|] == store
      && var p := r.store[|store|];
      && !p.closed && p.size == amount && p.side == Upper(side) && p.conditionId == conditionId
      && p.entryPrice == r.result.value.entryPrice
  {
    var r := Buy(store, now, conditionId, side, amount, current, yesToken, noToken,
                 skipSell, false, split, sellPlaced);
    var e := r.result.value;
    var (st, p) := RecordPosition(store, conditionId, Upper(side), amount, e.entryPrice, now);
    assert st[..|store|] == store;
    assert Upper(Upper(side)) == Upper(side);
  }

  /** A hedge sell that was asked for but never placed reports "skipped",
      the same as no sell at all, and leaves the entry at the full dollar. */
  lemma UnplacedSellReportsSkipped(store: seq<Position>, now: real, conditionId: string, amount: real,
                                   current: real, noToken: string, split: SplitResult)
    requires noToken != "" && split.status == "success" && amount > 0.0
    ensures var r := Buy(store, now, conditionId, "yes", amount, current, None, Some(noToken),
                         false, false, Ok(split), false);
      && r.sell == Some(SellRequest(noToken, amount, 1.0 - current))
      && r.result.value.sellStatus == "skipped" && r.result.value.entryPrice == 1.0
  {
    assert Upper("yes") == "YES";
    EntryPriceOfHedge(amount, current);
  }
}

=== FILE: wallet.dfy ===
/** Wallet access and one-time contract approvals (modules/wallet.py). The
    RPC node, the key store and the chain are outside the model: their
    answers (connectivity, allowances, receipts) are inputs. */
module Wallet {
  import opened Common

  /** 2^256 - 1, the allowance an approval grants. */
  const MaxUint256: nat := 0x1_0000_0000_0000_0000_0000_0000_0000_0000_0000_0000_0000_0000_0000_0000_0000_0000 - 1

  /** The allowance from which a contract counts as already approved. */
  const HalfMax: nat := MaxUint256 / 2

  /** USDC.e has 6 decimals. */
  const UsdcScale: real := 1000000.0

  /** `_get_web3`: the node URL, or the error raised for an unset variable
      or an unreachable node. */
  function GetWeb3(node: string, connected: bool): (r: Result<string>)
    ensures r.Ok? <==> node != "" && connected
    ensures r.Ok? ==> r.value == node
  {
    if node == "" then Err("CHAINSTACK_NODE environment variable not set")
    else if !connected then Err("Cannot connect to RPC: " + node)
    else Ok(node)
  }

  /** `_get_account`: the private key as handed to the key loader, with a
      "0x" prefix added when it is missing. */
  function AccountKey(pk: string): (r: Result<string>)
    ensures r.Err? <==> pk == ""
    ensures r.Ok? ==> StartsWith(r.value, "0x")
    ensures r.Ok? && StartsWith(pk, "0x") ==> r.value == pk
    ensures r.Ok? && !StartsWith(pk, "0x") ==> r.value == "0x" + pk
  {
    if pk == "" then Err("POLYCLAW_PRIVATE_KEY not set")
    else if StartsWith(pk, "0x") then Ok(pk)
    else Ok("0x" + pk)
  }

  /** Prefixing is idempotent: a loaded key loads as itself. */
  lemma AccountKeyIdempotent(pk: string)
    requires AccountKey(pk).Ok?
    ensures AccountKey(AccountKey(pk).value) == AccountKey(pk)
  {
    var k := AccountKey(pk).value;
    assert k[..2] == "0x";
  }

  /** `usdc_raw / 1e6`. */
  function UsdcBalance(raw: nat): (r: real)
    ensures r >= 0.0
    ensures r * UsdcScale == raw as real
  {
    raw as real / UsdcScale
  }

  /** `int(amount * 1e6)`: a USDC amount in raw 6-decimal units. */
  function AmountRaw(amount: real): (r: int)
    ensures amount >= 0.0 ==> 0 <= r && r as real <= amount * UsdcScale < r as real + 1.0
  {
    Trunc(amount * UsdcScale)
  }

  /** Raw units converted to USDC and back are unchanged. */
  lemma AmountRawRoundTrip(raw: nat)
    ensures AmountRaw(UsdcBalance(raw)) == raw
  {
    assert UsdcBalance(raw) * UsdcScale == raw as real;
    assert (raw as real).Floor == raw;
  }

  // ---------------------------------------------------------------------
  // approve_contracts
  // ---------------------------------------------------------------------

  /** What sending one approval transaction came to: a receipt with its
      status, or an exception with its message. */
  datatype Sent = Receipt(status: int, txHash: string) | Raised(message: string)

  /** One entry of the result list. */
  datatype Approval = Approval(name: string, status: string, tx: Option<string>)

  /** One approval to check: its name, the current allowance and what
      sending an approval would come to. */
  datatype Pending = Pending(name: string, allowance: nat, outcome: Sent)

  predicate NeedsApproval(p: Pending) { p.allowance < HalfMax }

  /** Whether approval `p` consumes a nonce: a transaction was sent and a
      receipt came back. */
  predicate Mined(p: Pending) { NeedsApproval(p) && p.outcome.Receipt? }

  /** Number of nonces the first `ps` approvals consume. */
  function MinedCount(ps: seq<Pending>): (n: nat)
    ensures n <= |ps|
    decreases |ps|
  {
    if |ps| == 0 then 0
    else MinedCount(ps[..|ps| - 1]) + (if Mined(ps[|ps| - 1]) then 1 else 0)
  }

  /** The result entry for one approval. */
  function ApprovalFor(p: Pending): (r: Approval)
    ensures r.name == p.name
    ensures !NeedsApproval(p) ==> r == Approval(p.name, "already_approved", None)
    ensures NeedsApproval(p) && p.outcome.Receipt? ==>
      r.tx == Some(p.outcome.txHash) && (r.status == "approved" <==> p.outcome.status == 1)
      && (r.status == "failed" <==> p.outcome.status != 1)
    ensures NeedsApproval(p) && p.outcome.Raised? ==>
      r.tx.None? && r.status == "error: " + p.outcome.message
  {
    if !NeedsApproval(p) then Approval(p.name, "already_approved", None)
    else match p.outcome
      case Receipt(status, h) => Approval(p.name, if status == 1 then "approved" else "failed", Some(h))
      case Raised(msg) => Approval(p.name, "error: " + msg, None)
  }

  /** The nonce each of the approvals `ps` is built with, if one is sent:
      the start plus the approvals mined before it. */
  function UsedNonces(ps: seq<Pending>, startNonce: nat): (r: seq<Option<nat>>)
    ensures |r| == |ps|
    decreases |ps|
  {
    if |ps| == 0 then []
    else
      var k := |ps| - 1;
      UsedNonces(ps[..k], startNonce)
        + [if NeedsApproval(ps[k]) then Some(startNonce + MinedCount(ps[..k])) else None]
  }

  /** The result entries of the approvals `ps`, in order. */
  function Approvals(ps: seq<Pending>): (r: seq<Approval>)
    ensures |r| == |ps|
    decreases |ps|
  {
    if |ps| == 0 then [] else Approvals(ps[..|ps| - 1]) + [ApprovalFor(ps[|ps| - 1])]
  }

  /** Entry `k` of the results is the result for approval `k`. */
  lemma {:induction false} ApprovalsAt(ps: seq<Pending>)
    ensures forall k :: 0 <= k < |ps| ==> Approvals(ps)[k] == ApprovalFor(ps[k])
    decreases |ps|
  {
    if |ps| > 0 {
      var n := |ps| - 1;
      ApprovalsAt(ps[..n]);
      forall k | 0 <= k < n ensures Approvals(ps)[k] == ApprovalFor(ps[k]) {
        assert ps[..n][k] == ps[k];
      }
    }
  }

  /** Approval `k` gets a nonce exactly when it needs approval, and that
      nonce is the start plus the approvals mined before it. */
  lemma {:induction false} UsedNoncesAt(ps: seq<Pending>, startNonce: nat)
    ensures forall k :: 0 <= k < |ps| ==> (UsedNonces(ps, startNonce)[k].Some? <==> NeedsApproval(ps[k]))
    ensures forall k :: 0 <= k < |ps| && UsedNonces(ps, startNonce)[k].Some? ==>
      UsedNonces(ps, startNonce)[k].value == startNonce + MinedCount(ps[..k])
    decreases |ps|
  {
    if |ps| > 0 {
      var n := |ps| - 1;
      UsedNoncesAt(ps[..n], startNonce);
      forall k | 0 <= k < n
        ensures UsedNonces(ps, startNonce)[k] == UsedNonces(ps[..n], startNonce)[k]
        ensures ps[..n][k] == ps[k] && ps[..n][..k] == ps[..k]
      {
      }
    }
  }

  /** `approve_contracts` after `_get_web3` and `_get_account` succeeded and
      the chain reported `startNonce`: one result per approval, in order,
      with the nonce each transaction was built with. */
  method ApproveContracts(ps: seq<Pending>, startNonce: nat)
    returns (results: seq<Approval>, used: seq<Option<nat>>, nonce: nat)
    ensures |results| == |ps| && |used| == |ps|
    ensures forall i :: 0 <= i < |ps| ==> results[i] == ApprovalFor(ps[i])
    ensures forall i :: 0 <= i < |ps| ==> (used[i].Some? <==> NeedsApproval(ps[i]))
    ensures forall i :: 0 <= i < |ps| && used[i].Some? ==> used[i].value == startNonce + MinedCount(ps[..i])
    ensures nonce == startNonce + MinedCount(ps)
  {
    results := [];
    used := [];
    nonce := startNonce;
    var i := 0;
    while i < |ps|
      invariant 0 <= i <= |ps|
      invariant results == Approvals(ps[..i])
      invariant used == UsedNonces(ps[..i], startNonce)
      invariant nonce == startNonce + MinedCount(ps[..i])
    {
      var p := ps[i];
      assert ps[..i + 1][..i] == ps[..i];
      results := results + [ApprovalFor(p)];
      used := used + [if NeedsApproval(p) then Some(nonce) else None];
      if Mined(p) {
        nonce := nonce + 1;  // incremented only after a receipt came back
      }
      i := i + 1;
    }
    assert ps[..|ps|] == ps;
    ApprovalsAt(ps);
    UsedNoncesAt(ps, startNonce);
  }

  /** Nonce discipline: every mined approval got its own nonce, and they are
      consecutive from the chain's count. */
  lemma MinedNoncesDistinct(ps: seq<Pending>, startNonce: nat, i: nat, j: nat)
    requires i < j < |ps| && Mined(ps[i]) && NeedsApproval(ps[j])
    ensures startNonce + MinedCount(ps[..i]) < startNonce + MinedCount(ps[..j])
  {
    MinedCountMono(ps, i + 1, j);
    assert ps[..i + 1][..i] == ps[..i];
  }

  lemma {:induction false} MinedCountMono(ps: seq<Pending>, a: nat, b: nat)
    requires a <= b <= |ps|
    ensures MinedCount(ps[..a]) <= MinedCount(ps[..b])
    decreases b - a
  {
    if a < b {
      MinedCountMono(ps, a, b - 1);
      assert ps[..b][..b - 1] == ps[..b - 1];
    }
  }

  /** An approval whose sending raised leaves the nonce where it was, so the
      next approval is built with the same nonce. */
  lemma RaisedReusesNonce(ps: seq<Pending>, startNonce: nat)
    requires |ps| == 2 && NeedsApproval(ps[0]) && ps[0].outcome.Raised? && NeedsApproval(ps[1])
    ensures startNonce + MinedCount(ps[..0]) == startNonce + MinedCount(ps[..1])
  {
    assert ps[..1][..0] == ps[..0];
  }
}

=== FILE: wsfeed.dfy ===
/** The live price feed (modules/ws_feed.py): a per-token price cache that
    websocket events merge into, the event dispatch, the subscription list
    and the reconnect back-off. The socket itself is not modelled: decoded
    messages and connection outcomes are inputs, and the clock is a
    parameter. */
module WsFeed {
  import opened Common

  const ReconnectDelayBase: int := 1
  const ReconnectDelayMax: int := 60

  // ---------------------------------------------------------------------
  // PriceCache
  // ---------------------------------------------------------------------

  /** The keys an entry of the cache can hold. */
  datatype Key = Price | BestBid | BestAsk | Bids | Asks | LastTradePrice

  /** One order-book level; `price` is None when the key is missing. */
  datatype Level = Level(price: Option<Scalar>)

  datatype Value = Num(x: Option<real>) | Levels(levels: seq<Level>)

  /** A token's entry: the dict `_prices[token_id]`. */
  type Entry = map<Key, Value>

  datatype Cache = Cache(prices: map<string, Entry>, updatedAt: map<string, real>)

  const EmptyCache := Cache(map[], map[])

  /** `PriceCache.update`: merge `data` into the token's entry (creating it
      when missing) and stamp the time. */
  function Update(c: Cache, token: string, data: Entry, now: real): (r: Cache)
    ensures r.prices.Keys == c.prices.Keys + {token}
    ensures r.prices[token].Keys == (if token in c.prices then c.prices[token].Keys else {}) + data.Keys
    ensures forall k :: k in data ==> r.prices[token][k] == data[k]
    ensures token in c.prices ==> forall k :: k in c.prices[token] && k !in data ==> r.prices[token][k] == c.prices[token][k]
    ensures forall t :: t in c.prices && t != token ==> r.prices[t] == c.prices[t]
    ensures r.updatedAt == c.updatedAt[token := now]
  {
    var prev := if token in c.prices then c.prices[token] else map[];
    Cache(c.prices[token := prev + data], c.updatedAt[token := now])
  }

  /** `PriceCache.get`. */
  function Get(c: Cache, token: string): (r: Option<Entry>)
    ensures r.Some? <==> token in c.prices
    ensures r.Some? ==> r.value == c.prices[token]
  {
    if token in c.prices then Some(c.prices[token]) else None
  }

  /** `entry.get(key)` for a numeric key: None when absent. */
  function NumAt(e: Entry, k: Key): Option<real> {
    if k in e && e[k].Num? then e[k].x else None
  }

  /** Python truthiness of an optional number. */
  predicate TruthyNum(v: Option<real>) { v.Some? && v.value != 0.0 }

  /** `get_price`: the last price when truthy, else the best bid; None for
      an unknown token or an empty entry. */
  function GetPrice(c: Cache, token: string): (r: Option<real>)
    ensures token !in c.prices || c.prices[token] == map[] ==> r.None?
    ensures token in c.prices && c.prices[token] != map[] ==>
      r == if TruthyNum(NumAt(c.prices[token], Price)) then NumAt(c.prices[token], Price)
           else NumAt(c.prices[token], BestBid)
  {
    match Get(c, token)
    case None => None
    case Some(e) =>
      if e == map[] then None
      else if TruthyNum(NumAt(e, Price)) then NumAt(e, Price)
      else NumAt(e, BestBid)
  }

  /** `get_best_bid_ask`. */
  function GetBestBidAsk(c: Cache, token: string): (r: (Option<real>, Option<real>))
    ensures token !in c.prices || c.prices[token] == map[] ==> r == (None, None)
    ensures token in c.prices && c.prices[token] != map[] ==>
      r == (NumAt(c.prices[token], BestBid), NumAt(c.prices[token], BestAsk))
  {
    match Get(c, token)
    case None => (None, None)
    case Some(e) => if e == map[] then (None, None) else (NumAt(e, BestBid), NumAt(e, BestAsk))
  }

  /** `clear`: both the prices and the timestamps are emptied. */
  function Clear(c: Cache): (r: Cache)
    ensures r.prices == map[] && r.updatedAt == map[]
    ensures forall t :: Get(r, t).None?
  {
    EmptyCache
  }

  /** Updating one key leaves the other keys of the entry as they were, and
      the value just written is read back. */
  lemma UpdateThenRead(c: Cache, token: string, p: real, now: real)
    requires p != 0.0
    ensures GetPrice(Update(c, token, map[Price := Num(Some(p))], now), token) == Some(p)
    ensures token in c.prices ==>
      GetBestBidAsk(Update(c, token, map[Price := Num(Some(p))], now), token)
      == (NumAt(c.prices[token], BestBid), NumAt(c.prices[token], BestAsk))
  {
    var r := Update(c, token, map[Price := Num(Some(p))], now);
    assert Price in r.prices[token];
    if token in c.prices {
      assert NumAt(r.prices[token], BestBid) == NumAt(c.prices[token], BestBid);
      assert NumAt(r.prices[token], BestAsk) == NumAt(c.prices[token], BestAsk);
    }
  }

  // ---------------------------------------------------------------------
  // Event parsing helpers
  // ---------------------------------------------------------------------

  /** `_safe_float`: None for a missing or null value and for anything
      `float()` rejects. */
  function SafeFloat(v: Option<Scalar>): (r: Option<real>)
    ensures v.None? || v.value.Null? ==> r.None?
    ensures v.Some? && v.value.Number? ==> r == Some(v.value.x)
    ensures v.Some? && ToFloat(v.value).Float? ==> r == Some(ToFloat(v.value).x)
    ensures r.Some? ==> v.Some? && ToFloat(v.value) == Float(r.value)
  {
    match v
    case None => None
    case Some(s) =>
      match ToFloat(s)
      case Float(x) => Some(x)
      case _ => None
  }

  /** `_best_level(levels, "price")`: the first level's price (0 when its
      key is missing), or None for no levels or an unreadable price. */
  function BestLevel(levels: seq<Level>): (r: Option<real>)
    ensures |levels| == 0 ==> r.None?
    ensures |levels| > 0 && levels[0].price.None? ==> r == Some(0.0)
    ensures |levels| > 0 && levels[0].price.Some? ==> r == SafeFloat(levels[0].price)
  {
    if |levels| == 0 then None
    else match levels[0].price
      case None => Some(0.0)
      case Some(v) => SafeFloat(Some(v))
  }

  // ---------------------------------------------------------------------
  // _process_event and _handle_message
  // ---------------------------------------------------------------------

  /** One entry of a price_change event's `changes`. */
  datatype Change = Change(assetId: string, price: Option<Scalar>, bestBid: Option<Scalar>, bestAsk: Option<Scalar>)

  /** A decoded event: an object with the fields the dispatcher reads
      (missing ones as "", [] or None), or any other JSON value. */
  datatype Event =
    | Obj(eventType: string, changes: seq<Change>, assetId: string,
          bids: seq<Level>, asks: seq<Level>, price: Option<Scalar>)
    | NonObject

  datatype Message = Batch(items: seq<Event>) | Single(event: Event)

  /** A callback invocation: which callback, for which token, with what. */
  datatype Notice = PriceNotice(token: string, data: Entry) | BookNotice(token: string, data: Entry)

  /** Which callbacks are installed. A callback that raises is logged and
      ignored, so only the calls made are recorded. */
  datatype Callbacks = Callbacks(onPriceChange: bool, onBookUpdate: bool)

  /** The cache after a run of events, the callback calls made, and whether
      an event that is not an object raised and ended the message. */
  datatype Handled = Handled(cache: Cache, notices: seq<Notice>, raised: bool)

  function ChangeData(ch: Change): Entry {
    map[Price := Num(SafeFloat(ch.price)), BestBid := Num(SafeFloat(ch.bestBid)),
        BestAsk := Num(SafeFloat(ch.bestAsk))]
  }

  /** The loop of lines 167-181 over a price_change event's entries. */
  function ApplyChanges(c: Cache, changes: seq<Change>, now: real, cb: Callbacks): (r: (Cache, seq<Notice>))
    ensures |r.1| <= |changes|
    ensures c.prices.Keys <= r.0.prices.Keys
    ensures forall t :: t in c.prices && (forall i :: 0 <= i < |changes| ==> changes[i].assetId != t) ==>
      t in r.0.prices && r.0.prices[t] == c.prices[t]
    ensures forall i :: 0 <= i < |changes| && changes[i].assetId != "" ==> changes[i].assetId in r.0.prices
    decreases |changes|
  {
    if |changes| == 0 then (c, [])
    else
      var ch := changes[0];
      if ch.assetId == "" then ApplyChanges(c, changes[1..], now, cb)
      else
        var data := ChangeData(ch);
        var (c2, ns) := ApplyChanges(Update(c, ch.assetId, data, now), changes[1..], now, cb);
        (c2, (if cb.onPriceChange then [PriceNotice(ch.assetId, data)] else []) + ns)
  }

  /** The entries of `changes` that name a token, in order. */
  function Named(changes: seq<Change>): (r: seq<Change>)
    ensures |r| <= |changes|
    ensures forall ch :: ch in r <==> ch in changes && ch.assetId != ""
    decreases |changes|
  {
    if |changes| == 0 then []
    else (if changes[0].assetId != "" then [changes[0]] else []) + Named(changes[1..])
  }

  /** A token's entry before an update: the current one, or empty. */
  function Prev(c: Cache, t: string): Entry {
    if t in c.prices then c.prices[t] else map[]
  }

  /** One price-change callback call per entry that names a token, in
      order, each with the data written for it; none without a callback. */
  lemma {:induction false} ApplyChangesNotices(c: Cache, changes: seq<Change>, now: real, cb: Callbacks)
    ensures var ns := ApplyChanges(c, changes, now, cb).1;
            && (!cb.onPriceChange ==> ns == [])
            && (cb.onPriceChange ==> |ns| == |Named(changes)|)
            && (cb.onPriceChange ==> forall k :: 0 <= k < |ns| && k < |Named(changes)| ==>
                  ns[k] == PriceNotice(Named(changes)[k].assetId, ChangeData(Named(changes)[k])))
    decreases |changes|
  {
    if |changes| > 0 {
      var ch := changes[0];
      if ch.assetId == "" {
        ApplyChangesNotices(c, changes[1..], now, cb);
      } else {
        ApplyChangesNotices(Update(c, ch.assetId, ChangeData(ch), now), changes[1..], now, cb);
      }
    }
  }

  /** Merging two updates that write the same keys is merging the later. */
  lemma MergeOverwritten(prev: Entry, d1: Entry, d2: Entry)
    requires d1.Keys <= d2.Keys
    ensures (prev + d1) + d2 == prev + d2
  {
  }

  /** A token named by a price change ends with the data of the last entry
      naming it merged into what it held before; its other keys are kept. */
  lemma {:induction false} ApplyChangesLast(c: Cache, changes: seq<Change>, now: real, cb: Callbacks, i: nat)
    requires i < |changes| && changes[i].assetId != ""
    requires forall j :: i < j < |changes| ==> changes[j].assetId != changes[i].assetId
    ensures var r := ApplyChanges(c, changes, now, cb).0;
            changes[i].assetId in r.prices
            && r.prices[changes[i].assetId] == Prev(c, changes[i].assetId) + ChangeData(changes[i])
    decreases |changes|
  {
    var t := changes[i].assetId;
    var ch := changes[0];
    if i == 0 {
      var c1 := Update(c, t, ChangeData(ch), now);
      assert ApplyChanges(c, changes, now, cb).0 == ApplyChanges(c1, changes[1..], now, cb).0;
      assert forall j :: 0 <= j < |changes[1..]| ==> changes[1..][j].assetId != t;
      assert c1.prices[t] == Prev(c, t) + ChangeData(ch);
    } else if ch.assetId == "" {
      ApplyChangesLast(c, changes[1..], now, cb, i - 1);
    } else {
      var c1 := Update(c, ch.assetId, ChangeData(ch), now);
      ApplyChangesLast(c1, changes[1..], now, cb, i - 1);
      if ch.assetId == t {
        MergeOverwritten(Prev(c, t), ChangeData(ch), ChangeData(changes[i]));
      }
    }
  }

  function BookData(ev: Event): Entry
    requires ev.Obj?
  {
    map[Bids := Levels(ev.bids), Asks := Levels(ev.asks),
        BestBid := Num(BestLevel(ev.bids)), BestAsk := Num(BestLevel(ev.asks))]
  }

  /** `_process_event` for an object event. */
  function ProcessEvent(c: Cache, ev: Event, now: real, cb: Callbacks): (r: (Cache, seq<Notice>))
    requires ev.Obj?
    ensures c.prices.Keys <= r.0.prices.Keys
    ensures ev.eventType == "price_change" ==> r == ApplyChanges(c, ev.changes, now, cb)
    ensures ev.eventType == "book" && ev.assetId != "" ==>
      && ev.assetId in r.0.prices
      && GetBestBidAsk(r.0, ev.assetId) == (BestLevel(ev.bids), BestLevel(ev.asks))
      && Bids in r.0.prices[ev.assetId] && Asks in r.0.prices[ev.assetId]
      && r.0.prices[ev.assetId][Bids] == Levels(ev.bids)
      && r.0.prices[ev.assetId][Asks] == Levels(ev.asks)
      && r.1 == if cb.onBookUpdate then [BookNotice(ev.assetId, BookData(ev))] else []
    ensures ev.eventType == "last_trade_price" && ev.assetId != "" ==>
      && ev.assetId in r.0.prices
      && NumAt(r.0.prices[ev.assetId], LastTradePrice) == SafeFloat(ev.price)
      && r.1 == []
    ensures ev.eventType == "book" || ev.eventType == "last_trade_price" ==>
      forall t :: t in c.prices && t != ev.assetId ==> t in r.0.prices && r.0.prices[t] == c.prices[t]
    ensures ev.eventType != "price_change" && (ev.assetId == "" || (ev.eventType != "book" && ev.eventType != "last_trade_price"))
      ==> r == (c, [])
  {
    if ev.eventType == "price_change" then ApplyChanges(c, ev.changes, now, cb)
    else if ev.eventType == "book" then
      if ev.assetId == "" then (c, [])
      else
        var data := BookData(ev);
        var u := Update(c, ev.assetId, data, now);
        assert BestBid in data && BestAsk in data;
        assert u.prices[ev.assetId] != map[];
        (u, if cb.onBookUpdate then [BookNotice(ev.assetId, data)] else [])
    else if ev.eventType == "last_trade_price" then
      if ev.assetId == "" then (c, [])
      else (Update(c, ev.assetId, map[LastTradePrice := Num(SafeFloat(ev.price))], now), [])
    else (c, [])
  }

  /** Events in order; the first non-object raises, keeping what the earlier
      events already wrote. */
  function ProcessAll(c: Cache, evs: seq<Event>, now: real, cb: Callbacks): (r: Handled)
    ensures c.prices.Keys <= r.cache.prices.Keys
    ensures r.raised ==> exists i :: 0 <= i < |evs| && evs[i].NonObject?
    decreases |evs|
  {
    if |evs| == 0 then Handled(c, [], false)
    else if evs[0].NonObject? then Handled(c, [], true)
    else
      var (c1, ns1) := ProcessEvent(c, evs[0], now, cb);
      var rest := ProcessAll(c1, evs[1..], now, cb);
      Handled(rest.cache, ns1 + rest.notices, rest.raised)
  }

  /** A batch raises exactly when one of its items is not an object. */
  lemma {:induction false} ProcessAllRaises(c: Cache, evs: seq<Event>, now: real, cb: Callbacks)
    ensures (forall i :: 0 <= i < |evs| ==> evs[i].Obj?) <==> !ProcessAll(c, evs, now, cb).raised
    decreases |evs|
  {
    if |evs| > 0 && evs[0].Obj? {
      ProcessAllRaises(ProcessEvent(c, evs[0], now, cb).0, evs[1..], now, cb);
      assert forall i :: 1 <= i < |evs| ==> evs[i] == evs[1..][i - 1];
    }
  }

  /** `_handle_message`: a list is processed item by item, anything else as
      one event. */
  function HandleMessage(c: Cache, msg: Message, now: real, cb: Callbacks): (r: Handled)
    ensures msg.Single? ==> r == ProcessAll(c, [msg.event], now, cb)
    ensures msg.Batch? ==> r == ProcessAll(c, msg.items, now, cb)
  {
    match msg
    case Batch(items) => ProcessAll(c, items, now, cb)
    case Single(ev) => ProcessAll(c, [ev], now, cb)
  }

  /** A batch is the same as its parts handled one after the other. */
  lemma {:induction false} ProcessAllAppend(c: Cache, a: seq<Event>, b: seq<Event>, now: real, cb: Callbacks)
    requires forall i :: 0 <= i < |a| ==> a[i].Obj?
    ensures var ra := ProcessAll(c, a, now, cb);
      var rb := ProcessAll(ra.cache, b, now, cb);
      ProcessAll(c, a + b, now, cb) == Handled(rb.cache, ra.notices + rb.notices, rb.raised)
    decreases |a|
  {
    if |a| == 0 {
      assert a + b == b;
    } else {
      assert (a + b)[0] == a[0];
      assert (a + b)[1..] == a[1..] + b;
      var (c1, ns1) := ProcessEvent(c, a[0], now, cb);
      ProcessAllAppend(c1, a[1..], b, now, cb);
      var ra := ProcessAll(c1, a[1..], now, cb);
      var rb := ProcessAll(ra.cache, b, now, cb);
      assert ns1 + (ra.notices + rb.notices) == (ns1 + ra.notices) + rb.notices;
    }
  }

  /** A price change leaves every token that none of its entries names as it
      was. */
  lemma PriceChangeKeepsOthers(c: Cache, changes: seq<Change>, t: string, now: real, cb: Callbacks)
    requires t in c.prices && forall i :: 0 <= i < |changes| ==> changes[i].assetId != t
    ensures var r := HandleMessage(c, Single(Obj("price_change", changes, "", [], [], None)), now, cb).cache;
      t in r.prices && r.prices[t] == c.prices[t]
  {
    HandleOne(c, Obj("price_change", changes, "", [], [], None), now, cb);
  }

  /** A message holding one object event is that event's processing. */
  lemma HandleOne(c: Cache, ev: Event, now: real, cb: Callbacks)
    requires ev.Obj?
    ensures HandleMessage(c, Single(ev), now, cb)
            == Handled(ProcessEvent(c, ev, now, cb).0, ProcessEvent(c, ev, now, cb).1, false)
  {
    var (c1, ns1) := ProcessEvent(c, ev, now, cb);
    assert [ev][0] == ev;
    assert [ev][1..] == [];
    assert ProcessAll(c1, [], now, cb) == Handled(c1, [], false);
    assert ns1 + [] == ns1;
  }

  /** An event of a type the dispatcher does not know changes nothing. */
  lemma UnknownEventIgnored(c: Cache, t: string, ev: Event, now: real, cb: Callbacks)
    requires ev.Obj? && ev.eventType == t && t != "price_change" && t != "book" && t != "last_trade_price"
    ensures HandleMessage(c, Single(ev), now, cb) == Handled(c, [], false)
  {
    HandleOne(c, ev, now, cb);
  }

  /** A last-trade event writes only that key: the token's price, best bid
      and best ask read as before. */
  lemma LastTradeTouchesOnlyItsKey(c: Cache, token: string, p: Option<Scalar>, now: real, cb: Callbacks)
    requires token != "" && token in c.prices
    ensures var ev := Obj("last_trade_price", [], token, [], [], p);
      var r := HandleMessage(c, Single(ev), now, cb).cache;
      && token in r.prices
      && NumAt(r.prices[token], LastTradePrice) == SafeFloat(p)
      && NumAt(r.prices[token], Price) == NumAt(c.prices[token], Price)
      && NumAt(r.prices[token], BestBid) == NumAt(c.prices[token], BestBid)
      && NumAt(r.prices[token], BestAsk) == NumAt(c.prices[token], BestAsk)
  {
    var ev := Obj("last_trade_price", [], token, [], [], p);
    var data := map[LastTradePrice := Num(SafeFloat(p))];
    assert ProcessEvent(c, ev, now, cb) == (Update(c, token, data, now), []);
    HandleOne(c, ev, now, cb);
  }

  /** A book event for a named token stores both sides' levels, sets the
      best bid and ask to the first level of each side (None for an empty
      side), notifies the book callback once when installed, and leaves
      every other token as it was. */
  lemma BookSetsBestLevels(c: Cache, ev: Event, now: real, cb: Callbacks)
    requires ev.Obj? && ev.eventType == "book" && ev.assetId != ""
    ensures var h := HandleMessage(c, Single(ev), now, cb);
      && !h.raised
      && ev.assetId in h.cache.prices
      && GetBestBidAsk(h.cache, ev.assetId) == (BestLevel(ev.bids), BestLevel(ev.asks))
      && Bids in h.cache.prices[ev.assetId] && h.cache.prices[ev.assetId][Bids] == Levels(ev.bids)
      && Asks in h.cache.prices[ev.assetId] && h.cache.prices[ev.assetId][Asks] == Levels(ev.asks)
      && h.notices == (if cb.onBookUpdate then [BookNotice(ev.assetId, BookData(ev))] else [])
      && forall t :: t in c.prices && t != ev.assetId ==> t in h.cache.prices && h.cache.prices[t] == c.prices[t]
  {
    HandleOne(c, ev, now, cb);
  }

  /** The book rule on one concrete event: no bids and one numeric ask. */
  lemma BookExample(c: Cache, token: string, ask: real, now: real, cb: Callbacks)
    requires token != ""
    ensures var ev := Obj("book", [], token, [], [Level(Some(Number(ask)))], None);
      GetBestBidAsk(HandleMessage(c, Single(ev), now, cb).cache, token) == (None, Some(ask))
  {
    var ev := Obj("book", [], token, [], [Level(Some(Number(ask)))], None);
    BookSetsBestLevels(c, ev, now, cb);
  }

  // ---------------------------------------------------------------------
  // MarketFeed: subscription and reconnect back-off
  // ---------------------------------------------------------------------

  /** `[aid for aid in new if aid not in current]`. */
  function NotIn(news: seq<string>, current: seq<string>): (r: seq<string>)
    ensures forall x :: x in r <==> x in news && x !in current
    ensures |r| <= |news|
  {
    if |news| == 0 then []
    else (if news[0] !in current then [news[0]] else []) + NotIn(news[1..], current)
  }

  /** `subscribe`: the current list followed by the ids it lacks, in the
      order given. Ids repeated within one call are all appended. */
  function Subscribe(current: seq<string>, news: seq<string>): (r: seq<string>)
    ensures |r| >= |current| && r[..|current|] == current
    ensures forall x :: x in r <==> x in current || x in news
    ensures forall i :: |current| <= i < |r| ==> r[i] !in current
  {
    current + NotIn(news, current)
  }

  predicate NoDuplicates(s: seq<string>) {
    forall i, j :: 0 <= i < j < |s| ==> s[i] != s[j]
  }

  /** Subscribing keeps a duplicate-free list duplicate-free when the new
      ids are themselves distinct, and subscribing twice adds nothing. */
  lemma SubscribeDistinct(current: seq<string>, news: seq<string>)
    requires NoDuplicates(current) && NoDuplicates(news)
    ensures NoDuplicates(Subscribe(current, news))
    ensures Subscribe(Subscribe(current, news), news) == Subscribe(current, news)
  {
    NotInDistinct(news, current);
    var s := Subscribe(current, news);
    NotInNone(news, s);
  }

  lemma {:induction false} NotInDistinct(news: seq<string>, current: seq<string>)
    requires NoDuplicates(news)
    ensures NoDuplicates(NotIn(news, current))
  {
    if |news| > 0 {
      assert NoDuplicates(news[1..]);
      NotInDistinct(news[1..], current);
      assert news[0] !in news[1..];
    }
  }

  lemma {:induction false} NotInNone(news: seq<string>, current: seq<string>)
    requires forall x :: x in news ==> x in current
    ensures NotIn(news, current) == []
  {
    if |news| > 0 {
      assert news[0] in news;
      NotInNone(news[1..], current);
    }
  }

  /** The filter keeps order: filtering a concatenation filters each part
      in place. With `NotInSingle`, the result is `news` with the subscribed
      ids taken out and the others in their original order. */
  lemma {:induction false} NotInAppend(a: seq<string>, b: seq<string>, current: seq<string>)
    ensures NotIn(a + b, current) == NotIn(a, current) + NotIn(b, current)
    decreases |a|
  {
    if |a| == 0 {
      assert a + b == b;
    } else {
      assert (a + b)[1..] == a[1..] + b;
      NotInAppend(a[1..], b, current);
    }
  }

  /** A single id survives exactly when it is not already subscribed. */
  lemma NotInSingle(x: string, current: seq<string>)
    ensures NotIn([x], current) == if x in current then [] else [x]
  {
    assert [x][1..] == [];
  }

  /** A repeated id in one call is appended twice. */
  lemma SubscribeKeepsRepeats()
    ensures Subscribe([], ["a", "a"]) == ["a", "a"]
  {
  }

  /** What one attempt of the `start` loop ran into. */
  datatype Attempt = Connected | ConnectionLost | Unexpected

  datatype FeedState = FeedState(running: bool, delay: int)

  /** One iteration of `start`: the new state, and the delay slept, if any.
      A successful connect resets the delay; a connection-class error sleeps
      and doubles it up to the cap; any other error sleeps without doubling.
      An error after `stop` ends the loop without sleeping. */
  function StartStep(s: FeedState, a: Attempt): (r: (FeedState, Option<int>))
    ensures a == Connected ==> r == (s.(delay := ReconnectDelayBase), None)
    ensures a != Connected && !s.running ==> r == (s, None)
    ensures a == ConnectionLost && s.running ==> r == (s.(delay := if 2 * s.delay < ReconnectDelayMax then 2 * s.delay else ReconnectDelayMax), Some(s.delay))
    ensures a == Unexpected && s.running ==> r == (s, Some(s.delay))
  {
    match a
    case Connected => (s.(delay := ReconnectDelayBase), None)
    case ConnectionLost =>
      if !s.running then (s, None)
      else (s.(delay := if 2 * s.delay < ReconnectDelayMax then 2 * s.delay else ReconnectDelayMax), Some(s.delay))
    case Unexpected =>
      if !s.running then (s, None) else (s, Some(s.delay))
  }

  /** How many attempts ended in an error. */
  function Failures(attempts: seq<Attempt>): nat
    decreases |attempts|
  {
    if |attempts| == 0 then 0 else (if attempts[0] == Connected then 0 else 1) + Failures(attempts[1..])
  }

  /** The delays slept over a run of attempts from `s`: one per failed
      attempt while running, none once stopped. */
  function Run(s: FeedState, attempts: seq<Attempt>): (r: (FeedState, seq<int>))
    ensures r.0.running == s.running
    ensures !s.running ==> r.1 == []
    ensures s.running ==> |r.1| == Failures(attempts)
    decreases |attempts|
  {
    if |attempts| == 0 then (s, [])
    else
      var (s1, slept) := StartStep(s, attempts[0]);
      var (s2, rest) := Run(s1, attempts[1..]);
      (s2, (if slept.Some? then [slept.value] else []) + rest)
  }

  predicate DelayInRange(s: FeedState) {
    ReconnectDelayBase <= s.delay <= ReconnectDelayMax
  }

  /** From the initial delay, every delay slept lies in [1, 60] and so does
      the delay afterwards, whatever the connection does. */
  lemma {:induction false} DelayStaysInRange(s: FeedState, attempts: seq<Attempt>)
    requires DelayInRange(s)
    ensures DelayInRange(Run(s, attempts).0)
    ensures forall d :: d in Run(s, attempts).1 ==> ReconnectDelayBase <= d <= ReconnectDelayMax
    decreases |attempts|
  {
    if |attempts| > 0 {
      var (s1, slept) := StartStep(s, attempts[0]);
      DelayStaysInRange(s1, attempts[1..]);
    }
  }

  /** `n` dropped connections in a row while running sleep 1, 2, 4, ...
      seconds, capped at 60. */
  lemma {:induction false} BackoffDoubles(s: FeedState, n: nat)
    requires s.running && s.delay == ReconnectDelayBase
    ensures Run(s, seq(n, _ => ConnectionLost)).1 == seq(n, i => CappedPow2(i))
    decreases n
  {
    if n > 0 {
      BackoffFrom(s, n, 0);
    }
  }

  /** min(2^i, 60), read as 1 for negative `i`. */
  function CappedPow2(i: int): int {
    var p := Pow2(if i < 0 then 0 else i);
    if p < ReconnectDelayMax then p else ReconnectDelayMax
  }

  lemma {:induction false} BackoffFrom(s: FeedState, n: nat, k: nat)
    requires s.running && s.delay == CappedPow2(k)
    ensures Run(s, seq(n, _ => ConnectionLost)).1 == seq(n, i => CappedPow2(k + i))
    decreases n
  {
    if n > 0 {
      var atts := seq(n, _ => ConnectionLost);
      assert atts[0] == ConnectionLost;
      assert atts[1..] == seq(n - 1, _ => ConnectionLost);
      var (s1, slept) := StartStep(s, ConnectionLost);
      assert s1.delay == CappedPow2(k + 1) by {
        assert Pow2(k + 1) == 2 * Pow2(k);
      }
      BackoffFrom(s1, n - 1, k + 1);
      var tail := seq(n - 1, i => CappedPow2(k + 1 + i));
      assert [CappedPow2(k)] + tail == seq(n, i => CappedPow2(k + i));
    }
  }
}
